=== FILE: README.md ===
# StockLens core in Dafny

StockLens downloads OHLCV price bars from Binance and Yahoo Finance. It keeps
them in a SQLite cache, computes technical indicators, turns them into
buy/sell/hold signals, and has local or LLM-backed agents explain the latest
signal of each asset. This project models the logic at the centre of that
pipeline and proves what it promises:

- **The market store** (`Store`, `store.dfy`). The five tables of
  `MarketDatabase` are sequences of rows, with the schema's UNIQUE and CHECK
  constraints as an invariant (`Store.Valid`). The store operations:
  `INSERT OR IGNORE` of bars, `INSERT OR REPLACE` of indicators and signals,
  the ordered and limited reads, agent runs and recommendations, the
  history join and the per-run summary.
- **The incremental cache** (`Cache`, `Interval`). Reading the cache, the
  staleness test, the download plan (full, shortfall, refresh or none),
  interval parsing with Python's `int()`, and the merge of fresh rows into
  cached ones (`Bars` holds the "last row per timestamp" machinery it uses).
- **The two signal engines.** The stateful rule engine of `rules.py`
  (`Rules`): required columns, rolling volume mean, MACD crosses, score,
  the enter/exit position machine, and ATR stops. The stateless classifier
  that `signals.py` and `signal_generator.py` both implement (`Classifier`).
- **The normalisers** (`Normalize`, on top of the pandas model in `Frames`):
  Yahoo and Binance normalisation, the argument checks of `download_data`,
  `standardize_ohlcv_columns`, and of `calculate_indicators` its column
  reads, the failure on an undefined ADX and the final `dropna`.
- **The LLM reply validation loop** of `LLMAgentBase._process_llm_response`
  (`LlmReply`).
- **The three local agents**, `LocalTradingAgent`, `run_agent_local` and
  `LocalAgent` (`Rationale`). Their rationale builders, symbol extraction
  from file names, per-file summaries and the sort by symbol.

Every operation is a pure function of its inputs. An input frame or store
is a value, so "the input is not mutated" holds by construction: a store
operation returns the new store.

`Common` and `Sorting` hold small string and sequence helpers: ASCII
`lower`, `strip`, `split` and `join`, a total string order, and an
insertion sort with its sortedness and permutation proof.

## Model

| member | source | states |
|---|---|---|
| Bars.LastAtAppend | src/database/data_cache.py:153-154 | after concatenating cached and new rows, the row that survives for a timestamp comes from the new rows whenever they hold that timestamp |
| Bars.KeepLast | src/database/data_cache.py:154 | `drop_duplicates(keep='last')`: the result has unique timestamps, and a bar is kept exactly when no later row has its timestamp |
| Bars.DedupSorted | src/database/data_cache.py:153-155 | de-duplicating then sorting gives an ascending frame whose bars are exactly the last bar seen for each timestamp |
| Bars.DedupSortedTimes | src/database/data_cache.py:153-155 | no timestamp is lost or invented: the merged frame has a row for a timestamp exactly when some input row has it |
| Bars.DedupSortedOfAscending | src/database/data_cache.py:154-155 | an already ascending frame with unique timestamps comes through the merge unchanged |
| Bars.FirstAtAppend | src/database/market_db.py:193-196 | under `INSERT OR IGNORE` the first row with a key wins, so appended rows never change an earlier key's value |
| Store.EmptyDbValid | src/database/market_db.py:41-122 | the empty database satisfies every UNIQUE, CHECK and id-numbering constraint the schema declares |
| Store.BarAt | src/database/market_db.py:279-285 | the `market_data_id` lookup finds nothing exactly when no stored bar has the (symbol, source, interval, timestamp) key, and otherwise a stored bar with that time |
| Store.BarAtOfRow | src/database/market_db.py:54 | because the key is UNIQUE, a bar is stored for a series if and only if the key lookup at its time returns it |
| Store.InsertBars | src/database/market_db.py:188-209 | the loop keeps the key unique, appends only bars of the frame for that series, and counts exactly the rows it added |
| Store.InsertBarsLookup | src/database/market_db.py:191-203 | after the insert, a key already stored keeps its bar, and a new key holds the first bar of the frame with that time |
| Store.InsertMarketData | src/database/market_db.py:175-209 | `insert_market_data` preserves the store invariant, changes only the bars table, keeps every earlier row, returns the number of new rows, and follows the first-wins lookup law |
| Store.InsertNeverOverwrites | src/database/market_db.py:193-196 | a bar already stored is still stored, with its old values, whatever frame is inserted |
| Store.InsertPresentIsNoOp | src/database/market_db.py:193-203 | a frame whose every timestamp is already stored leaves the table unchanged and reports 0 rows |
| Store.InsertIdempotent | src/database/market_db.py:188-209 | inserting the same frame twice adds nothing the second time: the store is unchanged and the count is 0 |
| Store.LatestTimestamp | src/database/market_db.py:163-173 | `MAX(timestamp)` is absent exactly when the series has no rows, and otherwise it is a stored time that no row of the series exceeds |
| Store.SeriesRows | src/database/market_db.py:234-247 | the WHERE clause selects exactly the stored bars of the series within the inclusive start and end bounds |
| Store.SeriesRowsUnique | src/database/market_db.py:54 | the rows of one series never share a timestamp |
| Store.GetMarketData | src/database/market_db.py:234-259 | the result is ascending and contains only in-range bars of the series; without a positive limit it holds all of them; with one it holds at most `limit` rows, and any row left out is newer than every row returned |
| Store.SortedSeries | src/database/market_db.py:249 | `ORDER BY timestamp ASC` returns exactly the selected bars, ascending by time |
| Store.AllBars | src/database/market_db.py:234-254 | the unfiltered, unlimited read is ascending, holds a bar exactly when the key lookup returns it, and is empty exactly when the series has no latest timestamp |
| Store.Replace | src/database/market_db.py:290-293 | `INSERT OR REPLACE` keeps the key unique; afterwards the replaced key reads the new value and every other key reads what it read before |
| Store.UpsertMatched | src/database/market_db.py:277-306 | rows whose bar exists are upserted in order, so the last such row for a time wins; rows without a bar are skipped; the count is the number of rows stored |
| Store.InsertIndicators | src/database/market_db.py:261-309 | `insert_indicators` changes only the indicators table, keeps it linked to stored bars, counts the rows whose bar exists, and every other key keeps its old value |
| Store.SignalItem | src/database/market_db.py:345-352 | a missing sub-signal, score or recommendation takes its default (0 or `hold`), and the row can be stored exactly when the recommendation passes the CHECK constraint |
| Store.InsertSignals | src/database/market_db.py:311-359 | `insert_signals` changes only the signals table; rows with a stored bar and a valid recommendation are upserted (last wins) and counted; the rest are skipped |
| Store.RejectedSignalIgnored | src/database/market_db.py:336-356 | a row with no matching bar, or whose recommendation fails the CHECK, is skipped: the store is unchanged and the count is 0 |
| Store.CreateAgentRun | src/database/market_db.py:388-407 | the insert fails exactly when the agent type is not local/llm or the status is not success/partial/failed; otherwise the run is appended with the next id |
| Store.InsertRecommendation | src/database/market_db.py:434-451 | the insert fails exactly when the recommendation is not buy/sell/hold; otherwise the row is appended and its new id returned |
| Store.SqlLimit | src/database/market_db.py:488-489 | `LIMIT n` keeps a prefix of length min(n, rows), and a negative limit keeps every row |
| Store.RunOf | src/database/market_db.py:480 | the JOIN finds the recommendation's run exactly when a run with that id exists |
| Store.HistoryRowsMembership | src/database/market_db.py:468-486 | a history row is exactly a recommendation that has a run and passes the symbol filter, joined with that run's columns; a missing or empty symbol does not filter |
| Store.RecommendationHistory | src/database/market_db.py:453-491 | the history is newest first and a sub-multiset of the joined rows, so no row appears more often than the join yields it; its length is min(limit, matches); a negative limit returns all of them; every row left out is no newer than those returned |
| Store.CountForRun | src/database/market_db.py:514 | the correlated COUNT is the number of recommendations whose run id equals the run's id |
| Store.SortedSummaries | src/database/market_db.py:503-516 | the per-run summaries (each run with its recommendation count) reordered newest run first, as a permutation |
| Store.AgentRunsSummary | src/database/market_db.py:493-520 | the summary is newest first, a sub-multiset of the per-run summaries (all of them for a negative limit), counts each run's recommendations, has length min(limit, runs), and omits only runs no newer than those it returns |
| Interval.ParsePyInt | src/database/data_cache.py:225 | Python's `int()` on the interval prefix fails exactly when, after stripping whitespace and one sign, the text is not digits with single underscores between them; otherwise the value is the digits' decimal value, negated after a minus sign |
| Interval.ParseSignedDecimal | src/database/data_cache.py:225 | a `+` or `-` in front of `str(n)` reads back as n or -n |
| Interval.ParseDecimal | src/database/data_cache.py:225 | parsing the decimal rendering of n gives back n |
| Interval.IntervalMinutes | src/database/data_cache.py:222-234 | an empty interval or an unknown unit means daily (1440 minutes); with a known unit it succeeds exactly when the prefix is an integer, giving that integer times the unit's minutes, and otherwise fails with the prefix's error |
| Interval.IntervalRoundTrip | src/database/data_cache.py:224-231 | a count followed by m, h, d or w is read back as that count times 1, 60, 1440 or 10080 minutes |
| Interval.IntervalCaseInsensitive | src/database/data_cache.py:222 | the interval is read case-insensitively |
| Interval.UpperMIsMinutes | src/database/data_cache.py:222-225 | lower-casing first means `1M` reads as one minute, not one month |
| Interval.UnknownSuffixIsDaily | src/database/data_cache.py:232-234 | any unit letter other than m, h, d or w falls back to daily, even when the text is not a number |
| Interval.NeedsUpdate | src/database/data_cache.py:89-100 | no cache always needs an update; otherwise an unparsable interval propagates its error, a doubled interval or maximum age beyond 999999999 days raises OverflowError with the offending day count (the interval's first), and else the data is stale exactly when its age exceeds twice the interval or the maximum age |
| Interval.HugeMaxAgeOverflows | src/database/data_cache.py:98 | a maximum age of more than 999999999 days raises OverflowError with its day count once the interval's own delta fits |
| Interval.HugeIntervalOverflows | src/database/data_cache.py:94 | an interval of 10^8 weeks or more overflows `timedelta` when doubled, reporting 14 days per week |
| Interval.FreshnessMonotone | src/database/data_cache.py:97-100 | if an older latest timestamp is still fresh, any newer one is fresh too |
| Interval.StalenessPastADay | src/database/data_cache.py:93-100 | for daily or longer intervals with the default 24 hours, whenever no timedelta overflows, the data is stale exactly when it is more than a day old |
| Cache.GetCachedData | src/database/data_cache.py:53-70 | the cache is absent exactly when the series has no rows; otherwise the frame is non-empty, ascending and stored: every bar when uncapped, the oldest `limit` bars under a positive limit; the timestamp is the newest stored bar's time, never older than the frame's last row, and equal to it when uncapped |
| Cache.CappedIsOldest | src/database/market_db.py:248-251 | under a positive limit, `ORDER BY timestamp ASC LIMIT n` reads the first n bars of the full ascending series |
| Cache.UncappedIsAllBars | src/database/market_db.py:251-252 | a missing, zero or negative limit reads the whole series |
| Cache.CachedNonEmpty | src/database/data_cache.py:60-68 | once a latest timestamp exists the read is non-empty, whatever the limit, so the `cached_df.empty` branch is dead |
| Cache.LatestIsNewestBar | src/database/data_cache.py:53-70 | the timestamp returned with the cache is the time of its newest row |
| Cache.WithMargin | src/database/data_cache.py:209 | `int(missing * 1.1)` is at least the shortfall, at least 1 for a real shortfall, and is the floor of eleven tenths of it |
| Cache.PlanDownload | src/database/data_cache.py:190-210 | no cache downloads the request in full; a shortfall downloads `int(missing * 1.1)` rows from scratch, at least the missing rows; a sufficient cache refreshes from its latest timestamp, with a non-zero download exactly when stale and then exactly `max(100, requested // 10)` rows; a staleness error propagates |
| Cache.DownloadParams | src/database/data_cache.py:188-210 | the plan is computed from the cached row count and latest timestamp, and a plan that uses the cache only exists when the series has rows |
| Cache.TailLimit | src/database/data_cache.py:158-159 | the result is a suffix of the frame: all of it without a limit, min(limit, rows) rows for a positive limit, and for a negative limit pandas' `tail`, which drops that many leading rows |
| Cache.MergeWithCache | src/database/data_cache.py:144-164 | the store always ends as `insert_market_data` of the new frame; without a cache the new frame is returned as is; otherwise the result is the de-duplicated, sorted union cut to the limit |
| Cache.MergedFrame | src/database/data_cache.py:153-159 | the merged frame is ascending, each row is the last one seen for its timestamp, it respects a positive limit, and rows cut by the limit are older than all rows kept |
| Cache.TailKeepsNewest | src/database/data_cache.py:158-159 | the tail of an ascending frame stays ascending and drops only rows older than all it keeps |
| Cache.FreshRowWins | src/database/data_cache.py:153-154 | a new row that is the last of its timestamp in the new frame appears in the merged result |
| Cache.RestatedBarNotPersisted | src/database/data_cache.py:153-162 | a restated bar is returned to the caller, the stored version is not, yet the store still holds the stored version |
| Cache.RestatedBarDropped | src/database/data_cache.py:153-155 | a cached bar restated by a new row does not survive the merge |
| Cache.ResaveAgrees | src/database/data_cache.py:162 | saving the new frame does not change which bar the merge would pick for any timestamp |
| Cache.SaveKeepsCache | src/database/data_cache.py:162 | once a series is cached, saving more rows never makes it uncached |
| Cache.MergeIdempotent | src/database/data_cache.py:145-164 | merging the same new frame a second time returns the same frame |
| Rules.MissingRequired | src/signals/rules.py:18-21 | the error lists exactly the required columns the frame lacks, sorted, each once |
| Rules.CompleteColumns | src/signals/rules.py:5-21 | a frame with all eleven required columns passes the check |
| Rules.WindowOkIffAtLeastThree | src/signals/rules.py:23-24 | pandas accepts `rolling(w, min_periods=max(3, w//3))` exactly when the window is at least 3 |
| Rules.VolumeMa | src/signals/rules.py:23-24 | the rolling mean is defined exactly when its window holds at least min_periods observed volumes (so never on the first min_periods - 1 rows), and then it is their mean |
| Rules.MacdCrosses | src/signals/rules.py:26-34 | the first row never crosses, a row cannot cross both ways, and an up (down) cross means MACD is above (below) its signal now and was not above (below) it on the previous row |
| Rules.Momentum | src/signals/rules.py:41-53 | the momentum flag holds exactly when SMA50 > SMA200, MACD > signal and RSI > 50, with any missing value counting as false; the cross term adds nothing |
| Rules.MeanReversion | src/signals/rules.py:45-57 | the mean-reversion flag holds exactly when RSI is below the oversold level and the close is above EMA12; the rebound term adds nothing |
| Rules.VolumeOk | src/signals/rules.py:49-60 | the volume flag holds exactly when today's volume and its rolling mean are defined and the volume exceeds the mean, so it is off on the first min_periods - 1 rows |
| Rules.Score | src/signals/rules.py:64 | the score lies in [0, 4], any score of 3 or more implies momentum, and 4 is reached exactly when all three flags hold |
| Rules.EnterRule | src/signals/rules.py:65 | a score at the threshold always enters; for thresholds up to 2 (the default) entering is exactly score >= threshold; an entry below the threshold needs the volume flag |
| Rules.ExitRule | src/signals/rules.py:68 | an exit needs MACD below its signal or the close below SMA50; on the first row it is exactly the close below SMA50 |
| Rules.ActionName | src/signals/rules.py:72-87 | the engine emits `enter`, `exit` or `hold`, and of these only `hold` is a recommendation the signals table accepts |
| Rules.Step | src/signals/rules.py:80-87 | one turn of the loop enters exactly when flat with an entry signal, exits exactly when in position with an exit signal, and otherwise keeps the position |
| Rules.TraceStep | src/signals/rules.py:74-87 | each row's state is the step applied to the previous row's position, starting flat |
| Rules.RunPositions | src/signals/rules.py:71-87 | the loop over rows produces, row by row, the positions and actions of the functional trace |
| Rules.TracePrefix | src/signals/rules.py:74-87 | the state at a row depends only on the rows up to it |
| Rules.Alternation | src/signals/rules.py:71-87 | emitted actions alternate, starting with `enter`, and the engine is in position exactly after an odd number of them |
| Rules.SortedRows | src/signals/rules.py:38 | the rows are sorted by time, as a permutation of the input |
| Rules.Emit | src/signals/rules.py:89-98 | an output row carries the momentum, mean-reversion and volume flags of its row as 0/1 columns, score = 2 momentum + mean reversion + volume in [0, 4], stop = close - atr_mult * ATR and target = close + atr_mult * ATR (missing when either is), and the trace's action and position |
| Rules.AnnotateColumns | src/signals/rules.py:89-98 | every row of the annotation holds its row's three flags as 0/1 sub-signal columns, their weighted score, and the stop and target atr_mult ATRs either side of the close |
| Rules.Annotate | src/signals/rules.py:40-98 | one output row per sorted row, keeping its time and close, with the position and action the trace gives |
| Rules.PositionConsistent | src/signals/rules.py:74-93 | a row says `enter` exactly when flat before it with an entry signal, `exit` exactly when held with an exit signal, and `hold` leaves the position as it was |
| Rules.MakeRecommendations | src/signals/rules.py:36-104 | missing columns are reported first, then a repeated `time` label, then a repeated label read before the rolling window, then an invalid window; the call succeeds exactly when all required columns are present, every one read is unique and the window is at least 3, and then returns the engine's annotation of the time-sorted rows |
| Common.FirstRepeated | src/signals/rules.py:41-47 | the first of a list of labels that names more than one column, or none exactly when each names at most one |
| Rules.ReadLabelsOnce | src/signals/rules.py:5-8 | the labels the engine reads are every required label but `ema_26`, so they are unique exactly when the time check and both groups of reads pass |
| Rules.RepeatedTimeRejected | src/signals/rules.py:38 | a frame with a second `time` column is rejected by the sort |
| Rules.ResultSorted | src/signals/rules.py:38 | the output is in time order |
| Rules.AnnotatePrefix | src/signals/rules.py:36-98 | the engine is causal: annotating a prefix of the rows gives the prefix of the annotation |
| Rules.EngineActionRejected | src/database/market_db.py:336-356 | an `enter` or `exit` row from this engine is skipped by `insert_signals`, because the CHECK constraint accepts only buy, sell and hold |
| Common.FirstMissing | src/signals/signals.py:39-41 | a KeyError names the first column read that the frame lacks, and there is none exactly when all are present |
| Classifier.AddColumns | src/signals/signals.py:39-45 | assigning columns keeps the existing ones in place and adds only the new labels |
| Classifier.AddColumnsOrder | src/signals/signals.py:39-45 | distinct labels are appended in assignment order, each only if it is not already a column |
| Classifier.Momentum | src/signals/signals.py:39 | momentum is 1 exactly when MACD > signal and ADX > 20, else 0 |
| Classifier.MeanReversion | src/signals/signals.py:40 | mean reversion is 1 exactly when RSI < 30, -1 exactly when RSI > 70, else 0 |
| Classifier.VolumeUp | src/signals/signals.py:41 | the volume flag is 1 exactly when OBV rose from the previous row; on the first row `diff()` is NaN and the flag is 0 |
| Classifier.Label | src/signals/signals.py:45 | the label is buy, sell or hold exactly as the score is positive, negative or zero, so it always passes the CHECK constraint |
| Classifier.ClassifyRow | src/signals/signals.py:39-45 | the sub-signals are momentum, mean reversion and the OBV rise of that row, the score is their sum in [-1, 3], and its sign decides the label |
| Classifier.Classify | src/signals/signals.py:36-47 | the classifier succeeds exactly when each read column is there once; otherwise the error is that of the first failing group of reads, a missing label before a repeated one; on success it keeps every row in order, gives each its sub-signals, score and label, and appends the written columns that are new, in order |
| Classifier.GroupError | src/signals/signals.py:39-41 | one expression's reads fail with KeyError for the first missing label, else with the repeated-label ValueError for the first repeated one, and pass exactly when each label is there once |
| Classifier.ReadError | src/signals/signals.py:39-41 | the reads stop at the first group that fails, with its error, and pass exactly when every group does |
| Classifier.ReadErrorAt | src/signals/signals.py:39-41 | when every earlier group of reads passes and one fails, the reads stop there with its error |
| Classifier.ReadGroupsCover | src/signals/signals.py:39-41 | every group of reads passes exactly when each of macd, macd_signal, adx, rsi_14 and obv labels one column |
| Classifier.RepeatedMacdFailsFirst | src/signals/signals.py:39 | a repeated `macd` fails at the MACD comparison, before the missing `adx` is read |
| Classifier.RepeatedObvFails | src/signals/signals.py:41 | with the other read columns there once, a repeated `obv` fails at the volume sub-signal |
| Classifier.SellMeansOverbought | src/signals/signals.py:39-45 | `sell` happens only when RSI is overbought and both other sub-signals are 0, with score -1 |
| Classifier.BuyCondition | src/signals/signals.py:39-45 | `buy` holds exactly when a bullish sub-signal outweighs an overbought RSI |
| Classifier.FlavoursAgree | src/signals/signal_generator.py:20-42 | `signal_generator.py` succeeds and fails with `signals.py` and computes the same values under its own column names |
| Classifier.StorageInput | src/database/market_db.py:345-350 | `insert_signals` reads the sub-signals by their `sig_*` names: from a `signals.py` row it gets all three, from a `signal_generator.py` row none, and the score and recommendation from both |
| Classifier.LabelStored | src/database/market_db.py:336-353 | a classified row whose bar exists is stored and counted by `insert_signals`; a `signals.py` row with all its values, a `signal_generator.py` row with its score and label and sub-signals 0, 0, 0 |
| Frames.DropColumn | src/data_ingestion/market_data.py:37 | `drop(columns=[name])` removes every column with that label and keeps the others, with their counts |
| Frames.FirstOfEachLabel | src/data_ingestion/market_data.py:56 | keeping the first column of each label leaves every label exactly once |
| Frames.Select | src/data_ingestion/market_data.py:57 | `df[names]` keeps exactly the named labels that exist, all columns of each, in the order of the names |
| Frames.SortRowsBy | src/data_ingestion/market_data.py:76 | `sort_values(name)` fails when the label is absent or repeated; otherwise the rows are a sorted permutation with a fresh range index |
| Frames.ResetIndex | src/data_ingestion/market_data.py:33 | `reset_index()` prepends the index as a column, and fails exactly when that label already exists |
| Frames.Rename | src/data_ingestion/market_data.py:46 | `rename(columns=...)` relabels every column through the mapping and leaves the rows and index alone |
| Frames.DropNa | src/features/indicators.py:94 | `dropna()` keeps exactly the complete rows, in order |
| Normalize.YahooNameTargets | src/data_ingestion/market_data.py:40-45 | only Date, Datetime (or time) become `time`, and only Close, Adj Close (or close) become `close` |
| Normalize.YahooTimeColumn | src/data_ingestion/market_data.py:30-33 | the date index becomes a column only when no Date or Datetime column exists, and that fails exactly when its name is already a column |
| Normalize.DropAdjCloseProjects | src/data_ingestion/market_data.py:36-37 | with both closes present, `Adj Close` is dropped and everything else kept in order |
| Normalize.NormalizeYahoo | src/data_ingestion/market_data.py:16-57 | Yahoo normalisation is the index step followed by the column step, with the first error winning |
| Normalize.YahooColumns | src/data_ingestion/market_data.py:35-57 | fails exactly when no time or no close column can be produced; otherwise the columns are the canonical ones present, once each, and the rows are the projected rows sorted by time with a fresh index |
| Normalize.YahooLabels | src/data_ingestion/market_data.py:36-46 | dropping `Adj Close` beside `Close` loses no label after renaming |
| Normalize.YahooSelected | src/data_ingestion/market_data.py:49-57 | de-duplicating then selecting equals renaming one projection of the source columns, and leaves each label once |
| Normalize.ClosePreferred | src/data_ingestion/market_data.py:35-37 | with both present, the `close` column comes from `Close`, never from `Adj Close` |
| Normalize.AdjCloseBecomesClose | src/data_ingestion/market_data.py:40-46 | with only `Adj Close`, normalisation succeeds and its `close` column is `Adj Close` |
| Normalize.NormalizeBinance | src/data_ingestion/market_data.py:70-76 | fails with the missing columns exactly when a required column is absent, and otherwise on a repeated `time` label; on failure the missing columns are listed in canonical order; on success the same columns, rows sorted by time, and a fresh 0-based index |
| Normalize.DownloadData | src/data_ingestion/market_data.py:111-129 | Binance needs a limit, Yahoo needs a period and a non-empty download, any other source is rejected, and each source goes through its normaliser |
| Normalize.TimeCandidate | src/features/indicators.py:43-46 | the renamed column is the first of time, Date, Datetime, date that exists, if any |
| Normalize.StandardTimeColumn | src/features/indicators.py:38-46 | a frame with a `time` column is untouched; otherwise the date index becomes a column (failing exactly when its name is taken) and the first time candidate is renamed `time` |
| Normalize.StandardColumns | src/features/indicators.py:48-62 | fails exactly when `time` is missing or repeated or no close label exists; otherwise returns the canonical columns present after renaming, sorted by time |
| Normalize.Standardize | src/features/indicators.py:22-62 | standardisation is the time step followed by the column step, with the first error winning |
| Normalize.StandardizeKeepsRows | src/features/indicators.py:22-62 | standardising renames, selects and sorts, so it keeps every row |
| Normalize.StandardNameTargets | src/features/indicators.py:49-53 | only `time` itself stays `time`, and exactly Close, Adj Close and close become `close` |
| Normalize.StandardSelected | src/features/indicators.py:56-62 | the selection is a projection of the renamed frame that keeps every column of each canonical label; here duplicates are not removed |
| Normalize.IndicatorLabels | src/features/indicators.py:78-90 | the added columns always include rsi_14, atr_14, adx and obv, and macd and macd_signal exactly when there are at least 26 bars |
| Normalize.MacdNeedsHistory | src/features/indicators.py:81-84 | the indicator frame has MACD columns exactly when there are at least 26 bars |
| Normalize.IndicatorFrame | src/features/indicators.py:76-94 | the indicator frame has time, close and the indicator columns, a fresh range index, and as rows exactly the complete joined rows, in their order |
| Normalize.CalculateIndicators | src/features/indicators.py:74-94 | a standardisation error passes through; then a missing `high` or `low` fails with a KeyError, then an undefined ADX with TypeError; success holds exactly when the standardised frame has high, low and volume and the ADX is defined, and then the result is its indicator frame |
| Normalize.IndicatorsOf | src/features/indicators.py:77-94 | on the standardised frame: KeyError for a missing `high` or `low`, then TypeError when `ta.adx` gives None (under 14 rows or a repeated high, low or close), then KeyError for a missing `volume`; otherwise the indicator frame |
| Normalize.ShortHistoryFails | src/features/indicators.py:90 | fewer than fourteen bars with high and low fail with TypeError at the ADX subscript |
| Normalize.MissingHighFails | src/features/indicators.py:89 | a frame with a unique time column and a close but no `High` or `high` standardises, yet computing its indicators raises KeyError('high') |
| LlmReply.CheckItem | src/agent/agents/llm_base.py:174-187 | a non-dict item or one missing required fields is an error naming the item; a non-string recommendation raises; a recognised recommendation keeps its casing; any other becomes `hold`, with the other fields untouched |
| LlmReply.RunFrom | src/agent/agents/llm_base.py:174-187 | the loop accepts exactly when every item passes, and otherwise stops at the first item that fails |
| LlmReply.Validate | src/agent/agents/llm_base.py:165-203 | an unparsable reply or a non-list falls back; a list is accepted exactly when every item passes, with each item cleaned; otherwise the first failing item decides the error or the escaping AttributeError |
| LlmReply.CleanPasses | src/agent/agents/llm_base.py:174-198 | a list of clean items is accepted unchanged |
| LlmReply.ValidateIdempotent | src/agent/agents/llm_base.py:174-198 | validating an accepted reply again accepts the same items |
| LlmReply.CasingKept | src/agent/agents/llm_base.py:184-187 | `BUY` passes and stays `BUY`: only unrecognised values are rewritten |
| LlmReply.OneBadItemDiscardsAll | src/agent/agents/llm_base.py:174-180 | one malformed item anywhere makes the whole reply fall back |
| Rationale.Reasoning | src/agent/agents/local_agent.py:60-95 | each clause appears exactly when its condition holds: buy/sell/otherwise hold, MACD above or below its signal, RSI under 30 or over 70, ADX at least 25, with NaN or missing values adding nothing |
| Rationale.Clauses | src/agent/local_agent.py:22-53 | the recommendation clause comes first, then at most one MACD, one RSI and one ADX clause, in that order |
| Rationale.Explain | src/agent/local_agent.py:22-55 | the rationale is never empty, starts with the recommendation phrase, and splits on "; " back into exactly the phrases of its clauses |
| Rationale.SameReasons | src/agent/agent_local.py:22-46 | any two agents give the same number of phrases for a row, phrase by phrase the same clause in their own wording |
| Rationale.ReasoningExample | src/agent/local_agent.py:24-53 | a buy row with MACD 1.5 over a signal of 1.0, RSI 25 and ADX 30 gets all four clauses, in order |
| Rationale.SymbolOf | src/agent/local_agent.py:74 | the symbol is the part of the file name before the first underscore, and is shorter than any signal file name |
| Rationale.SymbolRoundTrip | src/agent/agent_local.py:70-71 | a file named symbol_interval_signals.parquet is a signal file and yields the symbol back |
| Rationale.Trunc | src/agent/local_agent.py:82 | `int(score)` truncates toward zero |
| Rationale.SummarizeFile | src/agent/local_agent.py:74-85 | an empty file raises IndexError; a missing time or close raises KeyError; a NaN score raises ValueError |
| Rationale.SummaryFields | src/agent/agents/local_agent.py:28-39 | a summary carries the file's symbol, the last row's time and close, the truncated score (0 if absent), the recommendation (`hold` if absent) and the rationale |
| Rationale.SortedSignalFiles | src/agent/local_agent.py:67-73 | the files read are exactly the directory's signal files, in name order |
| Rationale.Summarize | src/agent/agent_local.py:69-82 | summarising succeeds exactly when every file does; the rows are one per file, sorted by symbol; otherwise the error is that of the first failing file in name order |
| Rationale.AnalyzeSignals | src/agent/local_agent.py:57-94 | with no signal file `LocalTradingAgent` raises FileNotFoundError, while the other two fail with KeyError on sorting an empty frame; otherwise the files are summarised in name order |
| Rationale.AnalyzeSignalsResult | src/agent/agents/local_agent.py:14-48 | an agent's result is sorted by symbol and holds exactly the summaries of the directory's signal files, and fails exactly when there is none or one of them fails |
| Common.SplitJoin | src/agent/local_agent.py:55 | joining phrases that contain no separator character, then splitting, gives the phrases back |
| Common.Collect | src/agent/local_agent.py:73-85 | a loop that raises stops at the first failing item: all values, or the first error |

## Left out

- SQLite mechanics are not modelled: DDL, the `portfolio_analysis` migration,
  transactions, and `sqlite3.Error` handlers other than the CHECK failure. A
  bar's `market_data_id` is its key (series, time). The foreign keys are
  not enforced, as SQLite does by default.
- `created_at` defaults and `datetime.now()` in `create_agent_run` become
  parameters. Timestamps are integers (seconds), and the staleness test
  takes `now` as a parameter.
- Prices and indicator values are mathematical reals, not IEEE floats.
  NaN is represented as a missing value, and every comparison with it is
  false.
- Cache.WithMargin: computes `int(missing * 1.1)` exactly as
  `(11 * missing) / 10`; floating-point rounding of the product is not
  modelled. `int()` truncates, and the model follows it.
- `get_cache_stats`, `invalidate_cache` and the parquet reads and writes are
  not modelled (file and database I/O). File contents become parameters.
- Indicator maths (`pandas_ta` RSI, MACD, ATR, ADX, OBV) is an input frame
  to `Normalize.CalculateIndicators`. It is a foreign library. Only its
  `None` result for input shorter than the window or not a single column is
  modelled: for the ADX, where subscripting it raises, and for the MACD,
  whose columns the guard then leaves out. The indicator frame's labels are
  those the source adds (`Normalize.LibraryColumns`); its values are free.
- The HTTP clients for Binance and Yahoo (`yf.download`) are left out. Their
  results are parameters of `Normalize.DownloadData`.
- Flattening MultiIndex columns is not modelled: a frame has one level of
  string labels.
- Common.Lower: lower-cases ASCII letters only; Python's `str.lower` also
  maps other alphabets.
- Interval.ParsePyInt: accepts ASCII digits only. Python's `int()` also
  accepts other Unicode decimal digits.
- pandas' `sort_values` is not stable. Except for Rules.MakeRecommendations
  (next line), contracts state sortedness and permutation only, not the
  order of ties.
- Rules.MakeRecommendations: rows with equal `time` are taken in a stable
  order, which pandas' default quicksort does not promise. With repeated
  timestamps the crosses, positions and actions depend on that order, so
  the model names one of the results the source may produce.
- For ties on `created_at` or `run_timestamp`, the history and run-summary
  orderings state only the ordering, not which tied row SQLite returns
  first.
- LLM plumbing is left out (network calls to providers):
  - prompt building;
  - the provider clients;
  - `_extract_json_from_response`, with `json.loads` becoming an optional
    parsed value;
  - the JSON file write and printing;
  - the contents of the error fallback document.
- Directory globbing: only the `*_signals.parquet` suffix test on file names
  is modelled.
- Rationale.SummarizeFile: infinite scores (which raise OverflowError in
  `int()`) are not represented.
- Printing and console output are left out.
- Store.InsertSignals: a sub-signal or score of an input row
  (`Store.SignalInput`) is an optional integer, so a NaN value, on which
  `int()` raises ValueError, is not represented. The classifiers never
  produce one.
- Rationale.SummaryFields: a NaN recommendation or a NaT time in the last
  row is not represented; pandas would pass either through to the summary.
- Frames.SortRowsBy: a column mixing timestamps, numbers and strings is
  ranked (timestamps, then numbers, then strings), whereas pandas raises
  TypeError on comparing them. The model promises nothing about that error.
- Classifier.Classify: an input frame that already has one of the written
  labels (`score`, `sig_volume`, ...) more than once is not distinguished;
  pandas would then sum or compare several columns. The frame carries no
  values for pre-existing written columns.
- Rules.MakeRecommendations: the pandas exception for a repeated label is
  not distinguished (the sort's ValueError on `time`, a misaligned
  frame-against-column comparison, or a multi-column assignment); all
  become `RepeatedColumn` at the first read that fails.
- Store.InsertMarketData: frame rows always carry five real prices and a
  volume. A frame lacking one of those columns (a KeyError in
  `insert_market_data`) and a NaN value, which SQLite stores as NULL and
  `INSERT OR IGNORE` then skips under NOT NULL, are not represented.
- Cache.MergeWithCache: inherits the Store.InsertMarketData gap above; it
  never fails and never skips a row because of a missing or NaN price.
- Datetimes are unbounded integers. Python's year range 1 to 9999 is not
  modelled, so no age computation overflows.

## Notes

These behaviours follow from the code as written, and the model proves each:

- The stateful engine emits `enter` and `exit`. The signals table accepts
  only buy, sell and hold, so `insert_signals` skips such rows
  (`Rules.EngineActionRejected`).
- The RSI-rebound and MACD-cross terms of `rules.py` never change a flag
  (`Rules.MeanReversion`, `Rules.Momentum`).
- A bar restated by a fresh download is returned by `merge_with_cache` but
  never written to the store (`Cache.RestatedBarNotPersisted`).
- `1M` parses as one minute (`Interval.UpperMIsMinutes`).
- `rules.py` requires `ema_26` but never reads it, so a repeated `ema_26`
  label is accepted while a repeated `time` label is rejected
  (`Rules.ReadLabelsOnce`, `Rules.RepeatedTimeRejected`).

=== FILE: bars.dfy ===
/** OHLCV bars and the series-level facts the store and the cache share: a
    series in strictly ascending time order, "the last bar with a given
    timestamp", and pandas' `drop_duplicates(subset=['time'], keep='last')`
    followed by `sort_values('time')`. */
module Bars {
  import opened Common
  import opened Sorting

  datatype Ohlcv = Ohlcv(open: real, high: real, low: real, close: real, volume: real)

  /** One row of an OHLCV frame: `time` plus the five prices. */
  datatype Bar = Bar(time: int, price: Ohlcv)

  predicate TimeLe(a: Bar, b: Bar) {
    a.time <= b.time
  }

  lemma TimeLeTotal()
    ensures Total(TimeLe)
  {
  }

  /** Whether some bar of `s` carries timestamp `t`. */
  predicate HasTime(s: seq<Bar>, t: int) {
    exists i :: 0 <= i < |s| && s[i].time == t
  }

  /** Strictly increasing timestamps: sorted and free of duplicate times. */
  predicate Ascending(s: seq<Bar>) {
    forall i, j :: 0 <= i < j < |s| ==> s[i].time < s[j].time
  }

  predicate UniqueTimes(s: seq<Bar>) {
    forall i, j :: 0 <= i < j < |s| ==> s[i].time != s[j].time
  }

  /** A bar whose time is new keeps the times distinct. */
  lemma AppendUnique(s: seq<Bar>, b: Bar)
    requires UniqueTimes(s)
    requires forall c :: c in s ==> c.time != b.time
    ensures UniqueTimes(s + [b])
  {
    var t := s + [b];
    forall i, j | 0 <= i < j < |t| ensures t[i].time != t[j].time {
      assert t[i] == s[i];
      if j < |s| {
        assert t[j] == s[j];
      }
    }
  }

  /** The same for a bar put in front. */
  lemma PrependUnique(b: Bar, s: seq<Bar>)
    requires UniqueTimes(s)
    requires forall c :: c in s ==> c.time != b.time
    ensures UniqueTimes([b] + s)
  {
    var t := [b] + s;
    forall i, j | 0 <= i < j < |t| ensures t[i].time != t[j].time {
      assert t[j] == s[j - 1];
      if i > 0 {
        assert t[i] == s[i - 1];
      }
    }
  }

  // ---------------------------------------------------------------------------
  // The last bar per timestamp
  // ---------------------------------------------------------------------------

  /** The last bar of `s` stamped `t`, if there is one. */
  function LastAt(s: seq<Bar>, t: int): (r: Option<Bar>)
    ensures r.None? <==> forall i :: 0 <= i < |s| ==> s[i].time != t
    ensures r.Some? ==> r.value in s && r.value.time == t
  {
    if s == [] then None
    else if s[|s| - 1].time == t then Some(s[|s| - 1])
    else
      var r := LastAt(s[..|s| - 1], t);
      assert forall i :: 0 <= i < |s| - 1 ==> s[..|s| - 1][i] == s[i];
      r
  }

  /** `LastAt` picks the bar with no later bar of the same time. */
  lemma {:induction false} LastAtIsLast(s: seq<Bar>, i: nat)
    requires i < |s|
    requires forall j :: i < j < |s| ==> s[j].time != s[i].time
    ensures LastAt(s, s[i].time) == Some(s[i])
    decreases |s|
  {
    if i < |s| - 1 {
      var p := s[..|s| - 1];
      assert p[i] == s[i];
      LastAtIsLast(p, i);
    }
  }

  /** In a concatenation the right part wins: this is `keep='last'`. */
  lemma {:induction false} LastAtAppend(a: seq<Bar>, b: seq<Bar>, t: int)
    ensures LastAt(a + b, t) == if LastAt(b, t).Some? then LastAt(b, t) else LastAt(a, t)
    decreases |b|
  {
    if b == [] {
      assert a + b == a;
    } else {
      assert (a + b)[..|a + b| - 1] == a + b[..|b| - 1];
      LastAtAppend(a, b[..|b| - 1], t);
    }
  }

  lemma LastAtCons(x: Bar, s: seq<Bar>, t: int)
    ensures LastAt([x] + s, t) ==
      if LastAt(s, t).Some? then LastAt(s, t)
      else if x.time == t then Some(x) else None
  {
    LastAtAppend([x], s, t);
  }

  /** The last bar of a non-empty `s` for a time is that of its tail, or
      else its head. */
  lemma LastAtHead(s: seq<Bar>)
    requires s != []
    ensures forall t :: LastAt(s, t) == if LastAt(s[1..], t).Some? then LastAt(s[1..], t)
                                      else if s[0].time == t then Some(s[0]) else None
  {
    assert s == [s[0]] + s[1..];
    forall t ensures LastAt(s, t) == if LastAt(s[1..], t).Some? then LastAt(s[1..], t)
                                      else if s[0].time == t then Some(s[0]) else None {
      LastAtCons(s[0], s[1..], t);
    }
  }

  /** The first bar of `s` stamped `t`, if there is one: the bar an
      insert-or-ignore keeps. */
  function FirstAt(s: seq<Bar>, t: int): (r: Option<Bar>)
    ensures r.None? <==> forall i :: 0 <= i < |s| ==> s[i].time != t
    ensures r.Some? ==> r.value in s && r.value.time == t
  {
    if s == [] then None
    else if s[0].time == t then Some(s[0])
    else
      var r := FirstAt(s[1..], t);
      assert forall i :: 1 <= i < |s| ==> s[1..][i - 1] == s[i];
      r
  }

  /** In a concatenation the left part wins. */
  lemma {:induction false} FirstAtAppend(a: seq<Bar>, b: seq<Bar>, t: int)
    ensures FirstAt(a + b, t) == if FirstAt(a, t).Some? then FirstAt(a, t) else FirstAt(b, t)
    decreases |a|
  {
    if a == [] {
      assert a + b == b;
    } else {
      assert (a + b)[1..] == a[1..] + b;
      FirstAtAppend(a[1..], b, t);
    }
  }

  /** Without repeated timestamps, every bar is the last of its time. */
  lemma LastAtOfUnique(s: seq<Bar>)
    requires UniqueTimes(s)
    ensures forall b :: b in s ==> LastAt(s, b.time) == Some(b)
  {
    forall b | b in s ensures LastAt(s, b.time) == Some(b) {
      var i :| 0 <= i < |s| && s[i] == b;
      LastAtIsLast(s, i);
    }
  }

  // ---------------------------------------------------------------------------
  // drop_duplicates(subset=['time'], keep='last')
  // ---------------------------------------------------------------------------

  /** Keeps a bar only if no later bar has the same time, preserving order. */
  function KeepLast(s: seq<Bar>): (r: seq<Bar>)
    ensures UniqueTimes(r)
    ensures forall b :: b in r <==> LastAt(s, b.time) == Some(b)
    ensures |r| <= |s|
  {
    if s == [] then []
    else
      var rest := KeepLast(s[1..]);
      LastAtHead(s);
      if LastAt(s[1..], s[0].time).Some? then rest
      else
        assert forall b :: b in rest ==> b.time != s[0].time;
        PrependUnique(s[0], rest);
        [s[0]] + rest
  }

  /** The bars of `s` in time order, one per timestamp, the last one winning:
      the frame `drop_duplicates(subset=['time'], keep='last')
      .sort_values('time')`. */
  function DedupSorted(s: seq<Bar>): (r: seq<Bar>)
    ensures Ascending(r)
    ensures forall b :: b in r <==> LastAt(s, b.time) == Some(b)
  {
    TimeLeTotal();
    var d := KeepLast(s);
    var r := SortBy(d, TimeLe);
    PermutationKeepsUnique(d, r);
    SortedUniqueAscending(r);
    SameElements(d, r);
    r
  }

  /** Every timestamp of the input appears once in the de-duplicated frame. */
  lemma DedupSortedTimes(s: seq<Bar>, t: int)
    ensures HasTime(DedupSorted(s), t) <==> HasTime(s, t)
  {
    var r := DedupSorted(s);
    if HasTime(s, t) {
      var b := LastAt(s, t).value;
      var i :| 0 <= i < |r| && r[i] == b;
    }
    if HasTime(r, t) {
      var i :| 0 <= i < |r| && r[i].time == t;
      assert LastAt(s, t) == Some(r[i]);
    }
  }

  /** The de-duplicated frame is the only ascending frame with its bars: the
      result does not depend on how the sort breaks ties. */
  lemma DedupSortedUnique(s: seq<Bar>, r: seq<Bar>)
    requires Ascending(r)
    requires forall b :: b in r <==> LastAt(s, b.time) == Some(b)
    ensures r == DedupSorted(s)
  {
    AscendingUnique(r, DedupSorted(s));
  }

  /** An ascending frame is its own de-duplication. */
  lemma DedupSortedOfAscending(s: seq<Bar>)
    requires Ascending(s)
    ensures DedupSorted(s) == s
  {
    LastAtOfUnique(s);
    forall b: Bar | LastAt(s, b.time) == Some(b) ensures b in s { }
    DedupSortedUnique(s, s);
  }

  // ---------------------------------------------------------------------------
  // Ascending sequences
  // ---------------------------------------------------------------------------

  /** Two ascending sequences with the same elements are equal. */
  lemma {:induction false} AscendingUnique(a: seq<Bar>, b: seq<Bar>)
    requires Ascending(a) && Ascending(b)
    requires forall x :: x in a <==> x in b
    ensures a == b
    decreases |a|
  {
    if b != [] {
      assert b[0] in b;
    }
    if a != [] {
      assert a[0] in b;
      var j :| 0 <= j < |b| && b[j] == a[0];
      assert b[0] in a;
      var i :| 0 <= i < |a| && a[i] == b[0];
      assert a[0].time <= a[i].time;
      assert b[0].time <= b[j].time;
      assert j == 0;
      TailInTail(a, b);
      TailInTail(b, a);
      AscendingUnique(a[1..], b[1..]);
      assert a == [a[0]] + a[1..];
      assert b == [b[0]] + b[1..];
    }
  }

  /** With the same first bar and the same elements, every later bar of `a`
      is a later bar of `b`. */
  lemma TailInTail(a: seq<Bar>, b: seq<Bar>)
    requires Ascending(a) && Ascending(b) && a != [] && b != [] && a[0] == b[0]
    requires forall x :: x in a <==> x in b
    ensures forall x :: x in a[1..] ==> x in b[1..]
  {
    forall x | x in a[1..] ensures x in b[1..] {
      var k :| 1 <= k < |a| && a[k] == x;
      assert x in b;
      var m :| 0 <= m < |b| && b[m] == x;
      assert m != 0;
    }
  }

  /** A prefix of an ascending sequence is ascending and older than every
      bar left out of it. */
  lemma AscendingPrefix(s: seq<Bar>, p: seq<Bar>)
    requires Ascending(s)
    requires p <= s
    ensures Ascending(p)
    ensures forall b :: b in s && b !in p ==> forall i :: 0 <= i < |p| ==> p[i].time < b.time
  {
    assert forall i :: 0 <= i < |p| ==> p[i] == s[i];
    forall b | b in s && b !in p ensures forall i :: 0 <= i < |p| ==> p[i].time < b.time {
      var k :| 0 <= k < |s| && s[k] == b;
      assert k >= |p|;
    }
  }

  /** The last bar of an ascending sequence is its newest. */
  lemma AscendingLast(s: seq<Bar>, b: Bar)
    requires Ascending(s)
    requires b in s
    ensures b.time <= s[|s| - 1].time
  {
    var j :| 0 <= j < |s| && s[j] == b;
  }

  /** Sorted by time with no repeated timestamp means strictly ascending. */
  lemma {:induction false} SortedUniqueAscending(s: seq<Bar>)
    requires SortedBy(s, TimeLe)
    requires UniqueTimes(s)
    ensures Ascending(s)
    decreases |s|
  {
    if |s| > 1 {
      SortedUniqueAscending(s[1..]);
      assert s[0].time < s[1].time;
      forall j | 1 <= j < |s| ensures s[0].time < s[j].time {
        if j > 1 {
          assert s[1..][0].time < s[1..][j - 1].time;
        }
      }
    }
  }

  /** Rearranging a sequence keeps its timestamps unique. */
  lemma PermutationKeepsUnique(a: seq<Bar>, b: seq<Bar>)
    requires multiset(a) == multiset(b)
    requires UniqueTimes(a)
    ensures UniqueTimes(b)
  {
    forall i, j | 0 <= i < j < |b|
      ensures b[i].time != b[j].time
    {
      if b[i] == b[j] {
        assert b == b[..j] + b[j..];
        assert b[i] in b[..j];
        assert b[j] in b[j..];
        assert multiset(b)[b[i]] >= 2;
        RepeatedElement(a, b[i]);
      } else {
        assert b[i] in multiset(a) && b[j] in multiset(a);
        var p :| 0 <= p < |a| && a[p] == b[i];
        var q :| 0 <= q < |a| && a[q] == b[j];
        assert p != q;
      }
    }
  }
}

=== FILE: cache.dfy ===
/** The incremental cache (`DataCache`) over the abstract store: what to
    download, and how a freshly downloaded frame is merged with the cached
    one. The wall clock of `needs_update` is the parameter `now`. */
module Cache {
  import opened Common
  import opened Bars
  import opened Store
  import opened Interval

  // ---------------------------------------------------------------------------
  // get_cached_data
  // ---------------------------------------------------------------------------

  /** `get_cached_data`: the cached frame and its newest timestamp, or
      nothing when the series has no rows. With a positive limit the frame is
      the oldest `limit` bars, so the timestamp (the newest stored bar) can be
      later than the frame's last row. */
  function GetCachedData(db: Db, series: Series, limit: Option<int>): (r: Option<(seq<Bar>, int)>)
    requires Valid(db)
    ensures r.None? <==> forall i :: 0 <= i < |db.bars| ==> db.bars[i].series != series
    ensures r.Some? ==> r.value.0 != [] && Ascending(r.value.0)
    ensures r.Some? ==> forall b :: b in r.value.0 ==> BarRow(series, b) in db.bars
    ensures r.Some? && !Caps(limit) ==> r.value.0 == AllBars(db, series)
    ensures r.Some? && Caps(limit) ==>
      r.value.0 == AllBars(db, series)[..Min(limit.value, |AllBars(db, series)|)]
    ensures r.Some? ==> var all := AllBars(db, series);
      all != [] && r.value.1 == all[|all| - 1].time
    ensures r.Some? ==> r.value.0[|r.value.0| - 1].time <= r.value.1
    ensures r.Some? && !Caps(limit) ==> r.value.1 == r.value.0[|r.value.0| - 1].time
  {
    match LatestTimestamp(db.bars, series)
    case None => None
    case Some(latest) =>
      var cached := GetMarketData(db, series, None, None, limit);
      CachedFrame(db, series, limit);
      if cached == [] then None else Some((cached, latest))
  }

  /** What the read of a series with rows returns, against the whole
      ascending series. */
  lemma CachedFrame(db: Db, series: Series, limit: Option<int>)
    requires Valid(db)
    requires LatestTimestamp(db.bars, series).Some?
    ensures var cached := GetMarketData(db, series, None, None, limit);
      var all := AllBars(db, series);
      && cached != [] && all != []
      && (!Caps(limit) ==> cached == all)
      && (Caps(limit) ==> cached == all[..Min(limit.value, |all|)])
      && LatestTimestamp(db.bars, series).value == all[|all| - 1].time
      && cached[|cached| - 1].time <= LatestTimestamp(db.bars, series).value
  {
    var cached := GetMarketData(db, series, None, None, limit);
    CachedNonEmpty(db, series, limit);
    UncappedIsAllBars(db, series, limit);
    CappedIsOldest(db, series, limit);
    LatestIsNewestBar(db, series);
    var all := AllBars(db, series);
    assert cached[|cached| - 1] in all;
    AscendingLast(all, cached[|cached| - 1]);
  }

  /** Without a positive limit the query returns every bar of the series. */
  lemma UncappedIsAllBars(db: Db, series: Series, limit: Option<int>)
    requires Valid(db)
    ensures !Caps(limit) ==> GetMarketData(db, series, None, None, limit) == AllBars(db, series)
  {
  }

  /** With a positive limit the query returns the oldest `limit` bars. */
  lemma CappedIsOldest(db: Db, series: Series, limit: Option<int>)
    requires Valid(db)
    ensures Caps(limit) ==> var all := AllBars(db, series);
      GetMarketData(db, series, None, None, limit) == all[..Min(limit.value, |all|)]
  {
  }

  /** A series with rows reads back at least one row, limit or not. */
  lemma CachedNonEmpty(db: Db, series: Series, limit: Option<int>)
    requires Valid(db)
    requires LatestTimestamp(db.bars, series).Some?
    ensures GetMarketData(db, series, None, None, limit) != []
  {
    var all := AllBars(db, series);
    var b := all[0];
    assert BarRow(series, b) in db.bars;
  }

  /** No stored bar of a series is newer than its latest timestamp. */
  lemma NoRowAfterLatest(bars: seq<BarRow>, series: Series, b: Bar)
    requires BarRow(series, b) in bars
    ensures LatestTimestamp(bars, series).Some? && b.time <= LatestTimestamp(bars, series).value
  {
    var k :| 0 <= k < |bars| && bars[k] == BarRow(series, b);
    assert bars[k].series == series;
  }

  /** The newest stored timestamp is the time of the last bar read back. */
  lemma LatestIsNewestBar(db: Db, series: Series)
    requires Valid(db)
    requires LatestTimestamp(db.bars, series).Some?
    ensures var all := AllBars(db, series);
      all != [] && LatestTimestamp(db.bars, series).value == all[|all| - 1].time
  {
    NewestIsLast(db.bars, series, AllBars(db, series));
  }

  /** An ascending frame holding exactly the stored bars of a series ends
      with the bar of the newest stored timestamp. */
  lemma NewestIsLast(bars: seq<BarRow>, series: Series, all: seq<Bar>)
    requires UniqueBarKeys(bars)
    requires Ascending(all)
    requires forall b :: b in all <==> BarAt(bars, series, b.time) == Some(b)
    requires LatestTimestamp(bars, series).Some?
    ensures all != [] && LatestTimestamp(bars, series).value == all[|all| - 1].time
  {
    var latest := LatestTimestamp(bars, series).value;
    var i :| 0 <= i < |bars| && bars[i].series == series && bars[i].bar.time == latest;
    var b := bars[i].bar;
    assert bars[i] == BarRow(series, b);
    BarAtOfRow(bars, series, b);
    assert b in all;
    var last := all[|all| - 1];
    AscendingLast(all, b);
    BarAtOfRow(bars, series, last);
    NoRowAfterLatest(bars, series, last);
  }

  // ---------------------------------------------------------------------------
  // get_download_params
  // ---------------------------------------------------------------------------

  /** `(use_cache, download_limit, start_date)`. */
  datatype DownloadPlan = DownloadPlan(useCache: bool, downloadLimit: int, start: Option<int>)

  /** The smallest refresh download of a stale but sufficient cache. */
  const MinRefreshRows: int := 100

  /** `int(missing * 1.1)`: ten percent extra, truncated. */
  function WithMargin(missing: int): (n: int)
    requires missing >= 0
    ensures n >= missing
    ensures missing >= 1 ==> n >= 1
    ensures 10 * n <= 11 * missing < 10 * n + 10
  {
    (11 * missing) / 10
  }

  /** `get_download_params` once the cache has been read; `cache` is the
      number of cached rows and the newest cached timestamp, if any. A cache
      too small for the request downloads the missing rows plus ten percent
      and ignores the cache's dates; a sufficient cache downloads nothing
      while fresh, and a refresh of at least `MinRefreshRows` rows after its
      newest bar once stale. */
  function PlanDownload(cache: Option<(nat, int)>, interval: string, requested: int, now: int)
    : (r: Result<DownloadPlan, UpdateError>)
    ensures cache.None? ==> r == Ok(DownloadPlan(false, requested, None))
    ensures cache.Some? && cache.value.0 < requested ==>
      && r == Ok(DownloadPlan(true, WithMargin(requested - cache.value.0), None))
      && r.value.downloadLimit >= requested - cache.value.0 >= 1
    ensures cache.Some? && cache.value.0 >= requested ==>
      (r.Err? <==> NeedsUpdate(Some(cache.value.1), interval, now, DefaultMaxAgeHours).Err?)
    ensures cache.Some? && cache.value.0 >= requested && r.Ok? ==>
      && r.value.useCache && r.value.start == Some(cache.value.1)
      && (r.value.downloadLimit != 0 <==> NeedsUpdate(Some(cache.value.1), interval, now, DefaultMaxAgeHours) == Ok(true))
      && (r.value.downloadLimit != 0 ==> r.value.downloadLimit == Max(MinRefreshRows, requested / 10))
      && (r.value.downloadLimit != 0 ==>
            r.value.downloadLimit >= MinRefreshRows && r.value.downloadLimit >= requested / 10)
    ensures requested >= 0 && r.Ok? ==> r.value.downloadLimit >= 0
  {
    match cache
    case None => Ok(DownloadPlan(false, requested, None))
    case Some((count, latest)) =>
      if count >= requested then
        match NeedsUpdate(Some(latest), interval, now, DefaultMaxAgeHours)
        case Err(e) => Err(e)
        case Ok(stale) =>
          if stale then Ok(DownloadPlan(true, Max(MinRefreshRows, requested / 10), Some(latest)))
          else Ok(DownloadPlan(true, 0, Some(latest)))
      else Ok(DownloadPlan(true, WithMargin(requested - count), None))
  }

  /** `get_download_params` for a store, a series and a requested row count:
      the cache it plans from is every stored bar of the series. */
  function DownloadParams(db: Db, series: Series, requested: int, now: int): (r: Result<DownloadPlan, UpdateError>)
    requires Valid(db)
    ensures LatestTimestamp(db.bars, series).None? ==> r == Ok(DownloadPlan(false, requested, None))
    ensures r.Ok? && r.value.useCache ==> LatestTimestamp(db.bars, series).Some?
    ensures LatestTimestamp(db.bars, series).Some? ==>
      r == PlanDownload(Some((|AllBars(db, series)|, LatestTimestamp(db.bars, series).value)),
                        series.interval, requested, now)
  {
    match GetCachedData(db, series, None)
    case None => PlanDownload(None, series.interval, requested, now)
    case Some((cached, latest)) => PlanDownload(Some((|cached|, latest)), series.interval, requested, now)
  }

  // ---------------------------------------------------------------------------
  // merge_with_cache
  // ---------------------------------------------------------------------------

  /** `if limit and len(merged) > limit: merged.tail(limit)`. pandas' `tail`
      of a negative `n` drops the first `-n` rows. */
  function TailLimit(s: seq<Bar>, limit: Option<int>): (r: seq<Bar>)
    ensures |r| <= |s| && r == s[|s| - |r|..]
    ensures limit.None? || limit.value == 0 ==> r == s
    ensures limit.Some? && limit.value > 0 ==> |r| == Min(limit.value, |s|)
    ensures limit.Some? && limit.value < 0 ==> |r| == |s| - Min(-limit.value, |s|)
  {
    if limit.Some? && limit.value != 0 && |s| > limit.value then
      var n := limit.value;
      if n > 0 then s[|s| - n..]
      else s[Min(-n, |s|)..]
    else s
  }

  /** `merge_with_cache`: the store after saving `new_df`, and the frame
      returned. Without cached rows `new_df` comes back untouched; otherwise
      cached and new rows are de-duplicated on time with the incoming row
      winning, sorted, and cut to the most recent `limit`. */
  function MergeWithCache(db: Db, series: Series, incoming: seq<Bar>, limit: Option<int>): (r: (Db, seq<Bar>))
    requires Valid(db)
    ensures Valid(r.0)
    ensures r.0 == InsertMarketData(db, series, incoming).0
    ensures GetCachedData(db, series, None).None? ==> r.1 == incoming
    ensures GetCachedData(db, series, None).Some? ==>
      r.1 == TailLimit(DedupSorted(AllBars(db, series) + incoming), limit)
  {
    var saved := InsertMarketData(db, series, incoming).0;
    match GetCachedData(db, series, None)
    case None => (saved, incoming)
    case Some((cached, _)) =>
      assert cached == AllBars(db, series) by {
        forall b ensures b in cached <==> b in AllBars(db, series) {
          BarAtOfRow(db.bars, series, b);
        }
        AscendingUnique(cached, AllBars(db, series));
      }
      (saved, TailLimit(DedupSorted(cached + incoming), limit))
  }

  /** The merged frame of a non-empty cache is strictly ascending, one row per
      timestamp, each row the last one given for its timestamp (new rows
      after cached ones), at most `limit` rows when `limit` is positive, and
      every row cut by the limit is older than every row kept. */
  lemma MergedFrame(db: Db, series: Series, incoming: seq<Bar>, limit: Option<int>)
    requires Valid(db)
    requires GetCachedData(db, series, None).Some?
    ensures var r := MergeWithCache(db, series, incoming, limit).1;
      var all := DedupSorted(AllBars(db, series) + incoming);
      && Ascending(r)
      && (forall b :: b in r ==> LastAt(AllBars(db, series) + incoming, b.time) == Some(b))
      && (limit.Some? && limit.value > 0 ==> |r| <= limit.value)
      && (forall b :: b in all && b !in r ==> forall i :: 0 <= i < |r| ==> b.time < r[i].time)
  {
    var all := DedupSorted(AllBars(db, series) + incoming);
    TailKeepsNewest(all, limit);
  }

  /** Cutting an ascending frame to its last rows keeps it ascending, and
      every row cut is older than every row kept. */
  lemma TailKeepsNewest(s: seq<Bar>, limit: Option<int>)
    requires Ascending(s)
    ensures var r := TailLimit(s, limit);
      && Ascending(r)
      && (forall b :: b in s && b !in r ==> forall i :: 0 <= i < |r| ==> b.time < r[i].time)
  {
    var r := TailLimit(s, limit);
    SuffixNewest(s, |s| - |r|);
  }

  /** A suffix of an ascending frame is ascending, and every row before it
      is older than every row in it. */
  lemma SuffixNewest(s: seq<Bar>, k: nat)
    requires Ascending(s) && k <= |s|
    ensures Ascending(s[k..])
    ensures forall b :: b in s && b !in s[k..] ==> forall i :: 0 <= i < |s| - k ==> b.time < s[k..][i].time
  {
    var r := s[k..];
    assert forall i :: 0 <= i < |r| ==> r[i] == s[k + i];
    assert forall i :: k <= i < |s| ==> s[i] in r by {
      forall i | k <= i < |s| ensures s[i] in r {
        assert r[i - k] == s[i];
      }
    }
  }

  /** On a timestamp conflict the new row wins: the last new row for a
      timestamp is in the merged frame (unless the limit cut it). */
  lemma FreshRowWins(db: Db, series: Series, incoming: seq<Bar>, i: nat)
    requires Valid(db)
    requires GetCachedData(db, series, None).Some?
    requires i < |incoming|
    requires forall j :: i < j < |incoming| ==> incoming[j].time != incoming[i].time
    ensures incoming[i] in MergeWithCache(db, series, incoming, None).1
  {
    var cached := AllBars(db, series);
    LastAtIsLast(incoming, i);
    LastAtAppend(cached, incoming, incoming[i].time);
  }

  /** The store keeps the first value of a bar while the merge returns the
      newest: a restated bar is returned to the caller but never persisted. */
  lemma RestatedBarNotPersisted(db: Db, series: Series, incoming: seq<Bar>, stored: Bar, i: nat)
    requires Valid(db)
    requires BarRow(series, stored) in db.bars
    requires i < |incoming| && incoming[i].time == stored.time && incoming[i] != stored
    requires forall j :: i < j < |incoming| ==> incoming[j].time != incoming[i].time
    ensures var (db', merged) := MergeWithCache(db, series, incoming, None);
      incoming[i] in merged && stored !in merged
      && BarAt(db'.bars, series, stored.time) == Some(stored)
  {
    BarAtOfRow(db.bars, series, stored);
    var k :| 0 <= k < |db.bars| && db.bars[k] == BarRow(series, stored);
    assert db.bars[k].series == series;
    FreshRowWins(db, series, incoming, i);
    RestatedBarDropped(db, series, incoming, stored, i);
  }

  /** A stored bar whose timestamp a new row restates is not in the merged
      frame. */
  lemma RestatedBarDropped(db: Db, series: Series, incoming: seq<Bar>, stored: Bar, i: nat)
    requires Valid(db)
    requires GetCachedData(db, series, None).Some?
    requires i < |incoming| && incoming[i].time == stored.time && incoming[i] != stored
    requires forall j :: i < j < |incoming| ==> incoming[j].time != incoming[i].time
    ensures stored !in MergeWithCache(db, series, incoming, None).1
  {
    var all := AllBars(db, series) + incoming;
    LastAtIsLast(incoming, i);
    LastAtAppend(AllBars(db, series), incoming, stored.time);
    assert LastAt(all, stored.time) == Some(incoming[i]);
  }

  /** `LastAt` over the cached frame is the stored bar. */
  lemma LastAtAllBars(db: Db, series: Series, t: int)
    requires Valid(db)
    ensures LastAt(AllBars(db, series), t) == BarAt(db.bars, series, t)
  {
    var all := AllBars(db, series);
    LastAtOfUnique(all);
    if LastAt(all, t).Some? {
      assert LastAt(all, t).value in all;
    }
  }

  /** Two frames with the same last row per timestamp de-duplicate alike. */
  lemma DedupSortedCongruent(a: seq<Bar>, b: seq<Bar>)
    requires forall t :: LastAt(a, t) == LastAt(b, t)
    ensures DedupSorted(a) == DedupSorted(b)
  {
    DedupSortedUnique(b, DedupSorted(a));
  }

  /** After saving a frame, the cached rows plus that frame again have the
      same last row per timestamp as before the save: saving adds only
      timestamps the frame already covers. */
  lemma ResaveAgrees(db: Db, series: Series, incoming: seq<Bar>, t: int)
    requires Valid(db)
    ensures var db1 := InsertMarketData(db, series, incoming).0;
      LastAt(AllBars(db1, series) + incoming, t) == LastAt(AllBars(db, series) + incoming, t)
  {
    var db1 := InsertMarketData(db, series, incoming).0;
    LastAtAppend(AllBars(db, series), incoming, t);
    LastAtAppend(AllBars(db1, series), incoming, t);
    LastAtAllBars(db, series, t);
    LastAtAllBars(db1, series, t);
  }

  /** Saving keeps every series that had rows non-empty. */
  lemma SaveKeepsCache(db: Db, series: Series, incoming: seq<Bar>)
    requires Valid(db)
    requires GetCachedData(db, series, None).Some?
    ensures GetCachedData(InsertMarketData(db, series, incoming).0, series, None).Some?
  {
    var db1 := InsertMarketData(db, series, incoming).0;
    var k :| 0 <= k < |db.bars| && db.bars[k].series == series;
    assert db1.bars[k] == db.bars[k];
  }

  /** Merging the same new frame a second time returns the same frame. */
  lemma MergeIdempotent(db: Db, series: Series, incoming: seq<Bar>, limit: Option<int>)
    requires Valid(db)
    requires GetCachedData(db, series, None).Some?
    ensures var (db1, r1) := MergeWithCache(db, series, incoming, limit);
      MergeWithCache(db1, series, incoming, limit).1 == r1
  {
    var db1 := MergeWithCache(db, series, incoming, limit).0;
    SaveKeepsCache(db, series, incoming);
    forall t ensures LastAt(AllBars(db1, series) + incoming, t) == LastAt(AllBars(db, series) + incoming, t) {
      ResaveAgrees(db, series, incoming, t);
    }
    DedupSortedCongruent(AllBars(db1, series) + incoming, AllBars(db, series) + incoming);
  }
}

=== FILE: classifier.dfy ===
/** The stateless classifiers: `signals.make_recommendations` and
    `TradingSignalGenerator.generate_signals`. Both compute the same three
    sub-signals, their sum and a buy/sell/hold label for every row; they
    differ only in the names of the sub-signal columns. */
module Classifier {
  import opened Common
  import Store

  /** Which of the two copies: `signals.py` writes `sig_*` columns,
      `signal_generator.py` writes `signal_*` columns. */
  datatype Flavour = SignalsModule | Generator

  /** The columns the classifier reads, in the order it reads them. */
  const ReadColumns: seq<string> := ["macd", "macd_signal", "adx", "rsi_14", "obv"]

  /** The same reads, grouped by the expression that first uses them: both
      MACD columns are read before they are compared, so a missing one fails
      before a repeated one; each other column is read and used alone. */
  const ReadGroups: seq<seq<string>> := [["macd", "macd_signal"], ["adx"], ["rsi_14"], ["obv"]]

  /** The columns the classifier writes. */
  function WrittenColumns(f: Flavour): (cols: seq<string>)
    ensures |cols| == 5
    ensures cols[3] == "score" && cols[4] == "recommendation"
  {
    match f
    case SignalsModule => ["sig_momentum_trend", "sig_mean_reversion", "sig_volume", "score", "recommendation"]
    case Generator => ["signal_momentum_trend", "signal_mean_reversion", "signal_volume", "score", "recommendation"]
  }

  /** A row of the indicator frame: the five columns read, and every other
      column (`E`), which the classifier carries through untouched. */
  datatype Row<E> = Row(
    macd: Option<real>, macdSignal: Option<real>, adx: Option<real>,
    rsi: Option<real>, obv: Option<real>, rest: E)

  datatype Frame<E> = Frame(columns: seq<string>, rows: seq<Row<E>>)

  /** A row of the result: the input row and the five new values. */
  datatype Classified<E> = Classified(
    row: Row<E>, momentum: int, meanReversion: int, volume: int, score: int, recommendation: string)

  datatype ClassifiedFrame<E> = ClassifiedFrame(columns: seq<string>, rows: seq<Classified<E>>)

  /** Reading a column that does not exist raises `KeyError`. Reading a
      repeated label gives a frame of several columns: comparing it with a
      column, or assigning the 2-D `np.where` built from it to one column,
      raises `ValueError`. */
  datatype ClassifyError = KeyError(column: string) | RepeatedColumn(column: string)

  // ---------------------------------------------------------------------------
  // Columns
  // ---------------------------------------------------------------------------

  /** Assigning `df[c]` appends `c` unless it is already a column. */
  function AddColumns(columns: seq<string>, added: seq<string>): (r: seq<string>)
    ensures columns <= r
    ensures forall c :: c in r <==> c in columns || c in added
    ensures |r| <= |columns| + |added|
    decreases |added|
  {
    if added == [] then columns
    else
      var next := if added[0] in columns then columns else columns + [added[0]];
      var r := AddColumns(next, added[1..]);
      assert forall c :: c in added <==> c == added[0] || c in added[1..];
      r
  }

  /** Distinct labels are appended in assignment order, each only if it is
      not already a column. */
  lemma {:induction false} AddColumnsOrder(columns: seq<string>, added: seq<string>)
    requires Distinct(added)
    ensures AddColumns(columns, added) == columns + Absent(added, columns)
    decreases |added|
  {
    if added != [] {
      var a, rest := added[0], added[1..];
      var next := if a in columns then columns else columns + [a];
      DistinctTail(added);
      AddColumnsOrder(next, rest);
      AbsentOfAppended(rest, columns, a);
      AddColumnsUnfold(columns, added);
      AbsentUnfold(columns, added);
    }
  }

  lemma AddColumnsUnfold(columns: seq<string>, added: seq<string>)
    requires added != []
    ensures AddColumns(columns, added) ==
      AddColumns(if added[0] in columns then columns else columns + [added[0]], added[1..])
  {
  }

  lemma AbsentUnfold(columns: seq<string>, added: seq<string>)
    requires added != []
    ensures added[0] in columns ==> columns + Absent(added, columns) == columns + Absent(added[1..], columns)
    ensures added[0] !in columns ==>
      columns + Absent(added, columns) == (columns + [added[0]]) + Absent(added[1..], columns)
  {
  }

  lemma DistinctTail(names: seq<string>)
    requires names != [] && Distinct(names)
    ensures Distinct(names[1..]) && names[0] !in names[1..]
  {
    var rest := names[1..];
    forall j | 0 <= j < |rest| ensures rest[j] != names[0] {
      assert rest[j] == names[j + 1];
    }
  }

  /** No label appears twice. */
  predicate Distinct(names: seq<string>) {
    forall i, j :: 0 <= i < j < |names| ==> names[i] != names[j]
  }

  /** A label that is not required does not change what is absent. */
  lemma {:induction false} AbsentOfAppended(required: seq<string>, columns: seq<string>, extra: string)
    requires extra !in required
    ensures Absent(required, columns + [extra]) == Absent(required, columns)
    decreases |required|
  {
    if required != [] {
      assert required[0] in columns + [extra] <==> required[0] in columns;
      AbsentOfAppended(required[1..], columns, extra);
    }
  }

  /** The written labels of each copy are distinct. */
  lemma WrittenDistinct(f: Flavour)
    ensures Distinct(WrittenColumns(f))
  {
  }

  // ---------------------------------------------------------------------------
  // Sub-signals
  // ---------------------------------------------------------------------------

  const AdxTrend: real := 20.0
  const RsiOversold: real := 30.0
  const RsiOverbought: real := 70.0

  /** `np.where((macd > macd_signal) & (adx > 20), 1, 0)`. */
  function Momentum<E>(row: Row<E>): (m: int)
    ensures m == 0 || m == 1
    ensures m == 1 <==> Gt(row.macd, row.macdSignal) && Above(row.adx, AdxTrend)
  {
    if Gt(row.macd, row.macdSignal) && Above(row.adx, AdxTrend) then 1 else 0
  }

  /** `np.where(rsi < 30, 1, np.where(rsi > 70, -1, 0))`. */
  function MeanReversion<E>(row: Row<E>): (m: int)
    ensures -1 <= m <= 1
    ensures m == 1 <==> Below(row.rsi, RsiOversold)
    ensures m == -1 <==> Above(row.rsi, RsiOverbought)
  {
    if Below(row.rsi, RsiOversold) then 1
    else if Above(row.rsi, RsiOverbought) then -1
    else 0
  }

  /** `np.where(obv.diff() > 0, 1, 0)`: the difference is undefined on the
      first row and next to an undefined value, and then the test fails. */
  function VolumeUp<E>(rows: seq<Row<E>>, i: nat): (v: int)
    requires i < |rows|
    ensures v == 0 || v == 1
    ensures v == 1 <==> i > 0 && Gt(rows[i].obv, rows[i - 1].obv)
    ensures i == 0 ==> v == 0
  {
    var diff := if i == 0 then None else AddScaled(rows[i].obv, -1.0, rows[i - 1].obv);
    if Above(diff, 0.0) then 1 else 0
  }

  /** The label for a score: its sign. */
  function Label(score: int): (s: string)
    ensures Store.ValidRecommendation(s)
    ensures s == "buy" <==> score > 0
    ensures s == "sell" <==> score < 0
    ensures s == "hold" <==> score == 0
  {
    if score > 0 then "buy" else if score < 0 then "sell" else "hold"
  }

  /** Row `i` of the result. */
  function ClassifyRow<E>(rows: seq<Row<E>>, i: nat): (c: Classified<E>)
    requires i < |rows|
    ensures c.row == rows[i]
    ensures c.momentum == Momentum(rows[i]) && c.meanReversion == MeanReversion(rows[i])
    ensures c.volume == VolumeUp(rows, i)
    ensures c.score == c.momentum + c.meanReversion + c.volume
    ensures -1 <= c.score <= 3
    ensures c.recommendation == Label(c.score)
  {
    var m := Momentum(rows[i]);
    var mr := MeanReversion(rows[i]);
    var v := VolumeUp(rows, i);
    Classified(rows[i], m, mr, v, m + mr + v, Label(m + mr + v))
  }

  /** The error one group of reads raises, if any: a missing label first,
      then a repeated one. */
  function GroupError(group: seq<string>, columns: seq<string>): (r: Option<ClassifyError>)
    ensures r.None? <==> forall c :: c in group ==> multiset(columns)[c] == 1
    ensures FirstMissing(group, columns).Some? ==> r == Some(KeyError(FirstMissing(group, columns).value))
    ensures FirstMissing(group, columns).None? && r.Some? ==>
      r == Some(RepeatedColumn(FirstRepeated(group, columns).value))
  {
    match FirstMissing(group, columns)
    case Some(c) =>
      var k :| 0 <= k < |group| && group[k] == c && c !in columns;
      assert multiset(columns)[group[k]] == 0;
      Some(KeyError(c))
    case None =>
      assert forall k :: 0 <= k < |group| ==> group[k] in multiset(columns);
      match FirstRepeated(group, columns)
      case Some(c) => Some(RepeatedColumn(c))
      case None =>
        assert forall c :: c in group ==> multiset(columns)[c] == 1 by {
          forall c | c in group ensures multiset(columns)[c] == 1 {
            var k :| 0 <= k < |group| && group[k] == c;
          }
        }
        None
  }

  /** The groups read in order: the error of the first group that fails. */
  function ReadError(groups: seq<seq<string>>, columns: seq<string>): (r: Option<ClassifyError>)
    ensures r.None? <==> forall g :: 0 <= g < |groups| ==> GroupError(groups[g], columns).None?
    ensures r.Some? ==> exists g :: (0 <= g < |groups| && GroupError(groups[g], columns) == r
      && forall h :: 0 <= h < g ==> GroupError(groups[h], columns).None?)
  {
    if groups == [] then None
    else if GroupError(groups[0], columns).Some? then GroupError(groups[0], columns)
    else
      var rest := groups[1..];
      var r := ReadError(rest, columns);
      assert forall g :: 1 <= g < |groups| ==> rest[g - 1] == groups[g];
      if r.Some? then
        var g :| 0 <= g < |rest| && GroupError(rest[g], columns) == r
          && forall h :: 0 <= h < g ==> GroupError(rest[h], columns).None?;
        assert GroupError(groups[g + 1], columns) == r;
        assert forall h :: 0 <= h < g + 1 ==> GroupError(groups[h], columns).None? by {
          forall h | 0 < h < g + 1 ensures GroupError(groups[h], columns).None? {
            assert groups[h] == rest[h - 1];
          }
        }
        r
      else r
  }

  /** Every group passes exactly when each read column is there once. */
  lemma ReadGroupsCover(columns: seq<string>)
    ensures (forall g :: 0 <= g < |ReadGroups| ==> GroupError(ReadGroups[g], columns).None?)
      <==> forall c :: c in ReadColumns ==> multiset(columns)[c] == 1
  {
    assert forall c :: c in ReadColumns <==> c in ReadGroups[0] || c in ReadGroups[1] || c in ReadGroups[2] || c in ReadGroups[3];
  }

  /** Either copy of the classifier: the error of the first group of reads
      that fails; otherwise the input rows, in order, each with its
      sub-signals, score and label, and the input columns followed by the
      written ones. */
  function Classify<E>(f: Flavour, frame: Frame<E>): (r: Result<ClassifiedFrame<E>, ClassifyError>)
    ensures r.Ok? <==> forall c :: c in ReadColumns ==> multiset(frame.columns)[c] == 1
    ensures r.Err? ==> exists g :: (0 <= g < |ReadGroups| && GroupError(ReadGroups[g], frame.columns) == Some(r.error)
      && forall h :: 0 <= h < g ==> GroupError(ReadGroups[h], frame.columns).None?)
    ensures r.Ok? ==> |r.value.rows| == |frame.rows|
    ensures r.Ok? ==> forall i :: 0 <= i < |frame.rows| ==> r.value.rows[i].row == frame.rows[i]
    ensures r.Ok? ==> forall i :: 0 <= i < |frame.rows| ==> r.value.rows[i] == ClassifyRow(frame.rows, i)
    ensures r.Ok? ==> r.value.columns == frame.columns + Absent(WrittenColumns(f), frame.columns)
    ensures r.Ok? ==> forall c :: c in r.value.columns <==> c in frame.columns || c in WrittenColumns(f)
  {
    ReadGroupsCover(frame.columns);
    match ReadError(ReadGroups, frame.columns)
    case Some(e) => Err(e)
    case None =>
      WrittenDistinct(f);
      AddColumnsOrder(frame.columns, WrittenColumns(f));
      Ok(ClassifiedFrame(AddColumns(frame.columns, WrittenColumns(f)), ClassifyRows(frame.rows)))
  }

  /** Every row classified, in order. */
  function ClassifyRows<E>(rows: seq<Row<E>>): (r: seq<Classified<E>>)
    ensures |r| == |rows|
    ensures forall i :: 0 <= i < |rows| ==> r[i] == ClassifyRow(rows, i) && r[i].row == rows[i]
  {
    seq(|rows|, i requires 0 <= i < |rows| => ClassifyRow(rows, i))
  }

  /** The reads stop at group `g` when every earlier group passes and `g`
      fails. */
  lemma {:induction false} ReadErrorAt(groups: seq<seq<string>>, columns: seq<string>, g: nat)
    requires g < |groups| && GroupError(groups[g], columns).Some?
    requires forall h :: 0 <= h < g ==> GroupError(groups[h], columns).None?
    ensures ReadError(groups, columns) == GroupError(groups[g], columns)
    decreases g
  {
    if g > 0 {
      assert GroupError(groups[0], columns).None?;
      assert forall h :: 0 <= h < g - 1 ==> groups[1..][h] == groups[h + 1];
      ReadErrorAt(groups[1..], columns, g - 1);
    }
  }

  /** A repeated `macd` fails at the MACD comparison, before the missing
      `adx` is read. */
  lemma RepeatedMacdFailsFirst<E>(f: Flavour, rows: seq<Row<E>>)
    ensures Classify(f, Frame(["macd", "macd", "macd_signal"], rows)) == Err(RepeatedColumn("macd"))
  {
    var columns := ["macd", "macd", "macd_signal"];
    assert multiset(columns)["macd"] == 2;
    assert FirstMissing(ReadGroups[0], columns) == None;
    assert FirstRepeated(ReadGroups[0], columns) == Some("macd");
    assert ReadError(ReadGroups, columns) == Some(RepeatedColumn("macd"));
  }

  /** With every other read column present once, a repeated `obv` fails at
      the assignment of the volume sub-signal. */
  lemma RepeatedObvFails<E>(f: Flavour, frame: Frame<E>)
    requires var m := multiset(frame.columns);
      m["macd"] == 1 && m["macd_signal"] == 1 && m["adx"] == 1 && m["rsi_14"] == 1
    requires multiset(frame.columns)["obv"] > 1
    ensures Classify(f, frame) == Err(RepeatedColumn("obv"))
  {
    var columns := frame.columns;
    assert GroupError(ReadGroups[0], columns).None?;
    assert GroupError(ReadGroups[1], columns).None?;
    assert GroupError(ReadGroups[2], columns).None?;
    assert FirstMissing(ReadGroups[3], columns) == None;
    assert GroupError(ReadGroups[3], columns) == Some(RepeatedColumn("obv"));
    ReadErrorAt(ReadGroups, columns, 3);
  }

  // ---------------------------------------------------------------------------
  // Properties
  // ---------------------------------------------------------------------------

  /** `sell` needs an overbought RSI and nothing bullish: the only negative
      sub-signal is mean reversion, so the score is negative only when it is
      -1 and the other two are 0. */
  lemma SellMeansOverbought<E>(rows: seq<Row<E>>, i: nat)
    requires i < |rows|
    requires ClassifyRow(rows, i).recommendation == "sell"
    ensures Above(rows[i].rsi, RsiOverbought)
    ensures ClassifyRow(rows, i).momentum == 0 && ClassifyRow(rows, i).volume == 0
    ensures ClassifyRow(rows, i).score == -1
  {
  }

  /** `buy` exactly when some bullish sub-signal outweighs an overbought
      RSI. */
  lemma BuyCondition<E>(rows: seq<Row<E>>, i: nat)
    requires i < |rows|
    ensures var c := ClassifyRow(rows, i);
      c.recommendation == "buy" <==>
        if Above(rows[i].rsi, RsiOverbought) then c.momentum == 1 && c.volume == 1
        else c.momentum == 1 || c.volume == 1 || Below(rows[i].rsi, RsiOversold)
  {
  }

  /** The two copies agree on every value; only the column names differ. */
  lemma FlavoursAgree<E>(frame: Frame<E>)
    ensures Classify(SignalsModule, frame).Ok? <==> Classify(Generator, frame).Ok?
    ensures Classify(SignalsModule, frame).Ok? ==>
      Classify(SignalsModule, frame).value.rows == Classify(Generator, frame).value.rows
  {
  }

  /** What `insert_signals` reads from a classified row with `row.get`: it
      looks the sub-signals up under the `sig_*` names, so a row from
      `signal_generator.py`, whose sub-signals are named `signal_*`, offers
      none of them and only its score and recommendation. */
  function StorageInput<E>(f: Flavour, time: int, c: Classified<E>): (r: Store.SignalInput)
    ensures r.time == time && r.score == Some(c.score) && r.recommendation == Some(c.recommendation)
    ensures f == SignalsModule <==> r.momentum.Some?
    ensures r.momentum.Some? == r.meanReversion.Some? == r.volume.Some?
    ensures r.momentum.Some? ==> (r.momentum.value, r.meanReversion.value, r.volume.value) == (c.momentum, c.meanReversion, c.volume)
  {
    var keys := WrittenColumns(f);
    Store.SignalInput(
      time,
      if keys[0] == "sig_momentum_trend" then Some(c.momentum) else None,
      if keys[1] == "sig_mean_reversion" then Some(c.meanReversion) else None,
      if keys[2] == "sig_volume" then Some(c.volume) else None,
      Some(c.score), Some(c.recommendation))
  }

  /** Unlike the stateful engine's, every label this classifier produces
      passes the signals table's CHECK constraint: a classified row whose bar
      exists is stored and counted. Its score and recommendation are stored
      as computed; its sub-signals are stored only from `signals.py`, and a
      row from `signal_generator.py` is stored with sub-signals 0. */
  lemma LabelStored<E>(db: Store.Db, series: Store.Series, time: int, f: Flavour, c: Classified<E>)
    requires Store.Valid(db)
    requires Store.BarAt(db.bars, series, time).Some?
    requires Store.ValidRecommendation(c.recommendation)
    ensures var (db', n) := Store.InsertSignals(db, series, [StorageInput(f, time, c)]);
      && n == 1
      && Store.ValueAt(db'.signals, series, time) == Some(
        if f == SignalsModule then Store.SignalValues(c.momentum, c.meanReversion, c.volume, c.score, c.recommendation)
        else Store.SignalValues(0, 0, 0, c.score, c.recommendation))
  {
    var input := StorageInput(f, time, c);
    var items := Store.SignalItems([input]);
    assert items == [Store.SignalItem(input)];
    assert items[..0] == [];
    assert Store.Stores(db.bars, series, items[0]);
  }
}

=== FILE: common.dfy ===
/** Shared vocabulary of the model: optional values, results, the comparison
    semantics of possibly-undefined (NaN) indicator values, and the handful of
    Python string primitives (`lower`, `strip`, `split`, `join`, `<`) that the
    modelled code relies on. */
module Common {

  /** A value that may be absent: a missing column, a NaN, a SQL NULL or a
      Python `None`, depending on where it is used. */
  datatype Option<+T> = None | Some(value: T) {
    function GetOr(default: T): T {
      match this
      case Some(v) => v
      case None => default
    }
  }

  /** The outcome of an operation that can raise. */
  datatype Result<+T, +E> = Ok(value: T) | Err(error: E)

  // ---------------------------------------------------------------------------
  // Comparisons on values that may be NaN: any comparison involving an
  // undefined operand is false, as for IEEE floats in pandas and numpy.
  // ---------------------------------------------------------------------------

  predicate Gt(a: Option<real>, b: Option<real>) {
    a.Some? && b.Some? && a.value > b.value
  }

  predicate Lt(a: Option<real>, b: Option<real>) {
    a.Some? && b.Some? && a.value < b.value
  }

  predicate Ge(a: Option<real>, b: Option<real>) {
    a.Some? && b.Some? && a.value >= b.value
  }

  predicate Le(a: Option<real>, b: Option<real>) {
    a.Some? && b.Some? && a.value <= b.value
  }

  /** `x > c` for a constant `c`. */
  predicate Above(a: Option<real>, c: real) {
    a.Some? && a.value > c
  }

  /** `x < c` for a constant `c`. */
  predicate Below(a: Option<real>, c: real) {
    a.Some? && a.value < c
  }

  /** NaN-propagating affine combination `a + k * b`. */
  function AddScaled(a: Option<real>, k: real, b: Option<real>): (r: Option<real>)
    ensures r.Some? <==> a.Some? && b.Some?
    ensures r.Some? ==> r.value - a.value == k * b.value
  {
    if a.Some? && b.Some? then Some(a.value + k * b.value) else None
  }

  function BoolToInt(b: bool): (r: int)
    ensures b <==> r == 1
    ensures !b <==> r == 0
  {
    if b then 1 else 0
  }

  function Min(a: int, b: int): int { if a <= b then a else b }

  function Max(a: int, b: int): int { if a >= b then a else b }

  // ---------------------------------------------------------------------------
  // Python string primitives
  // ---------------------------------------------------------------------------

  /** `str.isspace` for one character: the complete set of code points Python
      treats as whitespace. */
  predicate IsSpace(c: char) {
    var n := c as int;
    (9 <= n <= 13) || (28 <= n <= 32) || n == 0x85 || n == 0xA0 || n == 0x1680
    || (0x2000 <= n <= 0x200A) || n == 0x2028 || n == 0x2029 || n == 0x202F
    || n == 0x205F || n == 0x3000
  }

  predicate IsDigit(c: char) {
    '0' <= c <= '9'
  }

  function DigitValue(c: char): (d: nat)
    requires IsDigit(c)
    ensures d < 10
  {
    (c as int) - ('0' as int)
  }

  /** `str.lower` restricted to ASCII letters. */
  function LowerChar(c: char): (r: char)
    ensures 'A' <= c <= 'Z' ==> 'a' <= r <= 'z'
    ensures !('A' <= c <= 'Z') ==> r == c
  {
    if 'A' <= c <= 'Z' then (c as int - 'A' as int + 'a' as int) as char else c
  }

  function Lower(s: string): (r: string)
    ensures |r| == |s|
    ensures forall i :: 0 <= i < |s| ==> r[i] == LowerChar(s[i])
  {
    if s == [] then [] else [LowerChar(s[0])] + Lower(s[1..])
  }

  function StripLeft(s: string): (r: string)
    ensures |r| <= |s| && r == s[|s| - |r|..]
    ensures r == [] || !IsSpace(r[0])
    ensures forall i :: 0 <= i < |s| - |r| ==> IsSpace(s[i])
  {
    if s != [] && IsSpace(s[0]) then StripLeft(s[1..]) else s
  }

  function StripRight(s: string): (r: string)
    ensures |r| <= |s| && r == s[..|r|]
    ensures r == [] || !IsSpace(r[|r| - 1])
    ensures forall i :: |r| <= i < |s| ==> IsSpace(s[i])
  {
    if s != [] && IsSpace(s[|s| - 1]) then StripRight(s[..|s| - 1]) else s
  }

  /** `str.strip()` with no argument. */
  function Strip(s: string): string {
    StripRight(StripLeft(s))
  }

  lemma StripUnchanged(s: string)
    requires s != [] && !IsSpace(s[0]) && !IsSpace(s[|s| - 1])
    ensures Strip(s) == s
  {
  }

  /** Index of the first occurrence of `c` in `s`. */
  function IndexOf<T(==)>(s: seq<T>, c: T): (r: Option<nat>)
    ensures r.Some? ==> r.value < |s| && s[r.value] == c && c !in s[..r.value]
    ensures r.None? <==> c !in s
  {
    if s == [] then None
    else if s[0] == c then Some(0)
    else match IndexOf(s[1..], c)
      case None => None
      case Some(i) => Some(i + 1)
  }

  /** `s.split(c)[0]`: the part of `s` before the first `c`, or all of `s`. */
  function BeforeFirst(s: string, c: char): (r: string)
    ensures c !in r
    ensures r <= s
    ensures |r| == |s| || s[|r|] == c
  {
    match IndexOf(s, c)
    case None => s
    case Some(i) => s[..i]
  }

  function EndsWith(s: string, suffix: string): bool {
    |suffix| <= |s| && s[|s| - |suffix|..] == suffix
  }

  /** The separator the rationale builders put between clauses. */
  const ClauseSep: string := "; "

  /** `sep.join(parts)`. */
  function Join(parts: seq<string>, sep: string): (r: string)
    ensures parts == [] ==> r == []
    ensures |parts| == 1 ==> r == parts[0]
    ensures parts != [] ==> parts[0] <= r
  {
    if parts == [] then []
    else if |parts| == 1 then parts[0]
    else parts[0] + sep + Join(parts[1..], sep)
  }

  /** Index of the first occurrence of `sep` in `s`, as `str.find`. */
  function Find(s: string, sep: string): (r: Option<nat>)
    requires sep != []
    ensures r.Some? ==> r.value + |sep| <= |s| && s[r.value..r.value + |sep|] == sep
    decreases |s|
  {
    if |s| < |sep| then None
    else if s[..|sep|] == sep then Some(0)
    else match Find(s[1..], sep)
      case None => None
      case Some(i) => Some(i + 1)
  }

  /** `s.split(sep)` for a non-empty separator. */
  function Split(s: string, sep: string): (r: seq<string>)
    requires sep != []
    ensures |r| >= 1
    decreases |s|
  {
    match Find(s, sep)
    case None => [s]
    case Some(i) => [s[..i]] + Split(s[i + |sep|..], sep)
  }

  /** A separator whose first character is not in `p` is first found right
      after `p`. */
  lemma {:induction false} FindAfter(p: string, sep: string, rest: string)
    requires sep != [] && sep[0] !in p
    ensures Find(p + sep + rest, sep) == Some(|p|)
    decreases |p|
  {
    var s := p + sep + rest;
    if p == [] {
      assert s[..|sep|] == sep;
    } else {
      assert s[0] == p[0] != sep[0];
      assert s[1..] == p[1..] + sep + rest;
      FindAfter(p[1..], sep, rest);
    }
  }

  lemma {:induction false} FindNone(p: string, sep: string)
    requires sep != [] && sep[0] !in p
    ensures Find(p, sep).None?
    decreases |p|
  {
    if |p| >= |sep| {
      assert p[..|sep|][0] == p[0] != sep[0];
      FindNone(p[1..], sep);
    }
  }

  /** `sep.join(parts).split(sep) == parts` when the separator's first
      character occurs in no part: joining loses nothing. */
  lemma {:induction false} SplitJoin(parts: seq<string>, sep: string)
    requires sep != [] && parts != []
    requires forall i :: 0 <= i < |parts| ==> sep[0] !in parts[i]
    ensures Split(Join(parts, sep), sep) == parts
    decreases |parts|
  {
    if |parts| == 1 {
      FindNone(parts[0], sep);
    } else {
      var rest := Join(parts[1..], sep);
      assert Join(parts, sep) == parts[0] + sep + rest;
      SplitAfter(parts[0], sep, rest);
      var tail := parts[1..];
      assert forall i :: 0 <= i < |tail| ==> tail[i] == parts[i + 1];
      SplitJoin(tail, sep);
      assert parts == [parts[0]] + tail;
    }
  }

  /** A prefix free of the separator's first character splits off as the
      first part. */
  lemma SplitAfter(p: string, sep: string, rest: string)
    requires sep != [] && sep[0] !in p
    ensures Split(p + sep + rest, sep) == [p] + Split(rest, sep)
  {
    var s := p + sep + rest;
    FindAfter(p, sep, rest);
    assert s[..|p|] == p;
    assert s[|p| + |sep|..] == rest;
  }

  /** The first column of `read` that is not among `columns`: the `KeyError`
      a sequence of column reads stops at. */
  function FirstMissing(read: seq<string>, columns: seq<string>): (r: Option<string>)
    ensures r.None? <==> forall i :: 0 <= i < |read| ==> read[i] in columns
    ensures r.Some? ==> exists k :: (0 <= k < |read| && read[k] == r.value && r.value !in columns
      && forall j :: 0 <= j < k ==> read[j] in columns)
  {
    if read == [] then None
    else if read[0] !in columns then Some(read[0])
    else
      var r := FirstMissing(read[1..], columns);
      assert forall i :: 1 <= i < |read| ==> read[1..][i - 1] == read[i];
      if r.Some? then
        var k :| 0 <= k < |read[1..]| && read[1..][k] == r.value && r.value !in columns
          && forall j :: 0 <= j < k ==> read[1..][j] in columns;
        assert read[k + 1] == r.value;
        r
      else r
  }

  /** The first of `names` that labels more than one column. */
  function FirstRepeated(names: seq<string>, columns: seq<string>): (r: Option<string>)
    ensures r.None? <==> forall k :: 0 <= k < |names| ==> multiset(columns)[names[k]] <= 1
    ensures r.Some? ==> exists k :: (0 <= k < |names| && names[k] == r.value
      && multiset(columns)[r.value] > 1
      && forall j :: 0 <= j < k ==> multiset(columns)[names[j]] <= 1)
  {
    if names == [] then None
    else if multiset(columns)[names[0]] > 1 then Some(names[0])
    else
      var r := FirstRepeated(names[1..], columns);
      if r.Some? then
        var k :| 0 <= k < |names[1..]| && names[1..][k] == r.value
          && forall j :: 0 <= j < k ==> multiset(columns)[names[1..][j]] <= 1;
        assert names[k + 1] == r.value;
        r
      else r
  }

  /** A loop over results computed in order that stops at the first error:
      every value, or the first error. */
  function Collect<B(==), E(==)>(outs: seq<Result<B, E>>): (r: Result<seq<B>, E>)
    ensures r.Ok? <==> forall i :: 0 <= i < |outs| ==> outs[i].Ok?
    ensures r.Ok? ==> |r.value| == |outs|
    ensures r.Ok? ==> forall i :: 0 <= i < |outs| ==> outs[i] == Ok(r.value[i])
    ensures r.Err? ==> exists k :: (0 <= k < |outs| && outs[k] == Err(r.error)
      && forall i :: 0 <= i < k ==> outs[i].Ok?)
  {
    if outs == [] then Ok([])
    else match outs[0]
      case Err(e) => Err(e)
      case Ok(y) =>
        match Collect(outs[1..])
        case Err(e) =>
          var k :| 0 <= k < |outs[1..]| && outs[1..][k] == Err(e)
            && forall i :: 0 <= i < k ==> outs[1..][i].Ok?;
          assert outs[k + 1] == Err(e);
          assert forall i :: 1 <= i < k + 1 ==> outs[i] == outs[1..][i - 1];
          Err(e)
        case Ok(rest) =>
          assert forall i :: 1 <= i < |outs| ==> outs[i] == outs[1..][i - 1];
          Ok([y] + rest)
  }

  /** Python's `str` ordering: lexicographic on code points. */
  predicate StrLe(a: string, b: string) {
    if a == [] then true
    else if b == [] then false
    else if a[0] != b[0] then a[0] < b[0]
    else StrLe(a[1..], b[1..])
  }

  lemma {:induction false} StrLeTotal(a: string, b: string)
    ensures StrLe(a, b) || StrLe(b, a)
    decreases |a|
  {
    if a != [] && b != [] && a[0] == b[0] {
      StrLeTotal(a[1..], b[1..]);
    }
  }

  lemma {:induction false} StrLeTransitive(a: string, b: string, c: string)
    requires StrLe(a, b) && StrLe(b, c)
    ensures StrLe(a, c)
    decreases |a|
  {
    if a != [] && b != [] && c != [] && a[0] == b[0] && b[0] == c[0] {
      StrLeTransitive(a[1..], b[1..], c[1..]);
    }
  }

  lemma {:induction false} StrLeAntisymmetric(a: string, b: string)
    requires StrLe(a, b) && StrLe(b, a)
    ensures a == b
    decreases |a|
  {
    if a != [] && b != [] {
      StrLeAntisymmetric(a[1..], b[1..]);
    }
  }

  /** The names of `names` that label a column, in `names` order. */
  function Present(names: seq<string>, columns: seq<string>): (r: seq<string>)
    ensures forall c :: c in r <==> c in names && c in columns
    ensures |r| <= |names|
  {
    if names == [] then []
    else
      var rest := Present(names[1..], columns);
      assert forall c :: c in names <==> c == names[0] || c in names[1..];
      if names[0] in columns then [names[0]] + rest else rest
  }

  /** Without repeated names, `Present` repeats nothing. */
  lemma {:induction false} PresentDistinct(names: seq<string>, columns: seq<string>)
    requires forall c :: multiset(names)[c] <= 1
    ensures forall c :: multiset(Present(names, columns))[c] <= 1
  {
    if names != [] {
      assert names == [names[0]] + names[1..];
      assert forall c :: multiset(names[1..])[c] <= multiset(names)[c];
      PresentDistinct(names[1..], columns);
      assert multiset(names[1..])[names[0]] == 0;
      assert names[0] !in Present(names[1..], columns);
    }
  }

  /** `Present` only asks which labels exist. */
  lemma PresentSameMembers(names: seq<string>, a: seq<string>, b: seq<string>)
    requires forall c :: c in a <==> c in b
    ensures Present(names, a) == Present(names, b)
  {
  }

  /** When every name labels a column, `Present` keeps them all. */
  lemma PresentAll(names: seq<string>, columns: seq<string>)
    requires forall c :: c in names ==> c in columns
    ensures Present(names, columns) == names
  {
    if names != [] {
      assert forall c :: c in names[1..] ==> c in names;
      PresentAll(names[1..], columns);
    }
  }

  /** The strings of `required` that are not columns, in `required` order. */
  function Absent(required: seq<string>, columns: seq<string>): (r: seq<string>)
    ensures forall c :: c in r <==> c in required && c !in columns
    ensures |r| <= |required|
  {
    if required == [] then []
    else
      var rest := Absent(required[1..], columns);
      assert forall c :: c in required <==> c == required[0] || c in required[1..];
      if required[0] in columns then rest else [required[0]] + rest
  }
}

=== FILE: frames.dfy ===
/** The slice of pandas the normalisers rely on: a frame is an index, a
    sequence of column labels (repeats allowed, as in pandas) and rows of
    cells. Dropping, de-duplicating and selecting columns are projections by
    column position (`Pick`); renaming relabels; `reset_index`,
    `sort_values` and `dropna` are modelled with the errors pandas raises. */
module Frames {
  import opened Common
  import opened Sorting

  /** A cell: a timestamp, a number, a string, or missing (NaN, NaT, None). */
  datatype Cell = Stamp(t: int) | Num(x: real) | Text(s: string) | Null

  /** The row index: its name, whether it is a `DatetimeIndex`, its labels. */
  datatype Index = Index(name: Option<string>, isDatetime: bool, labels: seq<Cell>)

  datatype Frame = Frame(index: Index, columns: seq<string>, rows: seq<seq<Cell>>)

  /** The errors pandas raises in the operations used here. */
  datatype FrameError =
    | KeyError(column: string)       // the column does not exist
    | NotUnique(column: string)      // sorting by a repeated column label
    | AlreadyExists(column: string)  // `reset_index` onto an existing column

  predicate WellFormed(f: Frame) {
    && |f.index.labels| == |f.rows|
    && forall i :: 0 <= i < |f.rows| ==> |f.rows[i]| == |f.columns|
  }

  /** The index `reset_index(drop=True)` leaves: 0, 1, 2, ... */
  function RangeIndex(n: nat): (ix: Index)
    ensures |ix.labels| == n && ix.name.None? && !ix.isDatetime
  {
    Index(None, false, seq(n, i requires 0 <= i < n => Num(i as real)))
  }

  /** `df.empty`: no rows or no columns. */
  predicate Empty(f: Frame) {
    f.rows == [] || f.columns == []
  }

  // ---------------------------------------------------------------------------
  // Positions
  // ---------------------------------------------------------------------------

  /** Strictly increasing positions below `n`. */
  predicate Increasing(idx: seq<nat>, n: nat) {
    && (forall k :: 0 <= k < |idx| ==> idx[k] < n)
    && (forall k, l :: 0 <= k < l < |idx| ==> idx[k] < idx[l])
  }

  /** The positions `j >= from` of `s` that `keep` accepts, in order. */
  function PositionsFrom<T>(s: seq<T>, keep: (nat, T) -> bool, from: nat): (r: seq<nat>)
    requires from <= |s|
    ensures Increasing(r, |s|)
    ensures forall k :: 0 <= k < |r| ==> from <= r[k] && keep(r[k], s[r[k]])
    ensures forall j :: from <= j < |s| && keep(j, s[j]) ==> j in r
    decreases |s| - from
  {
    if from == |s| then []
    else
      var rest := PositionsFrom(s, keep, from + 1);
      if keep(from, s[from]) then [from] + rest else rest
  }

  function Positions<T>(s: seq<T>, keep: (nat, T) -> bool): (r: seq<nat>)
    ensures Increasing(r, |s|)
    ensures forall k :: 0 <= k < |r| ==> keep(r[k], s[r[k]])
    ensures forall j :: 0 <= j < |s| && keep(j, s[j]) ==> j in r
  {
    PositionsFrom(s, keep, 0)
  }

  /** Nothing accepted, no positions. */
  lemma {:induction false} PositionsNone<T>(s: seq<T>, keep: (nat, T) -> bool, from: nat)
    requires from <= |s|
    requires forall j :: from <= j < |s| ==> !keep(j, s[j])
    ensures PositionsFrom(s, keep, from) == []
    decreases |s| - from
  {
    if from < |s| {
      PositionsNone(s, keep, from + 1);
    }
  }

  /** The elements of `s` at the positions `idx`, in that order. */
  function Pick<T>(s: seq<T>, idx: seq<nat>): (r: seq<T>)
    requires forall k :: 0 <= k < |idx| ==> idx[k] < |s|
    ensures |r| == |idx|
    ensures forall k :: 0 <= k < |idx| ==> r[k] == s[idx[k]]
  {
    if idx == [] then [] else [s[idx[0]]] + Pick(s, idx[1..])
  }

  /** Picking twice is picking once by the composed positions. */
  lemma PickPick<T>(s: seq<T>, a: seq<nat>, b: seq<nat>)
    requires forall k :: 0 <= k < |a| ==> a[k] < |s|
    requires forall k :: 0 <= k < |b| ==> b[k] < |a|
    ensures Pick(Pick(s, a), b) == Pick(s, Pick(a, b))
  {
  }

  /** Picking the accepted positions keeps exactly the accepted elements. */
  lemma PickPositions<T>(s: seq<T>, keep: (nat, T) -> bool)
    ensures forall x :: x in Pick(s, Positions(s, keep)) <==>
      exists j :: 0 <= j < |s| && s[j] == x && keep(j, x)
  {
    var idx := Positions(s, keep);
    var r := Pick(s, idx);
    forall x | exists j :: 0 <= j < |s| && s[j] == x && keep(j, x)
      ensures x in r
    {
      var j :| 0 <= j < |s| && s[j] == x && keep(j, x);
      var k :| 0 <= k < |idx| && idx[k] == j;
      assert r[k] == x;
    }
  }

  /** When `keep` decides an element `x` the same way wherever it stands,
      picking keeps every copy of `x` or none. */
  lemma {:induction false} PositionsFromCount<T>(s: seq<T>, keep: (nat, T) -> bool, from: nat, x: T, kept: bool)
    requires from <= |s|
    requires forall j :: from <= j < |s| && s[j] == x ==> (keep(j, s[j]) <==> kept)
    ensures multiset(Pick(s, PositionsFrom(s, keep, from)))[x] == if kept then multiset(s[from..])[x] else 0
    decreases |s| - from
  {
    if from < |s| {
      PositionsFromCount(s, keep, from + 1, x, kept);
      var rest := PositionsFrom(s, keep, from + 1);
      assert s[from..] == [s[from]] + s[from + 1..];
      if keep(from, s[from]) {
        assert ([from] + rest)[1..] == rest;
        assert Pick(s, [from] + rest) == [s[from]] + Pick(s, rest);
      }
    }
  }

  lemma PositionsCount<T>(s: seq<T>, keep: (nat, T) -> bool, x: T, kept: bool)
    requires forall j :: 0 <= j < |s| && s[j] == x ==> (keep(j, s[j]) <==> kept)
    ensures multiset(Pick(s, Positions(s, keep)))[x] == if kept then multiset(s)[x] else 0
  {
    PositionsFromCount(s, keep, 0, x, kept);
    assert s[0..] == s;
  }

  // ---------------------------------------------------------------------------
  // Column operations
  // ---------------------------------------------------------------------------

  predicate InBounds(f: Frame, idx: seq<nat>) {
    forall k :: 0 <= k < |idx| ==> idx[k] < |f.columns|
  }

  /** The frame made of the columns at `idx`, in that order. */
  function Project(f: Frame, idx: seq<nat>): (r: Frame)
    requires WellFormed(f)
    requires InBounds(f, idx)
    ensures WellFormed(r)
    ensures r.index == f.index
    ensures r.columns == Pick(f.columns, idx)
    ensures |r.rows| == |f.rows|
    ensures forall i :: 0 <= i < |f.rows| ==> r.rows[i] == Pick(f.rows[i], idx)
  {
    Frame(f.index, Pick(f.columns, idx), seq(|f.rows|, i requires 0 <= i < |f.rows| => Pick(f.rows[i], idx)))
  }

  /** Picking every position in order gives the sequence back. */
  lemma PickIdentity<T>(s: seq<T>, d: seq<nat>)
    requires |d| == |s| && forall k :: 0 <= k < |d| ==> d[k] == k
    ensures Pick(s, d) == s
  {
  }

  /** Projecting onto every column in order gives the frame back. */
  lemma ProjectIdentity(f: Frame, d: seq<nat>)
    requires WellFormed(f)
    requires |d| == |f.columns| && forall k :: 0 <= k < |d| ==> d[k] == k
    ensures Project(f, d) == f
  {
    var p := Project(f, d);
    PickIdentity(f.columns, d);
    forall i | 0 <= i < |f.rows| ensures p.rows[i] == f.rows[i] {
      PickIdentity(f.rows[i], d);
    }
    assert p.rows == f.rows;
  }

  /** Projecting twice is projecting once by the composed positions. */
  lemma ProjectProject(f: Frame, a: seq<nat>, b: seq<nat>)
    requires WellFormed(f)
    requires InBounds(f, a)
    requires forall k :: 0 <= k < |b| ==> b[k] < |a|
    ensures InBounds(f, Pick(a, b))
    ensures Project(Project(f, a), b) == Project(f, Pick(a, b))
  {
    var l := Project(Project(f, a), b);
    var r := Project(f, Pick(a, b));
    PickPick(f.columns, a, b);
    forall i | 0 <= i < |f.rows| ensures l.rows[i] == r.rows[i] {
      PickPick(f.rows[i], a, b);
    }
  }

  /** `df.rename(columns=...)` with a total relabelling. */
  function Rename(f: Frame, rename: string -> string): (r: Frame)
    requires WellFormed(f)
    ensures WellFormed(r) && r.index == f.index && r.rows == f.rows
    ensures |r.columns| == |f.columns|
    ensures forall k :: 0 <= k < |f.columns| ==> r.columns[k] == rename(f.columns[k])
  {
    Frame(f.index, Relabel(f.columns, rename), f.rows)
  }

  function Relabel(columns: seq<string>, rename: string -> string): (r: seq<string>)
    ensures |r| == |columns|
    ensures forall k :: 0 <= k < |columns| ==> r[k] == rename(columns[k])
  {
    seq(|columns|, k requires 0 <= k < |columns| => rename(columns[k]))
  }

  /** A label after relabelling is the relabelling of a label before. */
  lemma RelabelIn(columns: seq<string>, rename: string -> string, c: string)
    ensures c in Relabel(columns, rename) <==> exists x :: x in columns && rename(x) == c
  {
    var r := Relabel(columns, rename);
    if exists x :: x in columns && rename(x) == c {
      var x :| x in columns && rename(x) == c;
      var j :| 0 <= j < |columns| && columns[j] == x;
      assert r[j] == c;
    }
  }

  /** Dropping a label that relabels like a label kept loses no label. */
  lemma RelabelAfterDrop(columns: seq<string>, kept: seq<string>, dropped: string, twin: string,
                         rename: string -> string, c: string)
    requires forall x :: x in kept <==> x in columns && x != dropped
    requires twin in columns && twin != dropped && rename(twin) == rename(dropped)
    ensures c in Relabel(kept, rename) <==> c in Relabel(columns, rename)
  {
    RelabelIn(kept, rename, c);
    RelabelIn(columns, rename, c);
    if exists x :: x in columns && rename(x) == c {
      var x :| x in columns && rename(x) == c;
      if x == dropped {
        assert twin in kept && rename(twin) == c;
      }
    }
  }

  /** Relabelling and projecting commute. */
  lemma RenameProject(f: Frame, idx: seq<nat>, rename: string -> string)
    requires WellFormed(f)
    requires InBounds(f, idx)
    ensures Project(Rename(f, rename), idx) == Rename(Project(f, idx), rename)
  {
  }

  /** Accepts the columns not labelled `name`. */
  function NotLabel(name: string): (nat, string) -> bool {
    (j: nat, c: string) => c != name
  }

  /** Accepts the columns labelled `name`. */
  function IsLabel(name: string): (nat, string) -> bool {
    (j: nat, c: string) => c == name
  }

  /** Accepts the first column of each label. */
  function FirstOfLabel(columns: seq<string>): (nat, string) -> bool {
    (j: nat, c: string) => j <= |columns| && c !in columns[..j]
  }

  /** `df.drop(columns=[name])`: every column so labelled goes. */
  function DropColumn(f: Frame, name: string): (r: Frame)
    requires WellFormed(f)
    ensures WellFormed(r)
    ensures r == Project(f, Positions(f.columns, NotLabel(name)))
    ensures forall c :: c in r.columns <==> c in f.columns && c != name
    ensures forall c :: multiset(r.columns)[c] == if c == name then 0 else multiset(f.columns)[c]
  {
    var idx := Positions(f.columns, NotLabel(name));
    PickPositions(f.columns, NotLabel(name));
    forall c ensures multiset(Pick(f.columns, idx))[c] == if c == name then 0 else multiset(f.columns)[c] {
      PositionsCount(f.columns, NotLabel(name), c, c != name);
    }
    Project(f, idx)
  }

  /** `df.loc[:, ~df.columns.duplicated()]`: the first column of each label. */
  function FirstOfEachLabel(f: Frame): (r: Frame)
    requires WellFormed(f)
    ensures WellFormed(r)
    ensures r == Project(f, Positions(f.columns, FirstOfLabel(f.columns)))
    ensures forall c :: c in r.columns <==> c in f.columns
    ensures forall c :: multiset(r.columns)[c] <= 1
  {
    var idx := Positions(f.columns, FirstOfLabel(f.columns));
    FirstOfLabelPositions(f.columns, idx);
    Project(f, idx)
  }

  lemma FirstOfLabelPositions(columns: seq<string>, idx: seq<nat>)
    requires idx == Positions(columns, FirstOfLabel(columns))
    ensures forall c :: c in Pick(columns, idx) <==> c in columns
    ensures forall c :: multiset(Pick(columns, idx))[c] <= 1
  {
    forall c | c in columns ensures c in Pick(columns, idx) {
      FirstOfLabelCovers(columns, idx, c);
    }
    FirstOfLabelDistinct(columns, idx);
    DistinctCounts(Pick(columns, idx));
  }

  lemma FirstOfLabelCovers(columns: seq<string>, idx: seq<nat>, c: string)
    requires idx == Positions(columns, FirstOfLabel(columns))
    requires c in columns
    ensures c in Pick(columns, idx)
  {
    var j := IndexOf(columns, c).value;
    assert FirstOfLabel(columns)(j, columns[j]);
    var k :| 0 <= k < |idx| && idx[k] == j;
    assert Pick(columns, idx)[k] == c;
  }

  lemma FirstOfLabelDistinct(columns: seq<string>, idx: seq<nat>)
    requires idx == Positions(columns, FirstOfLabel(columns))
    ensures forall k, l :: 0 <= k < l < |idx| ==> columns[idx[k]] != columns[idx[l]]
  {
    forall k, l | 0 <= k < l < |idx| ensures columns[idx[k]] != columns[idx[l]] {
      assert columns[..idx[l]][idx[k]] == columns[idx[k]];
      assert FirstOfLabel(columns)(idx[l], columns[idx[l]]);
    }
  }

  /** Without repeats, every value occurs at most once. */
  lemma DistinctCounts<T>(s: seq<T>)
    requires forall k, l :: 0 <= k < l < |s| ==> s[k] != s[l]
    ensures forall x :: multiset(s)[x] <= 1
  {
    forall x ensures multiset(s)[x] <= 1 {
      if multiset(s)[x] >= 2 {
        RepeatedElement(s, x);
        assert false;
      }
    }
  }

  /** `df[names]`: for each name in turn, every column with that label. */
  function Select(f: Frame, names: seq<string>): (r: Frame)
    requires WellFormed(f)
    ensures WellFormed(r)
    ensures r == Project(f, SelectPositions(f.columns, names))
    ensures forall c :: c in r.columns <==> c in names && c in f.columns
    ensures forall c :: multiset(names)[c] == 1 ==> multiset(r.columns)[c] == multiset(f.columns)[c]
    ensures (forall c :: multiset(f.columns)[c] <= 1) ==> r.columns == Present(names, f.columns)
  {
    var idx := SelectPositions(f.columns, names);
    SelectLabels(f.columns, names);
    Project(f, idx)
  }

  /** The positions `df[names]` takes. */
  function SelectPositions(columns: seq<string>, names: seq<string>): (r: seq<nat>)
    ensures forall k :: 0 <= k < |r| ==> r[k] < |columns| && columns[r[k]] in names
    ensures forall j :: 0 <= j < |columns| && columns[j] in names ==> j in r
  {
    if names == [] then []
    else
      var rest := SelectPositions(columns, names[1..]);
      assert forall c :: c in names <==> c == names[0] || c in names[1..];
      Positions(columns, IsLabel(names[0])) + rest
  }

  /** The labels `df[names]` yields: every column of a name listed once,
      and nothing else. */
  lemma SelectLabels(columns: seq<string>, names: seq<string>)
    ensures forall c :: multiset(names)[c] == 1 ==>
      multiset(Pick(columns, SelectPositions(columns, names)))[c] == multiset(columns)[c]
    ensures (forall c :: multiset(columns)[c] <= 1) ==>
      Pick(columns, SelectPositions(columns, names)) == Present(names, columns)
  {
    forall c | multiset(names)[c] == 1
      ensures multiset(Pick(columns, SelectPositions(columns, names)))[c] == multiset(columns)[c]
    {
      SelectCount(columns, names, c);
    }
    if forall c :: multiset(columns)[c] <= 1 {
      SelectUnique(columns, names);
    }
  }

  lemma {:induction false} SelectCount(columns: seq<string>, names: seq<string>, c: string)
    requires multiset(names)[c] <= 1
    ensures multiset(Pick(columns, SelectPositions(columns, names)))[c] ==
      if multiset(names)[c] == 1 then multiset(columns)[c] else 0
  {
    if names != [] {
      var name := names[0];
      var here := Positions(columns, IsLabel(name));
      var rest := SelectPositions(columns, names[1..]);
      assert names == [name] + names[1..];
      SelectCount(columns, names[1..], c);
      PickAppend(columns, here, rest);
      PositionsCount(columns, IsLabel(name), c, c == name);
      if c == name {
        assert multiset(names[1..])[c] == 0;
      } else {
        assert multiset(names[1..])[c] == multiset(names)[c];
      }
    }
  }

  lemma {:induction false} SelectUnique(columns: seq<string>, names: seq<string>)
    requires forall c :: multiset(columns)[c] <= 1
    ensures Pick(columns, SelectPositions(columns, names)) == Present(names, columns)
  {
    if names != [] {
      var name := names[0];
      var here := Positions(columns, IsLabel(name));
      var rest := SelectPositions(columns, names[1..]);
      SelectUnique(columns, names[1..]);
      PickAppend(columns, here, rest);
      SingleLabel(columns, name);
    }
  }

  /** Without repeated labels, the columns labelled `name` are one or none. */
  lemma SingleLabel(columns: seq<string>, name: string)
    requires forall c :: multiset(columns)[c] <= 1
    ensures Pick(columns, Positions(columns, IsLabel(name))) == if name in columns then [name] else []
  {
    var p := Pick(columns, Positions(columns, IsLabel(name)));
    PositionsCount(columns, IsLabel(name), name, true);
    assert forall k :: 0 <= k < |p| ==> p[k] == name;
    if |p| >= 1 {
      assert p == [p[0]] + p[1..];
    }
    assert name in columns <==> multiset(columns)[name] >= 1;
  }

  /** A name that labels no column selects nothing, so `df[names]` and
      `df[Present(names)]` take the same positions. */
  lemma {:induction false} SelectPresent(columns: seq<string>, names: seq<string>)
    ensures SelectPositions(columns, Present(names, columns)) == SelectPositions(columns, names)
  {
    if names != [] {
      SelectPresent(columns, names[1..]);
      if names[0] !in columns {
        var here := Positions(columns, IsLabel(names[0]));
        PositionsNone(columns, IsLabel(names[0]), 0);
        assert SelectPositions(columns, names) == here + SelectPositions(columns, names[1..]);
      }
    }
  }

  lemma PickAppend<T>(s: seq<T>, a: seq<nat>, b: seq<nat>)
    requires forall k :: 0 <= k < |a| ==> a[k] < |s|
    requires forall k :: 0 <= k < |b| ==> b[k] < |s|
    ensures Pick(s, a + b) == Pick(s, a) + Pick(s, b)
  {
  }

  // ---------------------------------------------------------------------------
  // reset_index and sort_values
  // ---------------------------------------------------------------------------

  /** The label `reset_index` gives the index column: the index name, or
      `index` (`level_0` when `index` is taken) for an unnamed index. */
  function IndexColumnName(f: Frame): string {
    match f.index.name
    case Some(n) => n
    case None => if "index" in f.columns then "level_0" else "index"
  }

  /** `df.reset_index()`: the index becomes the first column; a label that
      already exists is an error. */
  function ResetIndex(f: Frame): (r: Result<Frame, FrameError>)
    requires WellFormed(f)
    ensures r.Err? <==> IndexColumnName(f) in f.columns
    ensures r.Err? ==> r.error == AlreadyExists(IndexColumnName(f))
    ensures r.Ok? ==> WellFormed(r.value) && r.value.columns == [IndexColumnName(f)] + f.columns
    ensures r.Ok? ==> |r.value.rows| == |f.rows|
    ensures r.Ok? ==> forall i :: 0 <= i < |f.rows| ==> r.value.rows[i] == [f.index.labels[i]] + f.rows[i]
  {
    var name := IndexColumnName(f);
    if name in f.columns then Err(AlreadyExists(name))
    else
      Ok(Frame(RangeIndex(|f.rows|), [name] + f.columns,
        seq(|f.rows|, i requires 0 <= i < |f.rows| => [f.index.labels[i]] + f.rows[i])))
  }

  /** Ascending order of a column's cells: timestamps, then numbers, then
      strings, missing values last (pandas' `na_position='last'`). */
  function Rank(c: Cell): int {
    match c
    case Stamp(_) => 0
    case Num(_) => 1
    case Text(_) => 2
    case Null => 3
  }

  predicate CellLe(a: Cell, b: Cell) {
    if Rank(a) != Rank(b) then Rank(a) < Rank(b)
    else match (a, b)
      case (Stamp(x), Stamp(y)) => x <= y
      case (Num(x), Num(y)) => x <= y
      case (Text(x), Text(y)) => StrLe(x, y)
      case _ => true
  }

  /** Rows compared on the cell at column position `p`. */
  predicate RowLe(p: nat, a: seq<Cell>, b: seq<Cell>) {
    p < |a| && p < |b| ==> CellLe(a[p], b[p])
  }

  lemma RowLeTotal(p: nat)
    ensures Total((a: seq<Cell>, b: seq<Cell>) => RowLe(p, a, b))
  {
    forall a: seq<Cell>, b: seq<Cell> ensures RowLe(p, a, b) || RowLe(p, b, a) {
      if p < |a| && p < |b| && a[p].Text? && b[p].Text? {
        StrLeTotal(a[p].s, b[p].s);
      }
    }
  }

  /** The position of the only column labelled `name`: a missing label is
      a `KeyError`, a repeated one is ambiguous. */
  function UniquePosition(columns: seq<string>, name: string): (r: Result<nat, FrameError>)
    ensures r.Err? <==> multiset(columns)[name] != 1
    ensures r.Err? ==> r.error == if name in columns then NotUnique(name) else KeyError(name)
    ensures r.Ok? ==> r.value < |columns| && columns[r.value] == name
  {
    if name !in columns then Err(KeyError(name))
    else if multiset(columns)[name] != 1 then Err(NotUnique(name))
    else Ok(IndexOf(columns, name).value)
  }

  /** Every adjacent pair of rows is in order on the column at `p`. */
  predicate SortedAt(rows: seq<seq<Cell>>, p: nat) {
    forall i :: 0 < i < |rows| ==> RowLe(p, rows[i - 1], rows[i])
  }

  /** Sorted on the (only) column labelled `name`. */
  predicate SortedOn(f: Frame, name: string) {
    forall p :: 0 <= p < |f.columns| && f.columns[p] == name ==> SortedAt(f.rows, p)
  }

  /** `df.sort_values(name).reset_index(drop=True)`. */
  function SortRowsBy(f: Frame, name: string): (r: Result<Frame, FrameError>)
    requires WellFormed(f)
    ensures r.Err? <==> multiset(f.columns)[name] != 1
    ensures r.Err? ==> r.error == if name in f.columns then NotUnique(name) else KeyError(name)
    ensures r.Ok? ==> r.value.columns == f.columns && r.value.index == RangeIndex(|f.rows|)
    ensures r.Ok? ==> multiset(r.value.rows) == multiset(f.rows)
    ensures r.Ok? ==> WellFormed(r.value) && SortedOn(r.value, name)
  {
    match UniquePosition(f.columns, name)
    case Err(e) => Err(e)
    case Ok(p) =>
      RowLeTotal(p);
      var rows := SortBy(f.rows, (a: seq<Cell>, b: seq<Cell>) => RowLe(p, a, b));
      var r := Frame(RangeIndex(|f.rows|), f.columns, rows);
      SortedFrame(f, name, p, r);
      Ok(r)
  }

  lemma SortedFrame(f: Frame, name: string, p: nat, r: Frame)
    requires WellFormed(f)
    requires p < |f.columns| && f.columns[p] == name && multiset(f.columns)[name] == 1
    requires r.columns == f.columns && r.index == RangeIndex(|f.rows|)
    requires multiset(r.rows) == multiset(f.rows)
    requires SortedBy(r.rows, (a: seq<Cell>, b: seq<Cell>) => RowLe(p, a, b))
    ensures WellFormed(r) && SortedOn(r, name)
  {
    assert |r.rows| == |f.rows| by {
      assert |multiset(r.rows)| == |multiset(f.rows)|;
    }
    forall i | 0 <= i < |r.rows| ensures |r.rows[i]| == |r.columns| {
      assert r.rows[i] in multiset(f.rows);
    }
    forall q | 0 <= q < |r.columns| && r.columns[q] == name ensures q == p {
      if q != p {
        TwoPositions(f.columns, p, q);
      }
    }
  }

  /** A value at two positions occurs at least twice. */
  lemma TwoPositions<T>(s: seq<T>, i: nat, j: nat)
    requires i < |s| && j < |s| && i != j && s[i] == s[j]
    ensures multiset(s)[s[i]] >= 2
  {
    var (a, b) := if i < j then (i, j) else (j, i);
    assert s == s[..b] + s[b..];
    assert s[a] in s[..b];
    assert s[b..][0] == s[b];
  }

  // ---------------------------------------------------------------------------
  // dropna
  // ---------------------------------------------------------------------------

  predicate Complete(row: seq<Cell>) {
    forall k :: 0 <= k < |row| ==> row[k] != Null
  }

  function IsComplete(): (nat, seq<Cell>) -> bool {
    (i: nat, row: seq<Cell>) => Complete(row)
  }

  /** `df.dropna()`: the rows with no missing cell, in their original order
      (the positions kept are `Positions(f.rows, IsComplete())`), with their
      index labels. */
  function DropNa(f: Frame): (r: Frame)
    requires WellFormed(f)
    ensures WellFormed(r) && r.columns == f.columns
    ensures |r.rows| <= |f.rows|
    ensures forall i :: 0 <= i < |r.rows| ==> Complete(r.rows[i])
    ensures forall row :: row in r.rows <==> row in f.rows && Complete(row)
    ensures r.rows == Pick(f.rows, Positions(f.rows, IsComplete()))
  {
    var idx := Positions(f.rows, IsComplete());
    PickPositions(f.rows, IsComplete());
    var rows := Pick(f.rows, idx);
    IncreasingShorter(idx, |f.rows|);
    Frame(Index(f.index.name, f.index.isDatetime, Pick(f.index.labels, idx)), f.columns, rows)
  }

  lemma {:induction false} IncreasingShorter(idx: seq<nat>, n: nat)
    requires Increasing(idx, n)
    ensures |idx| <= n
    decreases n
  {
    if idx != [] {
      var last := idx[|idx| - 1];
      var init := idx[..|idx| - 1];
      assert Increasing(init, last);
      IncreasingShorter(init, last);
    }
  }
}

=== FILE: interval.dfy ===
/** Interval strings and the staleness test of the incremental cache
    (`DataCache._parse_interval_to_minutes` and `DataCache.needs_update`).
    Timestamps are whole seconds; the wall clock is the parameter `now`. */
module Interval {
  import opened Common

  /** `int(s)` raised `ValueError`. */
  datatype IntError = InvalidLiteral(text: string)

  /** What `needs_update` raises: the `ValueError` of a malformed interval
      number, or the `OverflowError` of a `timedelta` beyond 999999999 days
      (`days` is the whole-day part that was out of range). */
  datatype UpdateError = BadInterval(error: IntError) | TimedeltaOverflow(days: int)

  // ---------------------------------------------------------------------------
  // Python's int() on a decimal literal
  // ---------------------------------------------------------------------------

  /** Digits with single underscores between them, as Python's decimal
      integer literal grammar allows. */
  predicate WellFormedDigits(d: string) {
    && d != []
    && IsDigit(d[0])
    && IsDigit(d[|d| - 1])
    && (forall i :: 0 <= i < |d| ==> IsDigit(d[i]) || d[i] == '_')
    && (forall i :: 0 < i < |d| && d[i] == '_' ==> d[i - 1] != '_')
  }

  /** The value of the digits of `d`, underscores skipped. */
  function DigitsValue(d: string): (n: nat)
    requires forall i :: 0 <= i < |d| ==> IsDigit(d[i]) || d[i] == '_'
  {
    if d == [] then 0
    else
      var last := d[|d| - 1];
      if last == '_' then DigitsValue(d[..|d| - 1])
      else DigitsValue(d[..|d| - 1]) * 10 + DigitValue(last)
  }

  /** `int(s)`: surrounding whitespace, an optional sign, then a decimal
      literal. */
  function ParsePyInt(s: string): (r: Result<int, IntError>)
    ensures r.Err? <==> var t := Strip(s);
      var body := if t != [] && (t[0] == '+' || t[0] == '-') then t[1..] else t;
      !WellFormedDigits(body)
    ensures r.Err? ==> r.error == InvalidLiteral(s)
    ensures var t := Strip(s);
      var body := if t != [] && (t[0] == '+' || t[0] == '-') then t[1..] else t;
      r.Ok? ==> (WellFormedDigits(body) &&
        r.value == if t[0] == '-' then 0 - DigitsValue(body) else DigitsValue(body))
  {
    var t := Strip(s);
    var negative := t != [] && t[0] == '-';
    var body := if t != [] && (t[0] == '+' || t[0] == '-') then t[1..] else t;
    if WellFormedDigits(body) then
      var n: int := DigitsValue(body);
      Ok(if negative then -n else n)
    else Err(InvalidLiteral(s))
  }

  /** The decimal representation of `n`, as `str(n)`. */
  function Decimal(n: nat): (d: string)
    ensures d != []
    ensures forall i :: 0 <= i < |d| ==> IsDigit(d[i])
  {
    if n < 10 then [('0' as int + n) as char]
    else Decimal(n / 10) + [('0' as int + n % 10) as char]
  }

  lemma {:induction false} DecimalValue(n: nat)
    ensures DigitsValue(Decimal(n)) == n
  {
    var d := Decimal(n);
    if n >= 10 {
      DecimalValue(n / 10);
      assert d[..|d| - 1] == Decimal(n / 10);
    } else {
      assert d[..|d| - 1] == [];
    }
  }

  /** `int(str(n)) == n` for every natural number. */
  lemma ParseDecimal(n: nat)
    ensures ParsePyInt(Decimal(n)) == Ok(n)
  {
    var d := Decimal(n);
    StripUnchanged(d);
    DecimalValue(n);
  }

  /** A sign in front of a decimal is read as such: `int("+" + str(n)) == n`
      and `int("-" + str(n)) == -n`. */
  lemma ParseSignedDecimal(n: nat, sign: char)
    requires sign == '+' || sign == '-'
    ensures ParsePyInt([sign] + Decimal(n)) == Ok(if sign == '-' then 0 - n else n)
  {
    var d := Decimal(n);
    var s := [sign] + d;
    assert IsDigit(d[|d| - 1]);
    StripUnchanged(s);
    var t := Strip(s);
    assert t[0] == sign;
    assert t[1..] == d;
    DecimalWellFormed(n);
    DecimalValue(n);
    assert DigitsValue(t[1..]) == n;
  }

  lemma DecimalWellFormed(n: nat)
    ensures WellFormedDigits(Decimal(n))
  {
    var d := Decimal(n);
    assert IsDigit(d[0]) && IsDigit(d[|d| - 1]);
  }

  // ---------------------------------------------------------------------------
  // _parse_interval_to_minutes
  // ---------------------------------------------------------------------------

  const MinutesPerHour: int := 60
  const MinutesPerDay: int := 1440
  const MinutesPerWeek: int := 10080

  /** Minutes per unit for a recognised (lower-case) suffix. */
  function UnitMinutes(suffix: char): Option<int> {
    if suffix == 'm' then Some(1)
    else if suffix == 'h' then Some(MinutesPerHour)
    else if suffix == 'd' then Some(MinutesPerDay)
    else if suffix == 'w' then Some(MinutesPerWeek)
    else None
  }

  /** Lower-cases and trims the interval, then reads the number in front of a
      `m`, `h`, `d` or `w` suffix; any other ending means one day. */
  function IntervalMinutes(interval: string): (r: Result<int, IntError>)
    ensures var t := Strip(Lower(interval));
      (t == [] || UnitMinutes(t[|t| - 1]).None?) ==> r == Ok(MinutesPerDay)
    ensures var t := Strip(Lower(interval));
      r.Err? ==> t != [] && UnitMinutes(t[|t| - 1]).Some? && ParsePyInt(t[..|t| - 1]).Err?
    ensures var t := Strip(Lower(interval));
      t != [] && UnitMinutes(t[|t| - 1]).Some? ==>
        && (r.Ok? <==> ParsePyInt(t[..|t| - 1]).Ok?)
        && (r.Ok? ==> r.value == ParsePyInt(t[..|t| - 1]).value * UnitMinutes(t[|t| - 1]).value)
        && (r.Err? ==> r.error == ParsePyInt(t[..|t| - 1]).error)
  {
    MinutesOf(Strip(Lower(interval)))
  }

  /** `IntervalMinutes` once the interval is trimmed and lower-cased. */
  function MinutesOf(t: string): (r: Result<int, IntError>)
    ensures t == [] || UnitMinutes(t[|t| - 1]).None? ==> r == Ok(MinutesPerDay)
    ensures t != [] && UnitMinutes(t[|t| - 1]).Some? ==>
      r == Scaled(ParsePyInt(t[..|t| - 1]), UnitMinutes(t[|t| - 1]).value)
  {
    if t == [] then Ok(MinutesPerDay)
    else match UnitMinutes(t[|t| - 1])
      case None => Ok(MinutesPerDay)
      case Some(unit) => Scaled(ParsePyInt(t[..|t| - 1]), unit)
  }

  /** A parsed count of units, in minutes; a parse error passes through. */
  function Scaled(count: Result<int, IntError>, unit: int): (r: Result<int, IntError>)
    ensures r.Ok? <==> count.Ok?
    ensures r.Ok? ==> r.value == count.value * unit
    ensures r.Err? ==> r.error == count.error
  {
    match count
    case Ok(n) => Ok(n * unit)
    case Err(e) => Err(e)
  }

  /** A trimmed, lower-cased interval of the form `str(n) + u` means `n`
      units of `u`. */
  lemma {:induction false} IntervalOfDecimal(interval: string, n: nat, suffix: char)
    requires UnitMinutes(suffix).Some?
    requires Strip(Lower(interval)) == Decimal(n) + [suffix]
    ensures IntervalMinutes(interval) == Ok(n * UnitMinutes(suffix).value)
  {
    var t := Decimal(n) + [suffix];
    assert t[..|t| - 1] == Decimal(n);
    ParseDecimal(n);
  }

  /** `str(n) + u` parses back to `n` units of `u`. */
  lemma IntervalRoundTrip(n: nat, suffix: char)
    requires UnitMinutes(suffix).Some?
    ensures IntervalMinutes(Decimal(n) + [suffix]) == Ok(n * UnitMinutes(suffix).value)
  {
    var s := Decimal(n) + [suffix];
    assert Lower(s) == s by {
      forall i | 0 <= i < |s| ensures LowerChar(s[i]) == s[i] {
        if i < |s| - 1 { assert IsDigit(s[i]); }
      }
    }
    assert IsDigit(s[0]);
    StripUnchanged(s);
    IntervalOfDecimal(s, n, suffix);
  }

  lemma LowerIdempotent(s: string)
    ensures Lower(Lower(s)) == Lower(s)
  {
  }

  /** The interval is case-insensitive: only its lower-cased form matters. */
  lemma IntervalCaseInsensitive(s: string)
    ensures IntervalMinutes(s) == IntervalMinutes(Lower(s))
  {
    LowerIdempotent(s);
  }

  /** Because the interval is lower-cased first, an upper-case `M` (month in
      Yahoo's vocabulary) is read as minutes: `"1M"` is one minute. */
  lemma UpperMIsMinutes(n: nat)
    ensures IntervalMinutes(Decimal(n) + ['M']) == Ok(n)
  {
    var s := Decimal(n) + ['M'];
    var l := Lower(s);
    assert l == Decimal(n) + ['m'] by {
      forall i | 0 <= i < |s| - 1 ensures l[i] == s[i] {
        assert IsDigit(s[i]);
      }
    }
    assert IsDigit(l[0]);
    StripUnchanged(l);
    LowerIdempotent(s);
    IntervalOfDecimal(s, n, 'm');
  }

  /** An ending other than `m`, `h`, `d` or `w` (Yahoo's `mo`, say) means one
      day, whatever number precedes it. */
  lemma UnknownSuffixIsDaily(n: nat, suffix: char)
    requires 'a' <= suffix <= 'z' && UnitMinutes(suffix).None?
    ensures IntervalMinutes(Decimal(n) + ['m', suffix]) == Ok(MinutesPerDay)
  {
    var s := Decimal(n) + ['m', suffix];
    var l := Lower(s);
    assert l == s by {
      forall i | 0 <= i < |s| ensures l[i] == s[i] {
        if i < |s| - 2 { assert IsDigit(s[i]); }
      }
    }
    assert IsDigit(l[0]);
    StripUnchanged(l);
  }

  // ---------------------------------------------------------------------------
  // needs_update
  // ---------------------------------------------------------------------------

  const SecondsPerMinute: int := 60
  const SecondsPerHour: int := 3600
  const SecondsPerDay: int := 86400
  const DefaultMaxAgeHours: int := 24

  /** The largest number of days a `timedelta` holds. */
  const MaxTimedeltaDays: int := 999999999

  /** `timedelta(seconds=s)` exists: its whole-day part, rounded down, lies
      within `MaxTimedeltaDays` either way. */
  predicate TimedeltaFits(seconds: int) {
    -MaxTimedeltaDays <= seconds / SecondsPerDay <= MaxTimedeltaDays
  }

  /** `timedelta(minutes=minutes * 2)`, in seconds. */
  function DelaySeconds(minutes: int): int {
    minutes * 2 * SecondsPerMinute
  }

  /** `timedelta(hours=hours)`, in seconds. */
  function MaxAgeSeconds(hours: int): int {
    hours * SecondsPerHour
  }

  /** Whether the newest cached bar is too old: no bar at all, or an age
      (`now - latest`) above twice the interval or above `maxAgeHours`. The
      interval is parsed only when there is a timestamp; building either
      `timedelta` can overflow, the interval's first. */
  function NeedsUpdate(latest: Option<int>, interval: string, now: int, maxAgeHours: int)
    : (r: Result<bool, UpdateError>)
    ensures latest.None? ==> r == Ok(true)
    ensures latest.Some? && IntervalMinutes(interval).Err? ==>
      r == Err(BadInterval(IntervalMinutes(interval).error))
    ensures (latest.Some? && IntervalMinutes(interval).Ok? &&
      !TimedeltaFits(DelaySeconds(IntervalMinutes(interval).value))) ==>
      r == Err(TimedeltaOverflow(DelaySeconds(IntervalMinutes(interval).value) / SecondsPerDay))
    ensures (latest.Some? && IntervalMinutes(interval).Ok? &&
      TimedeltaFits(DelaySeconds(IntervalMinutes(interval).value)) && !TimedeltaFits(MaxAgeSeconds(maxAgeHours))) ==>
      r == Err(TimedeltaOverflow(MaxAgeSeconds(maxAgeHours) / SecondsPerDay))
    ensures r.Ok? <==> (latest.None? ||
      (&& IntervalMinutes(interval).Ok?
       && TimedeltaFits(DelaySeconds(IntervalMinutes(interval).value))
       && TimedeltaFits(MaxAgeSeconds(maxAgeHours))))
    ensures latest.Some? && r.Ok? ==>
      r.value == (now - latest.value > DelaySeconds(IntervalMinutes(interval).value)
                  || now - latest.value > MaxAgeSeconds(maxAgeHours))
  {
    match latest
    case None => Ok(true)
    case Some(t) =>
      match IntervalMinutes(interval)
      case Err(e) => Err(BadInterval(e))
      case Ok(minutes) =>
        var delay := DelaySeconds(minutes);
        var maxAge := MaxAgeSeconds(maxAgeHours);
        if !TimedeltaFits(delay) then Err(TimedeltaOverflow(delay / SecondsPerDay))
        else if !TimedeltaFits(maxAge) then Err(TimedeltaOverflow(maxAge / SecondsPerDay))
        else
          var age := now - t;
          Ok(age > delay || age > maxAge)
  }

  lemma DayPart(days: int)
    ensures (SecondsPerDay * days) / SecondsPerDay == days
  {
  }

  /** Twice a week is fourteen days. */
  lemma WeeksDelay(weeks: int)
    ensures DelaySeconds(weeks * MinutesPerWeek) / SecondsPerDay == 14 * weeks
  {
    assert DelaySeconds(weeks * MinutesPerWeek) == SecondsPerDay * (14 * weeks);
    DayPart(14 * weeks);
  }

  /** An interval of a thousand million days or more cannot be doubled into
      a `timedelta`. */
  lemma HugeIntervalOverflows(latest: int, now: int, weeks: nat)
    requires weeks >= 100000000
    ensures NeedsUpdate(Some(latest), Decimal(weeks) + ['w'], now, DefaultMaxAgeHours)
         == Err(TimedeltaOverflow(14 * weeks))
  {
    var interval := Decimal(weeks) + ['w'];
    var m := weeks * MinutesPerWeek;
    assert UnitMinutes('w') == Some(MinutesPerWeek);
    IntervalRoundTrip(weeks, 'w');
    assert IntervalMinutes(interval) == Ok(m);
    WeeksDelay(weeks);
    assert DelaySeconds(m) / SecondsPerDay == 14 * weeks;
    assert !TimedeltaFits(DelaySeconds(m));
    OverflowingDelay(latest, interval, now, m);
  }

  lemma OverflowingDelay(latest: int, interval: string, now: int, minutes: int)
    requires IntervalMinutes(interval) == Ok(minutes)
    requires !TimedeltaFits(DelaySeconds(minutes))
    ensures NeedsUpdate(Some(latest), interval, now, DefaultMaxAgeHours)
         == Err(TimedeltaOverflow(DelaySeconds(minutes) / SecondsPerDay))
  {
  }

  /** A maximum age of a thousand million days or more raises OverflowError
      carrying its day count once the interval's own `timedelta` fits. */
  lemma HugeMaxAgeOverflows(latest: int, interval: string, now: int, days: int)
    requires IntervalMinutes(interval).Ok? && TimedeltaFits(DelaySeconds(IntervalMinutes(interval).value))
    requires days > MaxTimedeltaDays
    ensures NeedsUpdate(Some(latest), interval, now, 24 * days) == Err(TimedeltaOverflow(days))
  {
    assert MaxAgeSeconds(24 * days) == SecondsPerDay * days;
    DayPart(days);
  }

  /** Freshness never regresses as the newest bar gets newer. */
  lemma FreshnessMonotone(t: int, t': int, interval: string, now: int, maxAgeHours: int)
    requires t <= t'
    requires NeedsUpdate(Some(t), interval, now, maxAgeHours) == Ok(false)
    ensures NeedsUpdate(Some(t'), interval, now, maxAgeHours) == Ok(false)
  {
  }

  /** For a daily or coarser interval the 24-hour ceiling is always the
      tighter bound, so staleness is exactly "older than a day". */
  lemma StalenessPastADay(latest: int, interval: string, now: int, minutes: int)
    requires IntervalMinutes(interval) == Ok(minutes) && minutes >= MinutesPerDay
    ensures NeedsUpdate(Some(latest), interval, now, DefaultMaxAgeHours).Ok? ==>
      NeedsUpdate(Some(latest), interval, now, DefaultMaxAgeHours) == Ok(now - latest > 24 * SecondsPerHour)
  {
    assert DelaySeconds(minutes) >= MaxAgeSeconds(DefaultMaxAgeHours);
  }
}

=== FILE: llm_reply.dfy ===
/** The validation loop that `LLMAgentBase._process_llm_response` runs over
    a parsed LLM reply: the reply must be a list of objects that each carry
    `symbol`, `recommendation` and `rationale`; an unknown recommendation is
    replaced by `hold`. Any `ValueError` turns the whole reply into the error
    fallback; an `AttributeError` (a recommendation that is not a string)
    is not caught and escapes. */
module LlmReply {
  import opened Common
  import Store

  /** A value as `json.loads` returns it. Objects are dicts, so their keys
      are unique. */
  datatype Json =
    | JNull
    | JBool(b: bool)
    | JInt(i: int)
    | JFloat(x: real)
    | JStr(s: string)
    | JArray(items: seq<Json>)
    | JObject(fields: map<string, Json>)

  /** `type(value).__name__`, which the error messages quote. */
  function TypeName(j: Json): string {
    match j
    case JNull => "NoneType"
    case JBool(_) => "bool"
    case JInt(_) => "int"
    case JFloat(_) => "float"
    case JStr(_) => "str"
    case JArray(_) => "list"
    case JObject(_) => "dict"
  }

  const RequiredFields: set<string> := {"symbol", "recommendation", "rationale"}

  /** The `ValueError`s the loop raises, and the `JSONDecodeError` of a reply
      that does not parse; each becomes the error fallback. */
  datatype ReplyError =
    | Unparsable
    | NotAList(typeName: string)
    | NotADict(index: nat, typeName: string)
    | MissingFields(index: nat, missing: set<string>)

  /** What `_process_llm_response` does with a reply: return the validated
      list, return the error fallback, or let an `AttributeError` raised at
      item `index` escape. */
  datatype Outcome =
    | Accepted(items: seq<Json>)
    | Fallback(error: ReplyError)
    | Crashed(index: nat)

  datatype ItemOutcome = Valid(item: Json) | Invalid(error: ReplyError) | Raises

  /** A recommendation the rest of the system understands, in any case. */
  predicate Recognised(rec: string) {
    Store.ValidRecommendation(Lower(rec))
  }

  /** An item the loop lets through unchanged. */
  predicate Clean(item: Json) {
    && item.JObject?
    && RequiredFields <= item.fields.Keys
    && item.fields["recommendation"].JStr?
    && Recognised(item.fields["recommendation"].s)
  }

  /** One turn of the loop, for the item at position `index`. */
  function CheckItem(index: nat, item: Json): (r: ItemOutcome)
    ensures !item.JObject? <==> r == Invalid(NotADict(index, TypeName(item)))
    ensures item.JObject? ==> (!(RequiredFields <= item.fields.Keys) <==>
      r == Invalid(MissingFields(index, RequiredFields - item.fields.Keys)))
    ensures r.Invalid? && r.error.MissingFields? ==> r.error.missing != {}
    ensures r.Raises? <==>
      item.JObject? && RequiredFields <= item.fields.Keys && !item.fields["recommendation"].JStr?
    ensures r.Valid? ==> Clean(r.item)
    ensures r.Valid? ==> r.item.fields.Keys == item.fields.Keys
    ensures r.Valid? ==> forall k :: k in item.fields && k != "recommendation" ==>
      r.item.fields[k] == item.fields[k]
    ensures r.Valid? && Recognised(item.fields["recommendation"].s) ==> r.item == item
    ensures r.Valid? && !Recognised(item.fields["recommendation"].s) ==>
      r.item.fields["recommendation"] == JStr("hold")
    ensures Clean(item) ==> r == Valid(item)
  {
    if !item.JObject? then Invalid(NotADict(index, TypeName(item)))
    else if !(RequiredFields <= item.fields.Keys) then
      assert RequiredFields - item.fields.Keys != {} by {
        var k :| k in RequiredFields && k !in item.fields.Keys;
        assert k in RequiredFields - item.fields.Keys;
      }
      Invalid(MissingFields(index, RequiredFields - item.fields.Keys))
    else match item.fields["recommendation"]
      case JStr(rec) =>
        if Recognised(rec) then Valid(item)
        else
          assert Lower("hold") == "hold";
          Valid(JObject(item.fields["recommendation" := JStr("hold")]))
      case _ => Raises
  }

  /** The turn of the loop each item gets, in order. */
  function Outcomes(items: seq<Json>): (r: seq<ItemOutcome>)
    ensures |r| == |items|
    ensures forall i :: 0 <= i < |items| ==> r[i] == CheckItem(i, items[i])
  {
    seq(|items|, i requires 0 <= i < |items| => CheckItem(i, items[i]))
  }

  /** Turn `k` is where a loop started at `from` stops: the first turn from
      there on that does not pass. */
  predicate StopsAt(outs: seq<ItemOutcome>, from: nat, k: nat) {
    && from <= k < |outs|
    && !outs[k].Valid?
    && forall i :: from <= i < k ==> outs[i].Valid?
  }

  /** Item `k` is where the loop over the whole reply stops. */
  predicate FirstFailure(items: seq<Json>, k: nat) {
    StopsAt(Outcomes(items), 0, k)
  }

  /** The loop over the turns `outs[from..]`, in order, stopping at the
      first one that fails. */
  function RunFrom(outs: seq<ItemOutcome>, from: nat): (r: Outcome)
    requires from <= |outs|
    requires forall i :: 0 <= i < |outs| && outs[i].Invalid? ==>
      outs[i].error.NotADict? || outs[i].error.MissingFields?
    ensures !r.Fallback? || r.error.NotADict? || r.error.MissingFields?
    ensures r.Accepted? <==> forall i :: from <= i < |outs| ==> outs[i].Valid?
    ensures r.Accepted? ==> |r.items| == |outs| - from
    ensures r.Accepted? ==> forall i :: from <= i < |outs| ==> r.items[i - from] == outs[i].item
    ensures r.Fallback? ==> exists k: nat :: StopsAt(outs, from, k) && outs[k] == Invalid(r.error)
    ensures r.Crashed? ==> StopsAt(outs, from, r.index) && outs[r.index].Raises?
    decreases |outs| - from
  {
    if from == |outs| then Accepted([])
    else match outs[from]
      case Invalid(e) =>
        assert StopsAt(outs, from, from);
        Fallback(e)
      case Raises => Crashed(from)
      case Valid(item) =>
        var rest := RunFrom(outs, from + 1);
        if rest.Accepted? then Accepted([item] + rest.items)
        else if rest.Fallback? then
          var k: nat :| StopsAt(outs, from + 1, k) && outs[k] == Invalid(rest.error);
          assert StopsAt(outs, from, k);
          rest
        else rest
  }

  /** The whole of the validation, given the parsed reply (`None` when
      `json.loads` rejected the text). */
  function Validate(reply: Option<Json>): (r: Outcome)
    ensures reply.None? ==> r == Fallback(Unparsable)
    ensures reply.Some? && !reply.value.JArray? ==> r == Fallback(NotAList(TypeName(reply.value)))
    ensures r.Accepted? <==> (reply.Some? && reply.value.JArray? &&
      forall i :: 0 <= i < |reply.value.items| ==> CheckItem(i, reply.value.items[i]).Valid?)
    ensures r.Accepted? ==> |r.items| == |reply.value.items|
    ensures r.Accepted? ==> forall i :: 0 <= i < |r.items| ==>
      r.items[i] == CheckItem(i, reply.value.items[i]).item && Clean(r.items[i])
    ensures r.Fallback? && reply.Some? && reply.value.JArray? ==> exists k: nat :: (FirstFailure(reply.value.items, k)
      && CheckItem(k, reply.value.items[k]).Invalid? && r.error == CheckItem(k, reply.value.items[k]).error)
    ensures r.Crashed? ==> (reply.Some? && reply.value.JArray? && FirstFailure(reply.value.items, r.index)
      && CheckItem(r.index, reply.value.items[r.index]).Raises?)
  {
    match reply
    case None => Fallback(Unparsable)
    case Some(JArray(items)) => RunFrom(Outcomes(items), 0)
    case Some(other) => Fallback(NotAList(TypeName(other)))
  }

  // ---------------------------------------------------------------------------
  // Properties
  // ---------------------------------------------------------------------------

  /** A list of clean items passes the loop untouched. */
  lemma {:induction false} CleanPasses(items: seq<Json>, from: nat)
    requires from <= |items|
    requires forall i :: from <= i < |items| ==> Clean(items[i])
    ensures RunFrom(Outcomes(items), from) == Accepted(items[from..])
    decreases |items| - from
  {
    if from < |items| {
      CleanPasses(items, from + 1);
      assert Outcomes(items)[from] == Valid(items[from]);
      assert items[from..] == [items[from]] + items[from + 1..];
    }
  }

  /** Validation is idempotent: a reply it accepted is accepted again, as
      it is. */
  lemma ValidateIdempotent(reply: Option<Json>)
    requires Validate(reply).Accepted?
    ensures Validate(Some(JArray(Validate(reply).items))) == Validate(reply)
  {
    var out := Validate(reply).items;
    CleanPasses(out, 0);
    assert out[0..] == out;
  }

  /** A recognised recommendation keeps its casing: `"BUY"` stays `"BUY"`. */
  lemma CasingKept()
    ensures var item := JObject(map["symbol" := JStr("AAPL"), "recommendation" := JStr("BUY"), "rationale" := JStr("")]);
      Validate(Some(JArray([item]))) == Accepted([item])
  {
    var item := JObject(map["symbol" := JStr("AAPL"), "recommendation" := JStr("BUY"), "rationale" := JStr("")]);
    assert Lower("BUY") == "buy";
    assert Clean(item);
    CleanPasses([item], 0);
  }

  /** One bad item anywhere discards the whole reply, including the items
      that passed before it. */
  lemma OneBadItemDiscardsAll(items: seq<Json>, k: nat)
    requires k < |items| && CheckItem(k, items[k]).Invalid?
    ensures !Validate(Some(JArray(items))).Accepted?
  {
  }
}

=== FILE: normalize.dfy ===
/** Turning provider frames into canonical OHLCV frames:
    `MarketDataNormalizer.normalize_yahoo_data` and `normalize_binance_data`,
    the source checks of `MarketDataDownloader.download_data`,
    `TechnicalIndicatorCalculator.standardize_ohlcv_columns`, and the final
    `dropna` of `calculate_indicators`. */
module Normalize {
  import opened Common
  import opened Frames

  /** The canonical OHLCV columns, in canonical order. */
  const Canonical: seq<string> := ["time", "open", "high", "low", "close", "volume"]

  lemma CanonicalDistinct()
    ensures forall c :: multiset(Canonical)[c] <= 1
  {
    DistinctCounts(Canonical);
  }

  /** Every `ValueError` these functions raise, and the pandas errors they
      let through. */
  datatype NormError =
    | Pandas(error: FrameError)
    | MissingEssential(columns: seq<string>)   // no `time` or no `close` after renaming
    | MissingRequired(missing: seq<string>)    // Binance frame without a canonical column
    | LimitRequired                            // Binance without `limit`
    | PeriodRequired                           // Yahoo without `period`
    | NoData(symbol: string)                   // empty Yahoo download
    | UnsupportedSource(source: string)
    | AdxUndefined                             // subscripting the `None` that `ta.adx` returns

  function Lift(r: Result<Frame, FrameError>): (l: Result<Frame, NormError>)
    ensures l.Ok? <==> r.Ok?
    ensures r.Ok? ==> l.value == r.value
    ensures r.Err? ==> l.error == Pandas(r.error)
  {
    match r
    case Ok(v) => Ok(v)
    case Err(e) => Err(Pandas(e))
  }

  /** A `DatetimeIndex`, or an index named `Date` or `Datetime`. */
  predicate DateIndex(f: Frame) {
    f.index.isDatetime || f.index.name == Some("Date") || f.index.name == Some("Datetime")
  }

  // ---------------------------------------------------------------------------
  // Yahoo
  // ---------------------------------------------------------------------------

  /** The Yahoo column mapping; other labels are kept. */
  function YahooName(c: string): string {
    if c == "Date" || c == "Datetime" then "time"
    else if c == "Open" then "open"
    else if c == "High" then "high"
    else if c == "Low" then "low"
    else if c == "Close" || c == "Adj Close" then "close"
    else if c == "Volume" then "volume"
    else c
  }

  /** The labels a Yahoo frame can take its `time` and `close` from. */
  predicate YahooHasTime(columns: seq<string>) {
    "Date" in columns || "Datetime" in columns || "time" in columns
  }

  predicate YahooHasClose(columns: seq<string>) {
    "Close" in columns || "Adj Close" in columns || "close" in columns
  }

  lemma YahooNameTargets(c: string)
    ensures YahooName(c) == "time" <==> c == "Date" || c == "Datetime" || c == "time"
    ensures YahooName(c) == "close" <==> c == "Close" || c == "Adj Close" || c == "close"
  {
  }

  /** The date index becomes a column when no date column exists. */
  function YahooTimeColumn(f: Frame): (r: Result<Frame, NormError>)
    requires WellFormed(f)
    ensures r.Ok? ==> WellFormed(r.value)
    ensures "Date" in f.columns || "Datetime" in f.columns || !DateIndex(f) ==> r == Ok(f)
    ensures "Date" !in f.columns && "Datetime" !in f.columns && DateIndex(f) ==>
      (r.Err? <==> IndexColumnName(f) in f.columns) &&
      (r.Ok? ==> r.value.columns == [IndexColumnName(f)] + f.columns)
  {
    if "Date" !in f.columns && "Datetime" !in f.columns && DateIndex(f) then Lift(ResetIndex(f))
    else Ok(f)
  }

  /** Both close columns: `Adj Close` is dropped. */
  predicate BothCloses(t: Frame) {
    "Close" in t.columns && "Adj Close" in t.columns
  }

  function DropAdjClose(t: Frame): (r: Frame)
    requires WellFormed(t)
    ensures WellFormed(r)
  {
    if BothCloses(t) then DropColumn(t, "Adj Close") else t
  }

  /** `normalize_yahoo_data`. */
  function NormalizeYahoo(f: Frame): (r: Result<Frame, NormError>)
    requires WellFormed(f)
    ensures YahooTimeColumn(f).Err? ==> r == YahooTimeColumn(f)
    ensures YahooTimeColumn(f).Ok? ==> r == YahooColumns(YahooTimeColumn(f).value)
  {
    match YahooTimeColumn(f)
    case Err(e) => Err(e)
    case Ok(t) => YahooColumns(t)
  }

  /** `normalize_yahoo_data` once the date is a column: `MissingEssential`
      exactly when no label yields `time` or none yields `close`; otherwise
      the canonical columns some label yields, once each and in canonical
      order, with the rows of the source columns `YahooSource(t)` sorted by
      time. */
  function YahooColumns(t: Frame): (r: Result<Frame, NormError>)
    requires WellFormed(t)
    ensures r.Err? <==> !YahooHasTime(t.columns) || !YahooHasClose(t.columns)
    ensures r.Err? ==> r.error.MissingEssential?
    ensures r.Ok? ==> r.value.columns == Present(Canonical, Relabel(t.columns, YahooName))
    ensures r.Ok? ==> r.value.columns == Relabel(Pick(t.columns, YahooSource(t)), YahooName)
    ensures r.Ok? ==> WellFormed(r.value) && SortedOn(r.value, "time")
    ensures r.Ok? ==> r.value.index == RangeIndex(|t.rows|)
    ensures r.Ok? ==> multiset(r.value.rows) == multiset(Project(t, YahooSource(t)).rows)
  {
    var n := Rename(DropAdjClose(t), YahooName);
    var available := Present(Canonical, n.columns);
    YahooLabels(t);
    if "time" !in available || "close" !in available then Err(MissingEssential(n.columns))
    else
      var s := Select(FirstOfEachLabel(n), available);
      YahooSelected(t);
      PresentSameMembers(Canonical, n.columns, Relabel(t.columns, YahooName));
      assert multiset(s.columns)["time"] == 1;
      Lift(SortRowsBy(s, "time"))
  }

  // ---------------------------------------------------------------------------
  // Where each Yahoo column comes from
  // ---------------------------------------------------------------------------

  /** Accepts every position. */
  function KeepAll(): (nat, string) -> bool {
    (j: nat, c: string) => true
  }

  /** The input positions that survive the `Adj Close` drop. */
  function Kept(t: Frame): (nat, string) -> bool {
    if BothCloses(t) then NotLabel("Adj Close") else KeepAll()
  }

  /** The input column each output column of `YahooColumns(t)` is taken from. */
  function YahooSource(t: Frame): (src: seq<nat>)
    requires WellFormed(t)
    ensures InBounds(t, src)
  {
    var d := Positions(t.columns, Kept(t));
    var n := Relabel(Pick(t.columns, d), YahooName);
    var first := Positions(n, FirstOfLabel(n));
    var select := SelectPositions(Pick(n, first), Present(Canonical, n));
    Pick(d, Pick(first, select))
  }

  lemma {:induction false} KeepAllFrom(s: seq<string>, from: nat)
    requires from <= |s|
    ensures var r := PositionsFrom(s, KeepAll(), from);
      |r| == |s| - from && forall k :: 0 <= k < |r| ==> r[k] == from + k
    decreases |s| - from
  {
    if from < |s| {
      KeepAllFrom(s, from + 1);
      var rest := PositionsFrom(s, KeepAll(), from + 1);
      assert KeepAll()(from, s[from]);
      assert PositionsFrom(s, KeepAll(), from) == [from] + rest;
      forall k | 1 <= k < |rest| + 1 ensures ([from] + rest)[k] == from + k {
        assert ([from] + rest)[k] == rest[k - 1];
      }
    }
  }

  /** Dropping `Adj Close`, or not, is projecting onto the kept positions. */
  lemma DropAdjCloseProjects(t: Frame)
    requires WellFormed(t)
    ensures DropAdjClose(t) == Project(t, Positions(t.columns, Kept(t)))
  {
    if !BothCloses(t) {
      KeepAllFrom(t.columns, 0);
      ProjectIdentity(t, Positions(t.columns, KeepAll()));
    }
  }

  /** Dropping `Adj Close` next to `Close` loses no renamed label. */
  lemma YahooLabels(t: Frame)
    requires WellFormed(t)
    ensures forall c :: c in Rename(DropAdjClose(t), YahooName).columns <==> c in Relabel(t.columns, YahooName)
    ensures YahooHasTime(t.columns) <==> "time" in Relabel(t.columns, YahooName)
    ensures YahooHasClose(t.columns) <==> "close" in Relabel(t.columns, YahooName)
  {
    forall c ensures c in Rename(DropAdjClose(t), YahooName).columns <==> c in Relabel(t.columns, YahooName) {
      DropKeepsLabel(t, c);
    }
    YahooTimeLabel(t.columns);
    YahooCloseLabel(t.columns);
  }

  lemma DropKeepsLabel(t: Frame, c: string)
    requires WellFormed(t)
    ensures c in Rename(DropAdjClose(t), YahooName).columns <==> c in Relabel(t.columns, YahooName)
  {
    if BothCloses(t) {
      RelabelAfterDrop(t.columns, DropAdjClose(t).columns, "Adj Close", "Close", YahooName, c);
    }
  }

  lemma YahooTimeLabel(columns: seq<string>)
    ensures YahooHasTime(columns) <==> "time" in Relabel(columns, YahooName)
  {
    var all := Relabel(columns, YahooName);
    if "time" in all {
      var j :| 0 <= j < |all| && all[j] == "time";
      YahooNameTargets(columns[j]);
    }
    if YahooHasTime(columns) {
      var j :| 0 <= j < |columns| && (columns[j] == "Date" || columns[j] == "Datetime" || columns[j] == "time");
      YahooNameTargets(columns[j]);
      assert all[j] == "time";
    }
  }

  lemma YahooCloseLabel(columns: seq<string>)
    ensures YahooHasClose(columns) <==> "close" in Relabel(columns, YahooName)
  {
    var all := Relabel(columns, YahooName);
    if "close" in all {
      var j :| 0 <= j < |all| && all[j] == "close";
      YahooNameTargets(columns[j]);
    }
    if YahooHasClose(columns) {
      var j :| 0 <= j < |columns| && (columns[j] == "Close" || columns[j] == "Adj Close" || columns[j] == "close");
      YahooNameTargets(columns[j]);
      assert all[j] == "close";
    }
  }

  /** The selected frame is the input projected on `YahooSource` and
      relabelled, and its labels are the available canonical names. */
  lemma YahooSelected(t: Frame)
    requires WellFormed(t)
    ensures var n := Rename(DropAdjClose(t), YahooName);
      var s := Select(FirstOfEachLabel(n), Present(Canonical, n.columns));
      && s == Rename(Project(t, YahooSource(t)), YahooName)
      && s.columns == Present(Canonical, n.columns)
      && forall c :: multiset(s.columns)[c] <= 1
  {
    var D := Positions(t.columns, Kept(t));
    DropAdjCloseProjects(t);
    var n := Rename(DropAdjClose(t), YahooName);
    assert n.columns == Relabel(Pick(t.columns, D), YahooName);
    var F := Positions(n.columns, FirstOfLabel(n.columns));
    var u := FirstOfEachLabel(n);
    var available := Present(Canonical, n.columns);
    var S := SelectPositions(u.columns, available);
    var s := Select(u, available);
    // Column labels.
    CanonicalDistinct();
    PresentDistinct(Canonical, n.columns);
    PresentSameMembers(available, u.columns, n.columns);
    PresentAll(available, n.columns);
    // Positions.
    ProjectProject(n, F, S);
    RenameProject(Project(t, D), Pick(F, S), YahooName);
    ProjectProject(t, D, Pick(F, S));
  }

  /** Each output column comes from the first input column, among those the
      `Adj Close` drop keeps, that renames to its label. */
  lemma YahooSourceFirst(t: Frame, k: nat)
    requires WellFormed(t)
    requires k < |YahooSource(t)|
    ensures var src := YahooSource(t);
      && Kept(t)(src[k], t.columns[src[k]])
      && forall j :: 0 <= j < src[k] && Kept(t)(j, t.columns[j]) ==>
           YahooName(t.columns[j]) != YahooName(t.columns[src[k]])
  {
    var D := Positions(t.columns, Kept(t));
    var n := Relabel(Pick(t.columns, D), YahooName);
    var F := Positions(n, FirstOfLabel(n));
    var S := SelectPositions(Pick(n, F), Present(Canonical, n));
    var p := F[S[k]];
    assert YahooSource(t)[k] == D[p];
    assert n[p] !in n[..p];
    forall j | 0 <= j < D[p] && Kept(t)(j, t.columns[j])
      ensures YahooName(t.columns[j]) != YahooName(t.columns[D[p]])
    {
      FirstAmongKept(t.columns, D, n, YahooName, p, j);
    }
  }

  /** A position before the first of a label, among the kept ones, renames
      to another label. */
  lemma FirstAmongKept(columns: seq<string>, D: seq<nat>, n: seq<string>, rename: string -> string, p: nat, j: nat)
    requires Increasing(D, |columns|)
    requires n == Relabel(Pick(columns, D), rename)
    requires p < |D| && n[p] !in n[..p]
    requires j < D[p] && j in D
    ensures rename(columns[j]) != rename(columns[D[p]])
  {
    var m :| 0 <= m < |D| && D[m] == j;
    assert m < p;
    assert n[..p][m] == n[m];
  }

  /** With both close columns, no output column comes from `Adj Close`. */
  lemma ClosePreferred(t: Frame)
    requires WellFormed(t)
    requires BothCloses(t)
    ensures forall k :: 0 <= k < |YahooSource(t)| ==> t.columns[YahooSource(t)[k]] != "Adj Close"
  {
    forall k | 0 <= k < |YahooSource(t)| ensures t.columns[YahooSource(t)[k]] != "Adj Close" {
      YahooSourceFirst(t, k);
    }
  }

  /** With `Adj Close` as the only close column, it becomes `close`: the
      output's `close` column is taken from an `Adj Close` column. */
  lemma AdjCloseBecomesClose(t: Frame)
    requires WellFormed(t)
    requires "Adj Close" in t.columns && "Close" !in t.columns && "close" !in t.columns
    requires YahooHasTime(t.columns)
    ensures YahooColumns(t).Ok?
    ensures "close" in YahooColumns(t).value.columns
    ensures forall k :: 0 <= k < |YahooSource(t)| && YahooColumns(t).value.columns[k] == "close" ==>
      t.columns[YahooSource(t)[k]] == "Adj Close"
  {
    YahooSelected(t);
    var r := YahooColumns(t).value;
    YahooLabels(t);
    forall k | 0 <= k < |YahooSource(t)| && r.columns[k] == "close"
      ensures t.columns[YahooSource(t)[k]] == "Adj Close"
    {
      YahooNameTargets(t.columns[YahooSource(t)[k]]);
    }
  }

  // ---------------------------------------------------------------------------
  // Binance
  // ---------------------------------------------------------------------------

  /** `normalize_binance_data`: `MissingRequired` listing, in canonical
      order, the canonical columns that are absent; otherwise the same
      columns with the rows sorted by time. */
  function NormalizeBinance(f: Frame): (r: Result<Frame, NormError>)
    requires WellFormed(f)
    ensures r.Err? && r.error.MissingRequired? <==> exists c :: c in Canonical && c !in f.columns
    ensures r.Err? && r.error.MissingRequired? ==>
      forall c :: c in r.error.missing <==> c in Canonical && c !in f.columns
    ensures r.Err? && r.error.MissingRequired? ==> r.error.missing == Absent(Canonical, f.columns)
    ensures r.Err? && !r.error.MissingRequired? ==> r.error == Pandas(NotUnique("time"))
    ensures r.Ok? <==> (forall c :: c in Canonical ==> c in f.columns) && multiset(f.columns)["time"] == 1
    ensures r.Ok? ==> r.value.columns == f.columns && multiset(r.value.rows) == multiset(f.rows)
    ensures r.Ok? ==> r.value.index == RangeIndex(|f.rows|)
    ensures r.Ok? ==> WellFormed(r.value) && SortedOn(r.value, "time")
  {
    var missing := Absent(Canonical, f.columns);
    if missing != [] then
      assert missing[0] in missing;
      Err(MissingRequired(missing))
    else Lift(SortRowsBy(f, "time"))
  }

  // ---------------------------------------------------------------------------
  // download_data
  // ---------------------------------------------------------------------------

  /** `download_data` without the disk write: the frames the Binance client
      and `yf.download` would return are parameters. */
  function DownloadData(symbol: string, source: string, limit: Option<int>, period: Option<string>,
                        binance: Frame, yahoo: Frame): (r: Result<Frame, NormError>)
    requires WellFormed(binance) && WellFormed(yahoo)
    ensures source == "binance" && limit.None? ==> r == Err(LimitRequired)
    ensures source == "binance" && limit.Some? ==> r == NormalizeBinance(binance)
    ensures source == "yahoo" && period.None? ==> r == Err(PeriodRequired)
    ensures source == "yahoo" && period.Some? && Empty(yahoo) ==> r == Err(NoData(symbol))
    ensures source == "yahoo" && period.Some? && !Empty(yahoo) ==> r == NormalizeYahoo(yahoo)
    ensures source != "binance" && source != "yahoo" ==> r == Err(UnsupportedSource(source))
  {
    if source == "binance" then
      if limit.None? then Err(LimitRequired) else NormalizeBinance(binance)
    else if source == "yahoo" then
      if period.None? then Err(PeriodRequired)
      else if Empty(yahoo) then Err(NoData(symbol))
      else NormalizeYahoo(yahoo)
    else Err(UnsupportedSource(source))
  }

  // ---------------------------------------------------------------------------
  // standardize_ohlcv_columns
  // ---------------------------------------------------------------------------

  /** The labels tried, in order, when there is no `time` column. */
  const TimeCandidates: seq<string> := ["Date", "Datetime", "date"]

  /** The first candidate that labels a column. */
  function TimeCandidate(columns: seq<string>): (r: Option<string>)
    ensures r.None? <==> forall c :: c in TimeCandidates ==> c !in columns
    ensures r.Some? ==> r.value in TimeCandidates && r.value in columns
    ensures r.Some? ==> forall k :: 0 <= k < |TimeCandidates| && TimeCandidates[k] == r.value ==>
      forall j :: 0 <= j < k ==> TimeCandidates[j] !in columns
  {
    if "Date" in columns then Some("Date")
    else if "Datetime" in columns then Some("Datetime")
    else if "date" in columns then Some("date")
    else None
  }

  /** Renames every column labelled `from` to `time`. */
  function ToTime(from: string): string -> string {
    (c: string) => if c == from then "time" else c
  }

  /** Without a `time` column, the date index becomes a column
      and the first candidate label present is renamed to `time`. */
  function StandardTimeColumn(f: Frame): (r: Result<Frame, NormError>)
    requires WellFormed(f)
    ensures r.Ok? ==> WellFormed(r.value) && |r.value.rows| == |f.rows|
    ensures "time" in f.columns ==> r == Ok(f)
    ensures "time" !in f.columns && DateIndex(f) ==> (r.Err? <==> IndexColumnName(f) in f.columns)
    ensures "time" !in f.columns && r.Ok? ==>
      var before := if DateIndex(f) then [IndexColumnName(f)] + f.columns else f.columns;
      |r.value.columns| == |before| &&
      forall k :: 0 <= k < |before| ==>
        r.value.columns[k] == if Some(before[k]) == TimeCandidate(before) then "time" else before[k]
  {
    if "time" in f.columns then Ok(f)
    else
      var reset := if DateIndex(f) then Lift(ResetIndex(f)) else Ok(f);
      match reset
      case Err(e) => Err(e)
      case Ok(t) =>
        match TimeCandidate(t.columns)
        case None => Ok(t)
        case Some(c) => Ok(Rename(t, ToTime(c)))
  }

  /** The capitalised OHLCV names in lower case; other labels are kept. */
  function StandardName(c: string): string {
    if c == "Open" then "open"
    else if c == "High" then "high"
    else if c == "Low" then "low"
    else if c == "Close" || c == "Adj Close" then "close"
    else if c == "Volume" then "volume"
    else c
  }

  /** `standardize_ohlcv_columns` once the time column is settled:
      `MissingEssential` exactly when no `time` or no close label exists;
      otherwise `df[available]` of the renamed frame, sorted by time. Unlike
      the Yahoo normaliser this keeps both `Close` and `Adj Close` (two
      `close` columns), and a repeated `time` label makes the sort fail. */
  function StandardColumns(t: Frame): (r: Result<Frame, NormError>)
    requires WellFormed(t)
    ensures r.Err? && r.error.MissingEssential? <==> "time" !in t.columns || !YahooHasClose(t.columns)
    ensures r.Err? && !r.error.MissingEssential? ==> r.error == Pandas(NotUnique("time"))
    ensures r.Ok? <==> multiset(t.columns)["time"] == 1 && YahooHasClose(t.columns)
    ensures r.Ok? ==> WellFormed(r.value) && SortedOn(r.value, "time")
    ensures r.Ok? ==> forall c :: c in r.value.columns <==> c in Canonical && c in Relabel(t.columns, StandardName)
    ensures r.Ok? ==> forall c :: c in Canonical ==>
      multiset(r.value.columns)[c] == multiset(Relabel(t.columns, StandardName))[c]
    ensures r.Ok? && (forall c :: multiset(Relabel(t.columns, StandardName))[c] <= 1) ==>
      r.value.columns == Present(Canonical, Relabel(t.columns, StandardName))
    ensures r.Ok? ==>
      multiset(r.value.rows) == multiset(Project(t, SelectPositions(Relabel(t.columns, StandardName), Canonical)).rows)
  {
    var n := Rename(t, StandardName);
    var available := Present(Canonical, n.columns);
    StandardLabels(t);
    if "time" !in available || "close" !in available then Err(MissingEssential(n.columns))
    else
      var s := Select(n, available);
      StandardSelected(t);
      PresentAll(available, n.columns);
      assert multiset(s.columns)["time"] == multiset(t.columns)["time"];
      Lift(SortRowsBy(s, "time"))
  }

  /** `standardize_ohlcv_columns`. */
  function Standardize(f: Frame): (r: Result<Frame, NormError>)
    requires WellFormed(f)
    ensures StandardTimeColumn(f).Err? ==> r == StandardTimeColumn(f)
    ensures StandardTimeColumn(f).Ok? ==> r == StandardColumns(StandardTimeColumn(f).value)
  {
    match StandardTimeColumn(f)
    case Err(e) => Err(e)
    case Ok(t) => StandardColumns(t)
  }

  lemma StandardLabels(t: Frame)
    requires WellFormed(t)
    ensures var n := Relabel(t.columns, StandardName);
      && ("time" in n <==> "time" in t.columns)
      && multiset(n)["time"] == multiset(t.columns)["time"]
      && ("close" in n <==> YahooHasClose(t.columns))
  {
    var n := Relabel(t.columns, StandardName);
    forall k | 0 <= k < |n|
      ensures (n[k] == "time" <==> t.columns[k] == "time")
      ensures (n[k] == "close" <==> IsCloseLabel(t.columns[k]))
    {
      StandardNameTargets(t.columns[k]);
    }
    SameCount(n, t.columns, "time", "time");
    if YahooHasClose(t.columns) {
      var j :| 0 <= j < |t.columns| && IsCloseLabel(t.columns[j]);
      assert n[j] == "close";
    }
  }

  /** A label the close column can come from. */
  predicate IsCloseLabel(c: string) {
    c == "Close" || c == "Adj Close" || c == "close"
  }

  lemma StandardNameTargets(c: string)
    ensures StandardName(c) == "time" <==> c == "time"
    ensures StandardName(c) == "close" <==> IsCloseLabel(c)
    ensures StandardName(c) == "high" <==> c == "High" || c == "high"
  {
  }

  /** Two equally long sequences with `a[k] == x` exactly where `b[k] == y`
      hold as many of each. */
  lemma {:induction false} SameCount(a: seq<string>, b: seq<string>, x: string, y: string)
    requires |a| == |b|
    requires forall k :: 0 <= k < |a| ==> (a[k] == x <==> b[k] == y)
    ensures multiset(a)[x] == multiset(b)[y]
  {
    if a != [] {
      SameCount(a[1..], b[1..], x, y);
      assert a == [a[0]] + a[1..];
      assert b == [b[0]] + b[1..];
    }
  }

  lemma StandardSelected(t: Frame)
    requires WellFormed(t)
    ensures var n := Rename(t, StandardName);
      var available := Present(Canonical, n.columns);
      && Select(n, available).rows == Project(t, SelectPositions(n.columns, Canonical)).rows
      && (forall c :: c in Canonical ==> multiset(Select(n, available).columns)[c] == multiset(n.columns)[c])
  {
    var n := Rename(t, StandardName);
    var available := Present(Canonical, n.columns);
    CanonicalDistinct();
    PresentDistinct(Canonical, n.columns);
    SelectPresent(n.columns, Canonical);
    RenameProject(t, SelectPositions(n.columns, Canonical), StandardName);
    forall c | c in Canonical
      ensures multiset(Select(n, available).columns)[c] == multiset(n.columns)[c]
    {
      if c !in n.columns {
        assert c !in Select(n, available).columns;
      }
    }
  }

  // ---------------------------------------------------------------------------
  // calculate_indicators
  // ---------------------------------------------------------------------------

  /** Placing two frames of equal length side by side, as assigning the
      indicator columns to the `time`/`close` frame does. */
  function SideBySide(a: Frame, b: Frame): (r: Frame)
    requires WellFormed(a) && WellFormed(b) && |a.rows| == |b.rows|
    ensures WellFormed(r) && r.columns == a.columns + b.columns && |r.rows| == |a.rows|
    ensures forall i :: 0 <= i < |a.rows| ==> r.rows[i] == a.rows[i] + b.rows[i]
  {
    Frame(a.index, a.columns + b.columns, seq(|a.rows|, i requires 0 <= i < |a.rows| => a.rows[i] + b.rows[i]))
  }

  /** `row` is row `i` of `a` followed by row `i` of `b`, for some `i`. */
  predicate JoinedRow(a: Frame, b: Frame, row: seq<Cell>) {
    exists i :: 0 <= i < |a.rows| && 0 <= i < |b.rows| && row == a.rows[i] + b.rows[i]
  }

  /** The MACD's slow window (`slow=26`): `ta.macd` gives `None` on fewer
      closes, and the guard then adds no MACD columns. */
  const MacdSlow: nat := 26

  /** The columns `calculate_indicators` adds for a frame of `n` rows, in
      the order it adds them. */
  function IndicatorLabels(n: nat): (labels: seq<string>)
    ensures "rsi_14" in labels && "atr_14" in labels && "adx" in labels && "obv" in labels
    ensures "macd" in labels <==> n >= MacdSlow
    ensures "macd_signal" in labels <==> n >= MacdSlow
  {
    if n >= MacdSlow then ["rsi_14", "macd", "macd_signal", "atr_14", "adx", "obv"]
    else ["rsi_14", "atr_14", "adx", "obv"]
  }

  /** The indicator values stand for the library's output: one column per
      indicator added, one row per bar. */
  predicate LibraryColumns(indicators: Frame) {
    indicators.columns == IndicatorLabels(|indicators.rows|)
  }

  /** The last steps of `calculate_indicators`: keep `time` and `close` of
      the standardised frame `s`, add the indicator columns (their values
      are a parameter), drop every row with a missing value and renumber the
      rows from 0. The rows kept are the complete joined rows, in their
      order. */
  function IndicatorFrame(s: Frame, indicators: Frame): (r: Frame)
    requires WellFormed(s) && WellFormed(indicators) && |indicators.rows| == |s.rows|
    requires LibraryColumns(indicators)
    ensures WellFormed(r)
    ensures r.columns == Select(s, ["time", "close"]).columns + indicators.columns
    ensures r.index == RangeIndex(|r.rows|)
    ensures |r.rows| <= |s.rows|
    ensures forall i :: 0 <= i < |r.rows| ==> Complete(r.rows[i])
    ensures forall row :: row in r.rows <==> Complete(row) && JoinedRow(Select(s, ["time", "close"]), indicators, row)
    ensures var joined := SideBySide(Select(s, ["time", "close"]), indicators).rows;
      r.rows == Pick(joined, Positions(joined, IsComplete()))
  {
    var base := Select(s, ["time", "close"]);
    var joined := SideBySide(base, indicators);
    assert forall row :: row in joined.rows <==> JoinedRow(base, indicators, row) by {
      forall row | row in joined.rows ensures JoinedRow(base, indicators, row) {
        var i :| 0 <= i < |joined.rows| && joined.rows[i] == row;
      }
    }
    var d := DropNa(joined);
    Frame(RangeIndex(|d.rows|), d.columns, d.rows)
  }

  /** Fewer than 26 bars leave the indicator frame without MACD columns,
      which the classifiers read first. */
  lemma MacdNeedsHistory(s: Frame, indicators: Frame)
    requires WellFormed(s) && WellFormed(indicators) && |indicators.rows| == |s.rows|
    requires LibraryColumns(indicators)
    ensures var columns := IndicatorFrame(s, indicators).columns;
      && ("macd" in columns <==> |s.rows| >= MacdSlow)
      && ("macd_signal" in columns <==> |s.rows| >= MacdSlow)
  {
    var base := Select(s, ["time", "close"]);
    assert "macd" !in base.columns && "macd_signal" !in base.columns;
    var columns := IndicatorFrame(s, indicators).columns;
    assert columns == base.columns + indicators.columns;
    assert forall c :: c in columns <==> c in base.columns || c in indicators.columns;
  }

  /** The columns `calculate_indicators` reads from the standardised frame
      besides `time` and `close`, in reading order: `high` and `low` for the
      ATR and the ADX, then `volume` for the OBV. `open` is never read. */
  const AdxReads: seq<string> := ["high", "low"]
  const IndicatorReads: seq<string> := AdxReads + ["volume"]

  /** The ADX window (`length=14`). */
  const AdxLength: nat := 14

  /** `pandas_ta` returns `None` instead of a frame when an input is shorter
      than the window or is not a single column, as a repeated label makes
      it. `ta.adx` reads `high`, `low` and `close`. */
  predicate AdxNone(s: Frame) {
    || |s.rows| < AdxLength
    || multiset(s.columns)["high"] > 1
    || multiset(s.columns)["low"] > 1
    || multiset(s.columns)["close"] > 1
  }

  /** `calculate_indicators` after standardisation, on the standardised
      frame `s`: a missing `high` or `low` fails with a `KeyError` for the
      first of them; then `ta.adx(...)["ADX_14"]` raises `TypeError` when the
      ADX is `None`; then a missing `volume` fails with a `KeyError`. The RSI,
      MACD and ATR calls do not fail on `None`: it is assigned or, for the
      MACD, guarded. */
  function IndicatorsOf(s: Frame, indicators: Frame): (r: Result<Frame, NormError>)
    requires WellFormed(s) && WellFormed(indicators) && |indicators.rows| == |s.rows|
    requires LibraryColumns(indicators)
    ensures FirstMissing(AdxReads, s.columns).Some? ==>
      r == Err(Pandas(KeyError(FirstMissing(AdxReads, s.columns).value)))
    ensures FirstMissing(AdxReads, s.columns).None? && AdxNone(s) ==> r == Err(AdxUndefined)
    ensures FirstMissing(AdxReads, s.columns).None? && !AdxNone(s) && "volume" !in s.columns ==>
      r == Err(Pandas(KeyError("volume")))
    ensures r.Err? && r.error.Pandas? ==> r.error.error.KeyError? && r.error.error.column in IndicatorReads
    ensures r.Ok? <==> (forall c :: c in IndicatorReads ==> c in s.columns) && !AdxNone(s)
    ensures r.Ok? ==> r.value == IndicatorFrame(s, indicators)
  {
    match FirstMissing(AdxReads, s.columns)
    case Some(c) => Err(Pandas(KeyError(c)))
    case None =>
      if AdxNone(s) then Err(AdxUndefined)
      else if "volume" !in s.columns then Err(Pandas(KeyError("volume")))
      else Ok(IndicatorFrame(s, indicators))
  }

  /** `calculate_indicators`: a standardisation error passes through, and
      the standardised frame then goes through the reads above. */
  function CalculateIndicators(f: Frame, indicators: Frame): (r: Result<Frame, NormError>)
    requires WellFormed(f) && WellFormed(indicators)
    requires LibraryColumns(indicators)
    requires Standardize(f).Ok? ==> |indicators.rows| == |Standardize(f).value.rows|
    ensures Standardize(f).Err? ==> r == Standardize(f)
    ensures Standardize(f).Ok? && FirstMissing(AdxReads, Standardize(f).value.columns).Some? ==>
      r == Err(Pandas(KeyError(FirstMissing(AdxReads, Standardize(f).value.columns).value)))
    ensures (Standardize(f).Ok? && FirstMissing(AdxReads, Standardize(f).value.columns).None?
      && AdxNone(Standardize(f).value)) ==> r == Err(AdxUndefined)
    ensures r.Ok? <==> && Standardize(f).Ok?
                       && (forall c :: c in IndicatorReads ==> c in Standardize(f).value.columns)
                       && !AdxNone(Standardize(f).value)
    ensures r.Ok? ==> r.value == IndicatorFrame(Standardize(f).value, indicators)
  {
    match Standardize(f)
    case Err(e) => Err(e)
    case Ok(s) => IndicatorsOf(s, indicators)
  }

  /** A frame with a single `time` column and a close column but neither
      `High` nor `high` standardises, and computing its indicators then
      fails on the missing `high`. */
  lemma MissingHighFails(f: Frame, indicators: Frame)
    requires WellFormed(f) && WellFormed(indicators)
    requires LibraryColumns(indicators)
    requires multiset(f.columns)["time"] == 1 && YahooHasClose(f.columns)
    requires "High" !in f.columns && "high" !in f.columns
    requires Standardize(f).Ok? ==> |indicators.rows| == |Standardize(f).value.rows|
    ensures Standardize(f).Ok?
    ensures CalculateIndicators(f, indicators) == Err(Pandas(KeyError("high")))
  {
    StandardHighAbsent(f);
    var s := Standardize(f).value;
    assert FirstMissing(AdxReads, s.columns) == Some("high");
  }

  /** Fewer than fourteen bars with `high` and `low` standardise to a frame
      on which `ta.adx` gives `None`, so subscripting it fails, whatever the
      other indicators are. */
  lemma ShortHistoryFails(f: Frame, indicators: Frame)
    requires WellFormed(f) && WellFormed(indicators)
    requires LibraryColumns(indicators)
    requires Standardize(f).Ok? && |indicators.rows| == |Standardize(f).value.rows|
    requires "high" in Standardize(f).value.columns && "low" in Standardize(f).value.columns
    requires |f.rows| < AdxLength
    ensures CalculateIndicators(f, indicators) == Err(AdxUndefined)
  {
    StandardizeKeepsRows(f);
    ShortFrameFails(Standardize(f).value, indicators);
  }

  lemma ShortFrameFails(s: Frame, indicators: Frame)
    requires WellFormed(s) && WellFormed(indicators) && |indicators.rows| == |s.rows|
    requires LibraryColumns(indicators)
    requires "high" in s.columns && "low" in s.columns && |s.rows| < AdxLength
    ensures IndicatorsOf(s, indicators) == Err(AdxUndefined)
  {
    assert FirstMissing(AdxReads, s.columns) == None;
  }

  /** Standardising keeps every row. */
  lemma StandardizeKeepsRows(f: Frame)
    requires WellFormed(f) && Standardize(f).Ok?
    ensures |Standardize(f).value.rows| == |f.rows|
  {
    var t := StandardTimeColumn(f).value;
    var s := StandardColumns(t).value;
    var p := Project(t, SelectPositions(Relabel(t.columns, StandardName), Canonical));
    assert |multiset(s.rows)| == |multiset(p.rows)|;
  }

  lemma StandardHighAbsent(f: Frame)
    requires WellFormed(f)
    requires multiset(f.columns)["time"] == 1 && YahooHasClose(f.columns)
    requires "High" !in f.columns && "high" !in f.columns
    ensures Standardize(f).Ok? && "high" !in Standardize(f).value.columns
  {
    assert "time" in f.columns;
    assert StandardTimeColumn(f) == Ok(f);
    RelabelNoHigh(f.columns);
  }

  lemma RelabelNoHigh(columns: seq<string>)
    requires "High" !in columns && "high" !in columns
    ensures "high" !in Relabel(columns, StandardName)
  {
    var n := Relabel(columns, StandardName);
    forall k | 0 <= k < |n| ensures n[k] != "high" {
      StandardNameTargets(columns[k]);
    }
  }
}

=== FILE: rationale.dfy ===
/** The rule-based local agents. Each reads the last row of every
    `*_signals.parquet` file, explains it in a short rationale of clauses
    joined by `"; "`, and returns one summary row per file sorted by symbol.
    There are three copies that differ in wording and in what an empty
    directory does: `LocalTradingAgent` (src/agent/local_agent.py),
    `run_agent_local` (src/agent/agent_local.py, in Spanish) and `LocalAgent`
    (src/agent/agents/local_agent.py). */
module Rationale {
  import opened Common
  import opened Sorting

  datatype Agent = LocalTradingAgent | RunAgentLocal | LocalAgent

  /** A numeric field of the last row: its column may be absent, the value
      may be NaN, or it is a number. */
  datatype Field = Missing | NaN | Val(x: real)

  /** The value as the comparisons see it: an absent column and NaN both make
      every comparison false. */
  function Value(f: Field): (v: Option<real>)
    ensures v.Some? <==> f.Val?
    ensures v.Some? ==> v.value == f.x
  {
    if f.Val? then Some(f.x) else None
  }

  /** The last row of a signals file, as far as the agents read it. */
  datatype SignalRow = SignalRow(
    time: Option<int>, close: Field, score: Field, recommendation: Option<string>,
    macd: Field, macdSignal: Field, rsi: Field, adx: Field)

  // ---------------------------------------------------------------------------
  // Rationale
  // ---------------------------------------------------------------------------

  /** The clauses a rationale can hold. */
  datatype Clause =
    | BuySignal | SellSignal | HoldSignal
    | Bullish | Bearish
    | Oversold | Overbought
    | StrongTrend

  /** Which part of the rationale a clause belongs to: the recommendation,
      MACD, RSI or ADX clause. */
  function Part(c: Clause): (k: nat)
    ensures k < 4
  {
    match c
    case BuySignal | SellSignal | HoldSignal => 0
    case Bullish | Bearish => 1
    case Oversold | Overbought => 2
    case StrongTrend => 3
  }

  /** The wording of each agent. */
  function Wording(a: Agent, c: Clause): string {
    match (a, c)
    case (RunAgentLocal, BuySignal) => "Se\U{00F1}al de compra"
    case (RunAgentLocal, SellSignal) => "Se\U{00F1}al de venta"
    case (RunAgentLocal, HoldSignal) => "Mantener"
    case (RunAgentLocal, Bullish) => "MACD > se\U{00F1}al (momento alcista)"
    case (RunAgentLocal, Bearish) => "MACD < se\U{00F1}al (momento bajista)"
    case (RunAgentLocal, Oversold) => "RSI < 30 (sobreventa)"
    case (RunAgentLocal, Overbought) => "RSI > 70 (sobrecompra)"
    case (RunAgentLocal, StrongTrend) => "Tendencia con fuerza (ADX\U{2265}25)"
    case (_, BuySignal) => "Buy signal"
    case (_, SellSignal) => "Sell signal"
    case (LocalTradingAgent, HoldSignal) => "Hold position"
    case (_, HoldSignal) => "Hold"
    case (_, Bullish) => "MACD > signal (bullish momentum)"
    case (_, Bearish) => "MACD < signal (bearish momentum)"
    case (_, Oversold) => "RSI < 30 (oversold)"
    case (_, Overbought) => "RSI > 70 (overbought)"
    case (LocalTradingAgent, StrongTrend) => "Strong trend (ADX\U{2265}25)"
    case (_, StrongTrend) => "Strong trend (ADX >= 25)"
  }

  /** No phrase is empty or holds the separator's `;`. The phrases are
      checked in six groups (agent by part) to keep each proof small. */
  lemma WordingPlain(a: Agent, c: Clause)
    ensures Wording(a, c) != [] && ClauseSep[0] !in Wording(a, c)
  {
    if Part(c) <= 1 {
      match a
      case LocalTradingAgent => LocalTradingAgentPlainHead(c);
      case RunAgentLocal => RunAgentLocalPlainHead(c);
      case LocalAgent => LocalAgentPlainHead(c);
    } else {
      match a
      case LocalTradingAgent => LocalTradingAgentPlainTail(c);
      case RunAgentLocal => RunAgentLocalPlainTail(c);
      case LocalAgent => LocalAgentPlainTail(c);
    }
  }

  lemma LocalTradingAgentPlainHead(c: Clause)
    requires Part(c) <= 1
    ensures Wording(LocalTradingAgent, c) != [] && ';' !in Wording(LocalTradingAgent, c)
  {
  }

  lemma LocalTradingAgentPlainTail(c: Clause)
    requires Part(c) >= 2
    ensures Wording(LocalTradingAgent, c) != [] && ';' !in Wording(LocalTradingAgent, c)
  {
  }

  lemma RunAgentLocalPlainHead(c: Clause)
    requires Part(c) <= 1
    ensures Wording(RunAgentLocal, c) != [] && ';' !in Wording(RunAgentLocal, c)
  {
  }

  lemma RunAgentLocalPlainTail(c: Clause)
    requires Part(c) >= 2
    ensures Wording(RunAgentLocal, c) != [] && ';' !in Wording(RunAgentLocal, c)
  {
  }

  lemma LocalAgentPlainHead(c: Clause)
    requires Part(c) <= 1
    ensures Wording(LocalAgent, c) != [] && ';' !in Wording(LocalAgent, c)
  {
  }

  lemma LocalAgentPlainTail(c: Clause)
    requires Part(c) >= 2
    ensures Wording(LocalAgent, c) != [] && ';' !in Wording(LocalAgent, c)
  {
  }

  const RsiOversold: real := 30.0
  const RsiOverbought: real := 70.0
  const AdxStrong: real := 25.0

  /** The reasons a builder gives, one slot per part of the rationale in
      the order the text lists them. */
  datatype Reasons = Reasons(rec: Clause, macd: Option<Clause>, rsi: Option<Clause>, adx: Option<Clause>)

  /** Every slot holds a clause of its own part. */
  predicate InPlace(r: Reasons) {
    && Part(r.rec) == 0
    && (r.macd.Some? ==> Part(r.macd.value) == 1)
    && (r.rsi.Some? ==> Part(r.rsi.value) == 2)
    && (r.adx.Some? ==> Part(r.adx.value) == 3)
  }

  /** The reasons for `row`. The three builders choose them alike: a missing
      or unknown recommendation reads as hold, and an indicator whose value
      is absent or NaN contributes nothing. */
  function Reasoning(row: SignalRow): (r: Reasons)
    ensures InPlace(r)
    ensures r.rec == BuySignal <==> row.recommendation == Some("buy")
    ensures r.rec == SellSignal <==> row.recommendation == Some("sell")
    ensures r.rec == HoldSignal <==> row.recommendation != Some("buy") && row.recommendation != Some("sell")
    ensures r.macd == Some(Bullish) <==> Gt(Value(row.macd), Value(row.macdSignal))
    ensures r.macd == Some(Bearish) <==> Lt(Value(row.macd), Value(row.macdSignal))
    ensures r.rsi == Some(Oversold) <==> Below(Value(row.rsi), RsiOversold)
    ensures r.rsi == Some(Overbought) <==> Above(Value(row.rsi), RsiOverbought)
    ensures r.adx == Some(StrongTrend) <==> Ge(Value(row.adx), Some(AdxStrong))
  {
    var macd := Value(row.macd);
    var signal := Value(row.macdSignal);
    var rsi := Value(row.rsi);
    Reasons(
      if row.recommendation == Some("buy") then BuySignal
      else if row.recommendation == Some("sell") then SellSignal
      else HoldSignal,
      if Gt(macd, signal) then Some(Bullish) else if Lt(macd, signal) then Some(Bearish) else None,
      if Below(rsi, RsiOversold) then Some(Oversold) else if Above(rsi, RsiOverbought) then Some(Overbought) else None,
      if Ge(Value(row.adx), Some(AdxStrong)) then Some(StrongTrend) else None)
  }

  function Slot(o: Option<Clause>): (r: seq<Clause>)
    ensures |r| <= 1
    ensures forall c :: c in r <==> o == Some(c)
  {
    if o.Some? then [o.value] else []
  }

  /** The clause list `reasons`, in text order: the recommendation first,
      then MACD, RSI and ADX, each part at most once. */
  function Clauses(r: Reasons): (cs: seq<Clause>)
    requires InPlace(r)
    ensures 1 <= |cs| <= 4 && cs[0] == r.rec
    ensures forall c :: c in cs <==> c == r.rec || Some(c) == r.macd || Some(c) == r.rsi || Some(c) == r.adx
    ensures forall i :: 0 < i < |cs| ==> Part(cs[i - 1]) < Part(cs[i])
  {
    var cs := [r.rec] + Slot(r.macd) + Slot(r.rsi) + Slot(r.adx);
    forall i | 0 < i < |cs| ensures Part(cs[i - 1]) < Part(cs[i]) {
      assert cs[i - 1] in cs && cs[i] in cs[1..];
    }
    cs
  }

  /** The clauses in one agent's wording. */
  function Phrases(a: Agent, cs: seq<Clause>): (r: seq<string>)
    ensures |r| == |cs|
    ensures forall i :: 0 <= i < |cs| ==> r[i] == Wording(a, cs[i])
  {
    if cs == [] then [] else [Wording(a, cs[0])] + Phrases(a, cs[1..])
  }

  /** `"; ".join(reasons)`: the rationale text. It is never empty, starts
      with the recommendation clause, and splitting it at `"; "` gives the
      clauses back. */
  function Explain(a: Agent, row: SignalRow): (r: string)
    ensures r != []
    ensures Wording(a, Clauses(Reasoning(row))[0]) <= r
    ensures Split(r, ClauseSep) == Phrases(a, Clauses(Reasoning(row)))
  {
    var p := Phrases(a, Clauses(Reasoning(row)));
    forall i | 0 <= i < |p| ensures ClauseSep[0] !in p[i] {
      WordingPlain(a, Clauses(Reasoning(row))[i]);
    }
    WordingPlain(a, Clauses(Reasoning(row))[0]);
    SplitJoin(p, ClauseSep);
    Join(p, ClauseSep)
  }

  /** The three builders give the same reasons for a row, each in its own
      words. */
  lemma SameReasons(a: Agent, b: Agent, row: SignalRow)
    ensures var pa := Split(Explain(a, row), ClauseSep);
      var pb := Split(Explain(b, row), ClauseSep);
      |pa| == |pb| && forall i :: 0 <= i < |pa| ==>
        exists c :: pa[i] == Wording(a, c) && pb[i] == Wording(b, c)
  {
    PhrasesCorrespond(a, b, Clauses(Reasoning(row)));
  }

  /** Two agents' phrases for the same clauses pair up clause by clause. */
  lemma PhrasesCorrespond(a: Agent, b: Agent, cs: seq<Clause>)
    ensures var pa := Phrases(a, cs); var pb := Phrases(b, cs);
      |pa| == |pb| && forall i :: 0 <= i < |pa| ==>
        exists c :: pa[i] == Wording(a, c) && pb[i] == Wording(b, c)
  {
    var pa := Phrases(a, cs);
    var pb := Phrases(b, cs);
    forall i | 0 <= i < |pa| ensures exists c :: pa[i] == Wording(a, c) && pb[i] == Wording(b, c) {
      assert pa[i] == Wording(a, cs[i]) && pb[i] == Wording(b, cs[i]);
    }
  }

  /** A bullish, oversold, strongly trending buy lists all four parts. */
  lemma ReasoningExample()
    ensures Clauses(Reasoning(SignalRow(Some(0), Val(1.0), Val(2.0), Some("buy"),
        Val(1.5), Val(1.0), Val(25.0), Val(30.0)))) == [BuySignal, Bullish, Oversold, StrongTrend]
  {
  }

  // ---------------------------------------------------------------------------
  // The summary
  // ---------------------------------------------------------------------------

  const SignalSuffix: string := "_signals.parquet"

  /** `glob("*_signals.parquet")` on a file name. */
  predicate IsSignalFile(name: string) {
    EndsWith(name, SignalSuffix)
  }

  /** `name.split("_")[0]`. */
  function SymbolOf(name: string): (s: string)
    ensures s <= name && '_' !in s
    ensures IsSignalFile(name) ==> |s| < |name|
  {
    assert IsSignalFile(name) ==> name[|name| - |SignalSuffix|] == '_';
    BeforeFirst(name, '_')
  }

  /** The pipeline writes `{symbol}_{interval}_signals.parquet`; its agents
      read the symbol back from the name when the symbol has no `_`. */
  lemma SymbolRoundTrip(symbol: string, interval: string)
    requires '_' !in symbol
    ensures IsSignalFile(symbol + "_" + interval + SignalSuffix)
    ensures SymbolOf(symbol + "_" + interval + SignalSuffix) == symbol
  {
    var name := symbol + "_" + interval + SignalSuffix;
    assert name[|name| - |SignalSuffix|..] == SignalSuffix;
    var s := SymbolOf(name);
    assert name[..|symbol|] == symbol && name[|symbol|] == '_';
  }

  datatype SignalFile = SignalFile(name: string, rows: seq<SignalRow>)

  /** One row of the summary frame. */
  datatype Summary = Summary(
    symbol: string, time: int, close: Option<real>, score: int,
    recommendation: string, rationale: string)

  /** `KeyError` for a missing column (or for sorting the empty summary by
      `symbol`), `IndexError` for `iloc[-1]` on an empty file, `ValueError`
      for `int(NaN)`, `FileNotFoundError` for no signal files. */
  datatype AgentError = FileNotFound | KeyError(key: Column) | IndexError | ValueError

  /** The columns whose absence raises `KeyError`. */
  datatype Column = TimeColumn | CloseColumn | SymbolColumn

  /** `int(x)` on a float: truncation toward zero. */
  function Trunc(x: real): (r: int)
    ensures 0.0 <= x ==> 0 <= r && r as real <= x < r as real + 1.0
    ensures x < 0.0 ==> r <= 0 && r as real - 1.0 < x <= r as real
  {
    if x >= 0.0 then x.Floor else -((-x).Floor)
  }

  /** The summary of one file, or the error reading it raises. */
  function SummarizeFile(a: Agent, f: SignalFile): (r: Result<Summary, AgentError>)
    ensures r == Err(IndexError) <==> f.rows == []
    ensures f.rows != [] ==> var last := f.rows[|f.rows| - 1];
      && (r == Err(KeyError(TimeColumn)) <==> last.time.None?)
      && (r == Err(KeyError(CloseColumn)) <==> last.time.Some? && last.close.Missing?)
      && (r == Err(ValueError) <==> last.time.Some? && !last.close.Missing? && last.score.NaN?)
    ensures r.Err? ==> r.error != FileNotFound && r.error != KeyError(SymbolColumn)
  {
    if f.rows == [] then Err(IndexError)
    else
      var last := f.rows[|f.rows| - 1];
      if last.time.None? then Err(KeyError(TimeColumn))
      else if last.close.Missing? then Err(KeyError(CloseColumn))
      else match last.score
        case NaN => Err(ValueError)
        case Missing => Ok(Summary(SymbolOf(f.name), last.time.value, Value(last.close), 0,
          last.recommendation.GetOr("hold"), Explain(a, last)))
        case Val(x) => Ok(Summary(SymbolOf(f.name), last.time.value, Value(last.close), Trunc(x),
          last.recommendation.GetOr("hold"), Explain(a, last)))
  }

  /** A readable file is summarised by its last row: the symbol from the
      file name, the row's time and close, the score truncated toward zero
      (0 when missing), the recommendation (`hold` when missing) and the
      agent's rationale for the row. */
  lemma SummaryFields(a: Agent, f: SignalFile)
    requires SummarizeFile(a, f).Ok?
    ensures var r := SummarizeFile(a, f).value; var last := f.rows[|f.rows| - 1];
      && r.symbol == SymbolOf(f.name)
      && Some(r.time) == last.time
      && r.close == Value(last.close)
      && (last.score.Missing? ==> r.score == 0)
      && (last.score.Val? ==> r.score == Trunc(last.score.x))
      && r.recommendation == last.recommendation.GetOr("hold")
      && r.rationale == Explain(a, last)
  {
  }

  /** What reading each file gives, in order. */
  function Reports(a: Agent, files: seq<SignalFile>): (r: seq<Result<Summary, AgentError>>)
    ensures |r| == |files|
    ensures forall i :: 0 <= i < |files| ==> r[i] == SummarizeFile(a, files[i])
  {
    seq(|files|, i requires 0 <= i < |files| => SummarizeFile(a, files[i]))
  }

  /** The directory entries the glob matches, in directory order. */
  function SignalFiles(dir: seq<SignalFile>): (r: seq<SignalFile>)
    ensures forall f :: f in r <==> f in dir && IsSignalFile(f.name)
    ensures |r| <= |dir|
  {
    if dir == [] then []
    else (if IsSignalFile(dir[0].name) then [dir[0]] else []) + SignalFiles(dir[1..])
  }

  predicate NameLe(f: SignalFile, g: SignalFile) {
    StrLe(f.name, g.name)
  }

  predicate SymbolLe(s: Summary, t: Summary) {
    StrLe(s.symbol, t.symbol)
  }

  lemma OrdersTotal()
    ensures Total(NameLe) && Total(SymbolLe)
  {
    forall f: SignalFile, g: SignalFile ensures NameLe(f, g) || NameLe(g, f) {
      StrLeTotal(f.name, g.name);
    }
    forall s: Summary, t: Summary ensures SymbolLe(s, t) || SymbolLe(t, s) {
      StrLeTotal(s.symbol, t.symbol);
    }
  }

  /** `sorted(dir.glob("*_signals.parquet"))`. */
  function SortedSignalFiles(dir: seq<SignalFile>): (r: seq<SignalFile>)
    ensures SortedBy(r, NameLe)
    ensures multiset(r) == multiset(SignalFiles(dir))
    ensures forall f :: f in r <==> f in dir && IsSignalFile(f.name)
  {
    OrdersTotal();
    var r := SortBy(SignalFiles(dir), NameLe);
    SameElements(SignalFiles(dir), r);
    r
  }

  /** The summary of a non-empty, name-sorted list of signal files: one row
      per file, sorted by symbol, or the first file's error. */
  function Summarize(a: Agent, files: seq<SignalFile>): (r: Result<seq<Summary>, AgentError>)
    ensures r.Ok? <==> forall f :: f in files ==> SummarizeFile(a, f).Ok?
    ensures r.Ok? ==> SortedBy(r.value, SymbolLe)
    ensures r.Ok? ==> (Collect(Reports(a, files)).Ok?
      && multiset(r.value) == multiset(Collect(Reports(a, files)).value))
    ensures r.Ok? ==> forall s :: s in r.value <==> exists f :: f in files && SummarizeFile(a, f) == Ok(s)
    ensures r.Err? ==> exists f :: f in files && SummarizeFile(a, f) == Err(r.error)
    ensures r.Err? ==> r == Collect(Reports(a, files))
    ensures r.Err? ==> exists k :: (0 <= k < |files| && SummarizeFile(a, files[k]) == Err(r.error)
      && forall j :: 0 <= j < k ==> SummarizeFile(a, files[j]).Ok?)
    ensures r.Err? ==> r.error != FileNotFound && r.error != KeyError(SymbolColumn)
  {
    match Collect(Reports(a, files))
    case Err(e) =>
      FailingFile(a, files);
      Err(e)
    case Ok(rows) =>
      OrdersTotal();
      var sorted := SortBy(rows, SymbolLe);
      SameElements(rows, sorted);
      SummaryMembers(a, files, rows);
      Ok(sorted)
  }

  /** Whether the glob finds any signal file. */
  predicate HasSignalFile(dir: seq<SignalFile>) {
    exists f :: f in dir && IsSignalFile(f.name)
  }

  /** `analyze_signals` / `run_agent_local`: with no signal file,
      `LocalTradingAgent` raises `FileNotFoundError` and the other two fail
      to sort an empty frame by `symbol`; otherwise the summaries of the
      signal files taken in name order. */
  function AnalyzeSignals(a: Agent, dir: seq<SignalFile>): (r: Result<seq<Summary>, AgentError>)
    ensures !HasSignalFile(dir) ==> r.Err? && r.error == (if a == LocalTradingAgent then FileNotFound else KeyError(SymbolColumn))
    ensures HasSignalFile(dir) ==> r == Summarize(a, SortedSignalFiles(dir))
  {
    var files := SortedSignalFiles(dir);
    if files == [] then
      assert !HasSignalFile(dir);
      if a == LocalTradingAgent then Err(FileNotFound) else Err(KeyError(SymbolColumn))
    else
      assert files[0] in files;
      Summarize(a, files)
  }

  /** What the agents return: one summary per signal file, sorted by symbol,
      exactly when there is a signal file and every one of them can be read;
      `FileNotFoundError` or `KeyError('symbol')` exactly when there is none;
      otherwise the error of a signal file that cannot be read. */
  lemma AnalyzeSignalsResult(a: Agent, dir: seq<SignalFile>)
    ensures var r := AnalyzeSignals(a, dir);
      && (r == Err(FileNotFound) <==> a == LocalTradingAgent && !HasSignalFile(dir))
      && (r == Err(KeyError(SymbolColumn)) <==> a != LocalTradingAgent && !HasSignalFile(dir))
      && (r.Ok? <==> HasSignalFile(dir) && forall f :: f in dir && IsSignalFile(f.name) ==> SummarizeFile(a, f).Ok?)
      && (r.Ok? ==> SortedBy(r.value, SymbolLe))
      && (r.Ok? ==> forall s :: s in r.value <==>
            exists f :: f in dir && IsSignalFile(f.name) && SummarizeFile(a, f) == Ok(s))
      && (r.Err? && r.error != FileNotFound && r.error != KeyError(SymbolColumn) ==>
            exists f :: f in dir && IsSignalFile(f.name) && SummarizeFile(a, f) == Err(r.error))
  {
  }

  /** The error of the loop is the error of a file. */
  lemma FailingFile(a: Agent, files: seq<SignalFile>)
    requires Collect(Reports(a, files)).Err?
    ensures exists f :: f in files && SummarizeFile(a, f) == Err(Collect(Reports(a, files)).error)
  {
    var e := Collect(Reports(a, files)).error;
    var k :| 0 <= k < |files| && SummarizeFile(a, files[k]) == Err(e);
    assert files[k] in files;
  }

  lemma SummaryMembers(a: Agent, files: seq<SignalFile>, rows: seq<Summary>)
    requires Collect(Reports(a, files)) == Ok(rows)
    ensures forall s :: s in rows <==> exists f :: f in files && SummarizeFile(a, f) == Ok(s)
  {
    forall s | s in rows ensures exists f :: f in files && SummarizeFile(a, f) == Ok(s) {
      var i :| 0 <= i < |rows| && rows[i] == s;
      assert files[i] in files;
    }
    forall s | exists f :: f in files && SummarizeFile(a, f) == Ok(s) ensures s in rows {
      var f :| f in files && SummarizeFile(a, f) == Ok(s);
      var i :| 0 <= i < |files| && files[i] == f;
      assert rows[i] == s;
    }
  }
}

=== FILE: rules.dfy ===
/** The stateful signal engine (`signals/rules.py`): per-row predicates over a
    time-sorted indicator frame, a weighted score, entry and exit rules, and a
    single-boolean position machine run left to right. Indicator values that
    are NaN are `None`, and every comparison involving one is false. */
module Rules {
  import opened Common
  import opened Sorting
  import Store

  // ---------------------------------------------------------------------------
  // Configuration and input
  // ---------------------------------------------------------------------------

  /** `SignalConfig`. */
  datatype SignalConfig = SignalConfig(
    rsiLow: real, rsiHigh: real, volMaWindow: int, atrMult: real, enterThreshold: int)

  const DefaultConfig: SignalConfig := SignalConfig(30.0, 70.0, 20, 2.0, 2)

  /** `MIN_COLS`: the columns the engine reads. */
  const MinCols: seq<string> := [
    "time", "close", "volume", "ema_12", "ema_26", "sma_50", "sma_200",
    "rsi_14", "macd", "macd_signal", "atr_14"]

  /** One row of the indicator frame, restricted to the columns the engine
      reads. */
  datatype Row = Row(
    time: int, close: Option<real>, volume: Option<real>,
    ema12: Option<real>, ema26: Option<real>, sma50: Option<real>, sma200: Option<real>,
    rsi: Option<real>, macd: Option<real>, macdSignal: Option<real>, atr: Option<real>)

  /** The frame's column names and its rows. */
  datatype Frame = Frame(columns: seq<string>, rows: seq<Row>)

  datatype RulesError =
    | MissingColumns(names: seq<string>)  // `_need_cols`
    | TimeNotUnique                       // `sort_values("time")` on a repeated label
    | RepeatedColumn(name: string)        // a repeated label read as a frame, not a column
    | InvalidWindow(window: int)          // pandas rejects the rolling window

  /** Labels first read before the rolling window is built (the comparisons
      of trend, MACD and RSI), in reading order. Reading a repeated label
      yields a two-column frame, and comparing it with a column fails. */
  const EarlyReads: seq<string> := ["sma_50", "sma_200", "macd", "macd_signal", "rsi_14"]

  /** Labels first read after the rolling window (price against EMA12, the
      volume signal, the ATR stops), in reading order. `ema_26` is required
      but never read, so repeating it is harmless. */
  const LateReads: seq<string> := ["close", "ema_12", "volume", "atr_14"]

  // ---------------------------------------------------------------------------
  // _need_cols
  // ---------------------------------------------------------------------------

  /** `sorted(MIN_COLS - set(df.columns))`: the missing required columns in
      Python's string order. */
  function MissingRequired(columns: seq<string>): (r: seq<string>)
    ensures forall c :: c in r <==> c in MinCols && c !in columns
    ensures SortedBy(r, StrLe)
    ensures multiset(r) == multiset(Absent(MinCols, columns))
  {
    StrLeIsTotal();
    var r := SortBy(Absent(MinCols, columns), StrLe);
    SameElements(Absent(MinCols, columns), r);
    r
  }

  /** With every required column present nothing is reported missing. */
  lemma CompleteColumns(columns: seq<string>)
    requires forall i :: 0 <= i < |MinCols| ==> MinCols[i] in columns
    ensures MissingRequired(columns) == []
  {
    var r := MissingRequired(columns);
    assert forall i :: 0 <= i < |r| ==> r[i] in r;
  }

  // ---------------------------------------------------------------------------
  // _roll_vol_ma
  // ---------------------------------------------------------------------------

  /** `min_periods=max(3, w // 3)`. */
  function MinPeriods(w: int): (m: int)
    ensures m >= 3
  {
    Max(3, w / 3)
  }

  /** pandas accepts `rolling(w, min_periods=m)` only for `w >= 0` and
      `m <= w`. */
  predicate WindowOk(w: int) {
    w >= 0 && MinPeriods(w) <= w
  }

  /** So the only windows the engine accepts are those of at least three rows. */
  lemma WindowOkIffAtLeastThree(w: int)
    ensures WindowOk(w) <==> w >= 3
  {
  }

  /** The number of defined values. */
  function Observed(s: seq<Option<real>>): (n: nat)
    ensures n <= |s|
  {
    if s == [] then 0
    else Observed(s[..|s| - 1]) + (if s[|s| - 1].Some? then 1 else 0)
  }

  /** The sum of the defined values. */
  function ObservedSum(s: seq<Option<real>>): real {
    if s == [] then 0.0
    else ObservedSum(s[..|s| - 1]) + (if s[|s| - 1].Some? then s[|s| - 1].value else 0.0)
  }

  /** A rolling mean over a window: defined when at least `minp` values of
      the window are defined, and then the mean of those values. */
  function WindowMean(window: seq<Option<real>>, minp: int): (r: Option<real>)
    requires minp >= 1
    ensures r.Some? <==> Observed(window) >= minp
    ensures r.Some? ==> r.value * (Observed(window) as real) == ObservedSum(window)
  {
    var n := Observed(window);
    if n >= minp then Some(ObservedSum(window) / (n as real)) else None
  }

  function Volumes(out: seq<Row>): (v: seq<Option<real>>)
    ensures |v| == |out|
    ensures forall i :: 0 <= i < |out| ==> v[i] == out[i].volume
  {
    seq(|out|, i requires 0 <= i < |out| => out[i].volume)
  }

  /** The rows a window of `w` ending at row `i` covers. */
  function WindowStart(i: nat, w: int): nat {
    if i + 1 >= w then i + 1 - w else 0
  }

  /** `volume.rolling(w, min_periods=max(3, w // 3)).mean()` at row `i`. */
  function VolumeMa(out: seq<Row>, i: nat, w: int): (r: Option<real>)
    requires i < |out|
    requires WindowOk(w)
    ensures i + 1 < MinPeriods(w) ==> r.None?
    ensures r.Some? <==> Observed(Volumes(out)[WindowStart(i, w)..i + 1]) >= MinPeriods(w)
    ensures r.Some? ==>
      r.value * (Observed(Volumes(out)[WindowStart(i, w)..i + 1]) as real) == ObservedSum(Volumes(out)[WindowStart(i, w)..i + 1])
  {
    WindowMean(Volumes(out)[WindowStart(i, w)..i + 1], MinPeriods(w))
  }

  // ---------------------------------------------------------------------------
  // Per-row signals
  // ---------------------------------------------------------------------------

  /** `_cross_up`: at or below on the previous row, above now. */
  predicate CrossUp(prevA: Option<real>, prevB: Option<real>, a: Option<real>, b: Option<real>) {
    Le(prevA, prevB) && Gt(a, b)
  }

  /** `_cross_down`: at or above on the previous row, below now. */
  predicate CrossDown(prevA: Option<real>, prevB: Option<real>, a: Option<real>, b: Option<real>) {
    Ge(prevA, prevB) && Lt(a, b)
  }

  /** The value a column takes after `shift(1)`: undefined on the first row. */
  function PrevMacd(out: seq<Row>, i: nat): Option<real>
    requires i < |out|
  {
    if i == 0 then None else out[i - 1].macd
  }

  function PrevMacdSignal(out: seq<Row>, i: nat): Option<real>
    requires i < |out|
  {
    if i == 0 then None else out[i - 1].macdSignal
  }

  function PrevRsi(out: seq<Row>, i: nat): Option<real>
    requires i < |out|
  {
    if i == 0 then None else out[i - 1].rsi
  }

  /** `_cross_up` and `_cross_down` of MACD over its signal line at row `i`. */
  function MacdCrosses(out: seq<Row>, i: nat): (r: (bool, bool))
    requires i < |out|
    ensures !(r.0 && r.1)
    ensures i == 0 ==> !r.0 && !r.1
    ensures r.0 ==> Gt(out[i].macd, out[i].macdSignal) && Le(out[i - 1].macd, out[i - 1].macdSignal)
    ensures r.1 ==> Lt(out[i].macd, out[i].macdSignal) && Ge(out[i - 1].macd, out[i - 1].macdSignal)
  {
    var (pa, pb) := (PrevMacd(out, i), PrevMacdSignal(out, i));
    (CrossUp(pa, pb, out[i].macd, out[i].macdSignal), CrossDown(pa, pb, out[i].macd, out[i].macdSignal))
  }

  /** `s_momo`: trend up, MACD up or crossing up, RSI above 50. A cross up
      ends above the signal line, so the cross adds nothing. */
  function Momentum(out: seq<Row>, i: nat): (r: bool)
    requires i < |out|
    ensures r <==> Gt(out[i].sma50, out[i].sma200) && Gt(out[i].macd, out[i].macdSignal) && Above(out[i].rsi, 50.0)
  {
    var row := out[i];
    Gt(row.sma50, row.sma200)
    && (Gt(row.macd, row.macdSignal) || MacdCrosses(out, i).0)
    && Above(row.rsi, 50.0)
  }

  /** `s_mr`: RSI oversold, and either rebounding through `rsi_low` or closing
      above EMA 12. A rebound ends above `rsi_low`, which an oversold RSI is
      not, so only the EMA condition can fire. */
  function MeanReversion(out: seq<Row>, i: nat, cfg: SignalConfig): (r: bool)
    requires i < |out|
    ensures r <==> Below(out[i].rsi, cfg.rsiLow) && Gt(out[i].close, out[i].ema12)
  {
    var row := out[i];
    var prevLow := if i == 0 then None else Some(cfg.rsiLow);
    var rebound := CrossUp(PrevRsi(out, i), prevLow, row.rsi, Some(cfg.rsiLow));
    Below(row.rsi, cfg.rsiLow) && (rebound || Gt(row.close, row.ema12))
  }

  /** `s_vol`: volume above its rolling mean. Before `min_periods` rows the
      mean is undefined and the signal is off. */
  function VolumeOk(out: seq<Row>, i: nat, cfg: SignalConfig): (r: bool)
    requires i < |out|
    requires WindowOk(cfg.volMaWindow)
    ensures i + 1 < MinPeriods(cfg.volMaWindow) ==> !r
    ensures r ==> out[i].volume.Some? && VolumeMa(out, i, cfg.volMaWindow).Some?
    ensures r <==> && out[i].volume.Some? && VolumeMa(out, i, cfg.volMaWindow).Some?
                   && out[i].volume.value > VolumeMa(out, i, cfg.volMaWindow).value
  {
    Gt(out[i].volume, VolumeMa(out, i, cfg.volMaWindow))
  }

  /** `score = 2*s_momo + s_mr + s_vol`. */
  function Score(momentum: bool, meanReversion: bool, volume: bool): (s: int)
    ensures 0 <= s <= 4
    ensures s >= 3 ==> momentum
    ensures momentum ==> s >= 2
    ensures s == 4 <==> momentum && meanReversion && volume
  {
    2 * BoolToInt(momentum) + BoolToInt(meanReversion) + BoolToInt(volume)
  }

  /** `enter = (momo & vol) | (mr & vol) | (score >= threshold)`. Either
      conjunction already scores at least 2, so for a threshold of at most 2
      (the default) the rule is the threshold alone. */
  function EnterRule(momentum: bool, meanReversion: bool, volume: bool, threshold: int): (r: bool)
    ensures Score(momentum, meanReversion, volume) >= threshold ==> r
    ensures threshold <= 2 ==> (r <==> Score(momentum, meanReversion, volume) >= threshold)
    ensures r ==> volume || Score(momentum, meanReversion, volume) >= threshold
  {
    (momentum && volume) || (meanReversion && volume)
    || Score(momentum, meanReversion, volume) >= threshold
  }

  /** `exit_`: MACD crossing down, or close below SMA 50. */
  function ExitRule(out: seq<Row>, i: nat): (r: bool)
    requires i < |out|
    ensures r ==> Lt(out[i].macd, out[i].macdSignal) || Lt(out[i].close, out[i].sma50)
    ensures i == 0 ==> (r <==> Lt(out[i].close, out[i].sma50))
  {
    MacdCrosses(out, i).1 || Lt(out[i].close, out[i].sma50)
  }

  /** The entry and exit flags of row `i`. */
  function Flags(out: seq<Row>, i: nat, cfg: SignalConfig): (bool, bool)
    requires i < |out|
    requires WindowOk(cfg.volMaWindow)
  {
    (EnterRule(Momentum(out, i), MeanReversion(out, i, cfg), VolumeOk(out, i, cfg), cfg.enterThreshold),
     ExitRule(out, i))
  }

  // ---------------------------------------------------------------------------
  // The position machine
  // ---------------------------------------------------------------------------

  datatype Action = Enter | Exit | Hold

  function ActionName(a: Action): (s: string)
    ensures Store.ValidRecommendation(s) <==> a == Hold
    ensures s == "enter" <==> a == Enter
    ensures s == "exit" <==> a == Exit
    ensures s == "hold" <==> a == Hold
  {
    match a
    case Enter => "enter"
    case Exit => "exit"
    case Hold => "hold"
  }

  /** One iteration of the loop: the position after the row and the
      recommendation emitted. */
  function Step(inPosition: bool, enter: bool, exit: bool): (r: (bool, Action))
    ensures r.1 == Enter <==> !inPosition && enter
    ensures r.1 == Exit <==> inPosition && exit
    ensures r.1 == Enter ==> r.0
    ensures r.1 == Exit ==> !r.0
    ensures r.1 == Hold ==> r.0 == inPosition
  {
    if !inPosition && enter then (true, Enter)
    else if inPosition && exit then (false, Exit)
    else (inPosition, Hold)
  }

  /** The position before row `i`: flat before the first row. */
  function PositionBefore(trace: seq<(bool, Action)>, i: nat): bool
    requires i <= |trace|
  {
    if i == 0 then false else trace[i - 1].0
  }

  /** The machine run over every row's `(enter, exit)` flags. */
  function Trace(flags: seq<(bool, bool)>): (r: seq<(bool, Action)>)
    ensures |r| == |flags|
  {
    if flags == [] then []
    else
      var n := |flags| - 1;
      var p := Trace(flags[..n]);
      p + [Step(PositionBefore(p, n), flags[n].0, flags[n].1)]
  }

  /** Row `i` of the trace is one step from the position before it. */
  lemma TraceStep(flags: seq<(bool, bool)>, i: nat)
    requires i < |flags|
    ensures Trace(flags)[i] == Step(PositionBefore(Trace(flags), i), flags[i].0, flags[i].1)
  {
    var p := flags[..i + 1];
    TracePrefix(flags, i + 1);
    TracePrefix(flags, i);
    assert p[..i] == flags[..i];
    assert Trace(p)[i] == Step(PositionBefore(Trace(p[..i]), i), p[i].0, p[i].1);
    if i > 0 {
      assert Trace(p[..i])[i - 1] == Trace(flags)[i - 1];
    }
  }

  /** The loop of `make_recommendations`, written as in the source. */
  method RunPositions(flags: seq<(bool, bool)>) returns (inPosition: seq<bool>, rec: seq<Action>)
    ensures |inPosition| == |rec| == |flags|
    ensures forall i :: 0 <= i < |flags| ==> (inPosition[i], rec[i]) == Trace(flags)[i]
  {
    var trace := Trace(flags);
    inPosition, rec := [], [];
    var i := 0;
    while i < |flags|
      invariant 0 <= i <= |flags|
      invariant |inPosition| == |rec| == i
      invariant forall j :: 0 <= j < i ==> (inPosition[j], rec[j]) == trace[j]
    {
      var position := if i == 0 then false else inPosition[i - 1];
      assert position == PositionBefore(trace, i);
      TraceStep(flags, i);
      var action := Hold;
      if !position && flags[i].0 {
        position, action := true, Enter;
      } else if position && flags[i].1 {
        position, action := false, Exit;
      }
      inPosition, rec := inPosition + [position], rec + [action];
      i := i + 1;
    }
  }

  /** The trace of the first `k` rows is the first `k` rows of the trace: a
      recommendation depends only on the rows up to it. */
  lemma {:induction false} TracePrefix(flags: seq<(bool, bool)>, k: nat)
    requires k <= |flags|
    ensures Trace(flags[..k]) == Trace(flags)[..k]
    decreases |flags|
  {
    if k < |flags| {
      var n := |flags| - 1;
      assert flags[..n][..k] == flags[..k];
      TracePrefix(flags[..n], k);
      assert Trace(flags)[..n] == Trace(flags[..n]);
    } else {
      assert flags[..k] == flags;
    }
  }

  /** The recommendations other than `hold`, in order. */
  function Emitted(trace: seq<(bool, Action)>): (e: seq<Action>)
    ensures |e| <= |trace|
    ensures forall k :: 0 <= k < |e| ==> e[k] != Hold
  {
    if trace == [] then []
    else
      var last := trace[|trace| - 1].1;
      Emitted(trace[..|trace| - 1]) + (if last == Hold then [] else [last])
  }

  /** `e` reads enter, exit, enter, ... */
  predicate Alternates(e: seq<Action>) {
    forall k :: 0 <= k < |e| ==> e[k] == if k % 2 == 0 then Enter else Exit
  }

  lemma AlternatesAppend(e: seq<Action>, x: Action)
    requires Alternates(e)
    requires x == if |e| % 2 == 0 then Enter else Exit
    ensures Alternates(e + [x])
  {
    assert forall k :: 0 <= k < |e| ==> (e + [x])[k] == e[k];
  }

  /** The emitted recommendations alternate enter, exit, enter, ..., starting
      with enter, and the machine is in position exactly after an odd number
      of them. */
  lemma {:induction false} Alternation(flags: seq<(bool, bool)>)
    ensures var r := Trace(flags);
      && Alternates(Emitted(r))
      && (PositionBefore(r, |r|) <==> |Emitted(r)| % 2 == 1)
    decreases |flags|
  {
    if flags != [] {
      var n := |flags| - 1;
      var p := Trace(flags[..n]);
      var r := Trace(flags);
      Alternation(flags[..n]);
      TracePrefix(flags, n);
      assert r[..n] == p;
      var e := Emitted(p);
      var x := r[n].1;
      assert Emitted(r) == e + (if x == Hold then [] else [x]);
      assert PositionBefore(r, n) == PositionBefore(p, n);
      assert r[n] == Step(PositionBefore(p, n), flags[n].0, flags[n].1);
      if x != Hold {
        AlternatesAppend(e, x);
      }
    }
  }

  // ---------------------------------------------------------------------------
  // make_recommendations
  // ---------------------------------------------------------------------------

  /** A row of the result. */
  datatype RecRow = RecRow(
    time: int, close: Option<real>, score: int, recommendation: string, inPosition: bool,
    stopLevel: Option<real>, tpLevel: Option<real>,
    momentum: int, meanReversion: int, volume: int)

  predicate RowTimeLe(a: Row, b: Row) {
    a.time <= b.time
  }

  /** `df.sort_values("time")`: sorted by time, the same rows. */
  function SortedRows(rows: seq<Row>): (r: seq<Row>)
    ensures SortedBy(r, RowTimeLe)
    ensures multiset(r) == multiset(rows)
    ensures |r| == |rows|
  {
    assert Total(RowTimeLe);
    SortBy(rows, RowTimeLe)
  }

  /** Every row's flags, in order. */
  function AllFlags(out: seq<Row>, cfg: SignalConfig): (f: seq<(bool, bool)>)
    requires WindowOk(cfg.volMaWindow)
    ensures |f| == |out|
    ensures forall i :: 0 <= i < |out| ==> f[i] == Flags(out, i, cfg)
  {
    seq(|out|, i requires 0 <= i < |out| => Flags(out, i, cfg))
  }

  /** The output row for row `i` of the sorted frame, given the machine's
      state after it. */
  function Emit(out: seq<Row>, i: nat, cfg: SignalConfig, state: (bool, Action)): (r: RecRow)
    requires i < |out|
    requires WindowOk(cfg.volMaWindow)
    ensures r.time == out[i].time && r.close == out[i].close
    ensures RowInvariant(r)
    ensures r.recommendation == ActionName(state.1) && r.inPosition == state.0
    ensures (r.momentum == 1 <==> Momentum(out, i)) && (r.meanReversion == 1 <==> MeanReversion(out, i, cfg))
    ensures r.volume == 1 <==> VolumeOk(out, i, cfg)
    ensures StopTarget(r, out[i], cfg.atrMult)
  {
    var (m, mr, v) := (Momentum(out, i), MeanReversion(out, i, cfg), VolumeOk(out, i, cfg));
    RecRow(
      out[i].time, out[i].close, Score(m, mr, v), ActionName(state.1), state.0,
      AddScaled(out[i].close, -cfg.atrMult, out[i].atr),
      AddScaled(out[i].close, cfg.atrMult, out[i].atr),
      BoolToInt(m), BoolToInt(mr), BoolToInt(v))
  }

  /** What holds of every output row: the score is the weighted sum of 0/1
      sub-signals and lies in [0, 4], and the stop and target are defined
      together and symmetric around the close. */
  predicate RowInvariant(r: RecRow) {
    && 0 <= r.momentum <= 1 && 0 <= r.meanReversion <= 1 && 0 <= r.volume <= 1
    && r.score == 2 * r.momentum + r.meanReversion + r.volume
    && 0 <= r.score <= 4
    && (r.stopLevel.Some? <==> r.tpLevel.Some?)
    && (r.tpLevel.Some? ==> r.close.Some? && r.tpLevel.value - r.close.value == r.close.value - r.stopLevel.value)
  }

  /** `stop_level = close - atr_mult * atr_14` and
      `tp_level = close + atr_mult * atr_14`, each missing when the close or
      the ATR is. */
  predicate StopTarget(r: RecRow, row: Row, atrMult: real) {
    && (r.stopLevel.Some? <==> row.close.Some? && row.atr.Some?)
    && (r.tpLevel.Some? <==> row.close.Some? && row.atr.Some?)
    && (r.stopLevel.Some? ==> r.stopLevel.value == row.close.value - atrMult * row.atr.value)
    && (r.tpLevel.Some? ==> r.tpLevel.value == row.close.value + atrMult * row.atr.value)
  }

  /** Whether the result is in position before row `i`. */
  predicate HeldBefore(r: seq<RecRow>, i: nat)
    requires i <= |r|
  {
    i > 0 && r[i - 1].inPosition
  }

  /** The engine on a time-sorted frame. */
  function Annotate(out: seq<Row>, cfg: SignalConfig): (r: seq<RecRow>)
    requires WindowOk(cfg.volMaWindow)
    ensures |r| == |out|
    ensures forall i :: 0 <= i < |out| ==> r[i].time == out[i].time && r[i].close == out[i].close
    ensures forall i :: 0 <= i < |out| ==> RowInvariant(r[i])
    ensures forall i :: 0 <= i < |out| ==>
      (r[i].inPosition, r[i].recommendation) == (Trace(AllFlags(out, cfg))[i].0, ActionName(Trace(AllFlags(out, cfg))[i].1))
  {
    var trace := Trace(AllFlags(out, cfg));
    seq(|out|, i requires 0 <= i < |out| => Emit(out, i, cfg, trace[i]))
  }

  /** Every output row carries the three sub-signals of its row as 0/1
      columns, and the stop and target `atr_mult` ATRs either side of its
      close. */
  lemma AnnotateColumns(out: seq<Row>, cfg: SignalConfig, i: nat)
    requires WindowOk(cfg.volMaWindow)
    requires i < |out|
    ensures var r := Annotate(out, cfg)[i];
      && (r.momentum == 1 <==> Momentum(out, i))
      && (r.meanReversion == 1 <==> MeanReversion(out, i, cfg))
      && (r.volume == 1 <==> VolumeOk(out, i, cfg))
      && r.score == Score(Momentum(out, i), MeanReversion(out, i, cfg), VolumeOk(out, i, cfg))
      && StopTarget(r, out[i], cfg.atrMult)
  {
    AnnotateAt(out, cfg, i);
  }

  /** The position column and the recommendations agree with the machine:
      `enter` only from flat and on an entry signal, `exit` only in position
      and on an exit signal, `hold` otherwise, and `hold` keeps the
      position. */
  lemma PositionConsistent(out: seq<Row>, cfg: SignalConfig, i: nat)
    requires WindowOk(cfg.volMaWindow)
    requires i < |out|
    ensures var r := Annotate(out, cfg);
      && (r[i].recommendation == "enter" <==> !HeldBefore(r, i) && Flags(out, i, cfg).0)
      && (r[i].recommendation == "exit" <==> HeldBefore(r, i) && Flags(out, i, cfg).1)
      && (r[i].recommendation == "hold" <==> !(r[i].recommendation == "enter" || r[i].recommendation == "exit"))
      && (r[i].recommendation == "hold" ==> r[i].inPosition == HeldBefore(r, i))
      && (r[i].recommendation == "enter" ==> r[i].inPosition)
      && (r[i].recommendation == "exit" ==> !r[i].inPosition)
  {
    var flags := AllFlags(out, cfg);
    var trace := Trace(flags);
    var r := Annotate(out, cfg);
    assert HeldBefore(r, i) == PositionBefore(trace, i);
    TraceStep(flags, i);
  }

  /** The labels the engine reads are `time`, the early reads and the late
      reads: every required label except `ema_26`. */
  lemma ReadLabels(c: string)
    ensures c in MinCols && c != "ema_26" <==> c == "time" || c in EarlyReads || c in LateReads
  {
  }

  /** With every required label present, no read label is repeated exactly
      when the sort and both groups of reads pass. */
  lemma ReadLabelsOnce(columns: seq<string>)
    requires MissingRequired(columns) == []
    ensures (forall c :: c in MinCols && c != "ema_26" ==> multiset(columns)[c] == 1) <==>
      && multiset(columns)["time"] <= 1
      && FirstRepeated(EarlyReads, columns).None?
      && FirstRepeated(LateReads, columns).None?
  {
    if && multiset(columns)["time"] <= 1
       && FirstRepeated(EarlyReads, columns).None?
       && FirstRepeated(LateReads, columns).None?
    {
      forall c | c in MinCols && c != "ema_26" ensures multiset(columns)[c] == 1 {
        assert c in columns;
        ReadLabels(c);
        if c in EarlyReads {
          var k :| 0 <= k < |EarlyReads| && EarlyReads[k] == c;
        } else if c in LateReads {
          var k :| 0 <= k < |LateReads| && LateReads[k] == c;
        }
      }
    }
    if forall c :: c in MinCols && c != "ema_26" ==> multiset(columns)[c] == 1 {
      ReadLabels("time");
      forall k | 0 <= k < |EarlyReads| ensures multiset(columns)[EarlyReads[k]] <= 1 {
        ReadLabels(EarlyReads[k]);
      }
      forall k | 0 <= k < |LateReads| ensures multiset(columns)[LateReads[k]] <= 1 {
        ReadLabels(LateReads[k]);
      }
    }
  }

  /** `make_recommendations`: the missing columns are reported first, then a
      repeated `time` label (the sort), then a repeated label read before the
      rolling window, then the window itself, then a repeated label read
      after it; otherwise every row of the time-sorted frame is annotated. */
  function MakeRecommendations(frame: Frame, cfg: SignalConfig): (r: Result<seq<RecRow>, RulesError>)
    ensures MissingRequired(frame.columns) != [] ==> r == Err(MissingColumns(MissingRequired(frame.columns)))
    ensures MissingRequired(frame.columns) == [] && multiset(frame.columns)["time"] > 1 ==>
      r == Err(TimeNotUnique)
    ensures (MissingRequired(frame.columns) == [] && multiset(frame.columns)["time"] <= 1
      && FirstRepeated(EarlyReads, frame.columns).Some?) ==>
      r == Err(RepeatedColumn(FirstRepeated(EarlyReads, frame.columns).value))
    ensures (MissingRequired(frame.columns) == [] && multiset(frame.columns)["time"] <= 1
      && FirstRepeated(EarlyReads, frame.columns).None? && !WindowOk(cfg.volMaWindow)) ==>
      r == Err(InvalidWindow(cfg.volMaWindow))
    ensures r.Ok? <==>
      && MissingRequired(frame.columns) == []
      && (forall c :: c in MinCols && c != "ema_26" ==> multiset(frame.columns)[c] == 1)
      && cfg.volMaWindow >= 3
    ensures r.Ok? ==> r.value == Annotate(SortedRows(frame.rows), cfg)
    ensures r.Ok? ==> |r.value| == |frame.rows|
    ensures r.Ok? ==> forall i :: 0 <= i < |frame.rows| ==>
      r.value[i].time == SortedRows(frame.rows)[i].time && r.value[i].close == SortedRows(frame.rows)[i].close
  {
    match InputError(frame.columns, cfg.volMaWindow)
    case Some(e) => Err(e)
    case None => Ok(Annotate(SortedRows(frame.rows), cfg))
  }

  /** The checks `make_recommendations` makes of its input before computing
      anything, in the order they fail. */
  function InputError(columns: seq<string>, window: int): (r: Option<RulesError>)
    ensures MissingRequired(columns) != [] ==> r == Some(MissingColumns(MissingRequired(columns)))
    ensures MissingRequired(columns) == [] && multiset(columns)["time"] > 1 ==> r == Some(TimeNotUnique)
    ensures (MissingRequired(columns) == [] && multiset(columns)["time"] <= 1
      && FirstRepeated(EarlyReads, columns).Some?) ==>
      r == Some(RepeatedColumn(FirstRepeated(EarlyReads, columns).value))
    ensures (MissingRequired(columns) == [] && multiset(columns)["time"] <= 1
      && FirstRepeated(EarlyReads, columns).None? && !WindowOk(window)) ==>
      r == Some(InvalidWindow(window))
    ensures r.None? <==>
      && MissingRequired(columns) == []
      && (forall c :: c in MinCols && c != "ema_26" ==> multiset(columns)[c] == 1)
      && window >= 3
  {
    var missing := MissingRequired(columns);
    if missing != [] then Some(MissingColumns(missing))
    else if multiset(columns)["time"] > 1 then Some(TimeNotUnique)
    else if FirstRepeated(EarlyReads, columns).Some? then
      Some(RepeatedColumn(FirstRepeated(EarlyReads, columns).value))
    else if !WindowOk(window) then Some(InvalidWindow(window))
    else if FirstRepeated(LateReads, columns).Some? then
      Some(RepeatedColumn(FirstRepeated(LateReads, columns).value))
    else
      ReadLabelsOnce(columns);
      None
  }

  /** A second `time` column is rejected before anything else is read. */
  lemma RepeatedTimeRejected(rows: seq<Row>)
    ensures MakeRecommendations(Frame(MinCols + ["time"], rows), DefaultConfig) == Err(TimeNotUnique)
  {
    var columns := MinCols + ["time"];
    CompleteColumns(columns);
    assert multiset(columns)["time"] == multiset(MinCols)["time"] + 1;
    assert MinCols[0] == "time";
  }

  /** The result is in time order. */
  lemma ResultSorted(frame: Frame, cfg: SignalConfig)
    requires MakeRecommendations(frame, cfg).Ok?
    ensures var r := MakeRecommendations(frame, cfg).value;
      forall i :: 0 < i < |r| ==> r[i - 1].time <= r[i].time
  {
    var out := SortedRows(frame.rows);
    var r := MakeRecommendations(frame, cfg).value;
    assert |r| == |out|;
    forall i | 0 < i < |r| ensures r[i - 1].time <= r[i].time {
      assert r[i - 1].time == out[i - 1].time && r[i].time == out[i].time;
      assert RowTimeLe(out[i - 1], out[i]);
    }
  }

  /** Row `i` looks only at rows up to `i`: its rolling mean, flags and
      output row are the same in every prefix that contains it. */
  lemma RowPrefix(out: seq<Row>, cfg: SignalConfig, k: nat, i: nat, state: (bool, Action))
    requires WindowOk(cfg.volMaWindow)
    requires i < k <= |out|
    ensures VolumeMa(out[..k], i, cfg.volMaWindow) == VolumeMa(out, i, cfg.volMaWindow)
    ensures Flags(out[..k], i, cfg) == Flags(out, i, cfg)
    ensures Emit(out[..k], i, cfg, state) == Emit(out, i, cfg, state)
  {
    var p := out[..k];
    var w := cfg.volMaWindow;
    assert Volumes(p)[WindowStart(i, w)..i + 1] == Volumes(out)[WindowStart(i, w)..i + 1];
    assert p[i] == out[i];
    if i > 0 {
      assert p[i - 1] == out[i - 1];
    }
  }

  /** Annotating a prefix of the sorted frame gives a prefix of the result:
      no signal and no recommendation looks ahead. */
  lemma AnnotatePrefix(out: seq<Row>, cfg: SignalConfig, k: nat)
    requires WindowOk(cfg.volMaWindow)
    requires k <= |out|
    ensures Annotate(out[..k], cfg) == Annotate(out, cfg)[..k]
  {
    forall i | 0 <= i < k ensures Annotate(out[..k], cfg)[i] == Annotate(out, cfg)[i] {
      AnnotateRowPrefix(out, cfg, k, i);
    }
  }

  /** Row `i` of the annotated prefix is row `i` of the annotated frame. */
  lemma AnnotateRowPrefix(out: seq<Row>, cfg: SignalConfig, k: nat, i: nat)
    requires WindowOk(cfg.volMaWindow)
    requires i < k <= |out|
    ensures Annotate(out[..k], cfg)[i] == Annotate(out, cfg)[i]
  {
    var p := out[..k];
    FlagsPrefix(out, cfg, k);
    TracePrefix(AllFlags(out, cfg), k);
    var trace := Trace(AllFlags(out, cfg));
    AnnotateAt(p, cfg, i);
    AnnotateAt(out, cfg, i);
    assert Trace(AllFlags(p, cfg))[i] == trace[i];
    RowPrefix(out, cfg, k, i, trace[i]);
  }

  lemma FlagsPrefix(out: seq<Row>, cfg: SignalConfig, k: nat)
    requires WindowOk(cfg.volMaWindow)
    requires k <= |out|
    ensures AllFlags(out[..k], cfg) == AllFlags(out, cfg)[..k]
  {
    forall i | 0 <= i < k ensures AllFlags(out[..k], cfg)[i] == AllFlags(out, cfg)[i] {
      RowPrefix(out, cfg, k, i, (false, Hold));
    }
  }

  lemma AnnotateAt(out: seq<Row>, cfg: SignalConfig, i: nat)
    requires WindowOk(cfg.volMaWindow)
    requires i < |out|
    ensures Annotate(out, cfg)[i] == Emit(out, i, cfg, Trace(AllFlags(out, cfg))[i])
  {
  }

  /** The rows this engine flags `enter` or `exit` are rejected by the
      signals table's CHECK constraint: storing one changes nothing. */
  lemma EngineActionRejected(db: Store.Db, series: Store.Series, row: RecRow)
    requires Store.Valid(db)
    requires row.recommendation == "enter" || row.recommendation == "exit"
    ensures var input := Store.SignalInput(
        row.time, Some(row.momentum), Some(row.meanReversion), Some(row.volume),
        Some(row.score), Some(row.recommendation));
      Store.InsertSignals(db, series, [input]) == (db, 0)
  {
    var input := Store.SignalInput(
      row.time, Some(row.momentum), Some(row.meanReversion), Some(row.volume),
      Some(row.score), Some(row.recommendation));
    Store.RejectedSignalIgnored(db, series, input);
  }
}

=== FILE: sorting.dfy ===
/** Sorting by a caller-supplied total order. pandas' `sort_values` and SQL's
    `ORDER BY` are not stable, so everything the model says about a sorted
    result is "sorted, and a permutation of the input"; this insertion sort is
    one such arrangement. */
module Sorting {
  import opened Common

  ghost predicate Total<T(!new)>(le: (T, T) -> bool) {
    forall a, b :: le(a, b) || le(b, a)
  }

  ghost predicate Transitive<T(!new)>(le: (T, T) -> bool) {
    forall a, b, c :: le(a, b) && le(b, c) ==> le(a, c)
  }

  /** Every adjacent pair is in order. */
  predicate SortedBy<T>(s: seq<T>, le: (T, T) -> bool) {
    forall i :: 0 < i < |s| ==> le(s[i - 1], s[i])
  }

  function Insert<T(!new)>(x: T, s: seq<T>, le: (T, T) -> bool): (r: seq<T>)
    requires Total(le)
    requires SortedBy(s, le)
    ensures SortedBy(r, le)
    ensures multiset(r) == multiset(s) + multiset{x}
    ensures |r| == |s| + 1
    ensures r[0] == x || (s != [] && r[0] == s[0])
  {
    if s == [] then [x]
    else if le(x, s[0]) then [x] + s
    else
      var rest := Insert(x, s[1..], le);
      assert s == [s[0]] + s[1..];
      [s[0]] + rest
  }

  /** Insertion sort. */
  function SortBy<T(!new)>(s: seq<T>, le: (T, T) -> bool): (r: seq<T>)
    requires Total(le)
    ensures SortedBy(r, le)
    ensures multiset(r) == multiset(s)
    ensures |r| == |s|
  {
    if s == [] then []
    else
      assert s == [s[0]] + s[1..];
      Insert(s[0], SortBy(s[1..], le), le)
  }

  lemma SameElements<T>(a: seq<T>, b: seq<T>)
    requires multiset(a) == multiset(b)
    ensures forall x :: x in a <==> x in b
  {
    forall x
      ensures x in a <==> x in b
    {
      assert x in a <==> x in multiset(a);
      assert x in b <==> x in multiset(b);
    }
  }

  /** For a transitive order, adjacent order is order of every pair. */
  lemma {:induction false} SortedPairwise<T(!new)>(s: seq<T>, le: (T, T) -> bool)
    requires Transitive(le)
    requires SortedBy(s, le)
    ensures forall i, j :: 0 <= i < j < |s| ==> le(s[i], s[j])
    decreases |s|
  {
    if |s| > 1 {
      SortedPairwise(s[1..], le);
      forall j | 1 < j < |s| ensures le(s[0], s[j]) {
        assert le(s[1..][0], s[1..][j - 1]);
      }
    }
  }

  lemma SortedPrefix<T>(s: seq<T>, p: seq<T>, le: (T, T) -> bool)
    requires SortedBy(s, le)
    requires p <= s
    ensures SortedBy(p, le)
  {
    assert forall i :: 0 <= i < |p| ==> p[i] == s[i];
  }

  /** A prefix holds no element more often than the whole sequence. */
  lemma PrefixMultiset<T>(s: seq<T>, p: seq<T>)
    requires p <= s
    ensures multiset(p) <= multiset(s)
  {
    assert s == p + s[|p|..];
  }

  /** A prefix of a sorted sequence comes before everything left out of it. */
  lemma PrefixDominates<T(!new)>(s: seq<T>, p: seq<T>, le: (T, T) -> bool, x: T)
    requires Transitive(le)
    requires SortedBy(s, le)
    requires p <= s
    requires x in s && x !in p
    ensures forall i :: 0 <= i < |p| ==> le(p[i], x)
  {
    SortedPairwise(s, le);
    assert forall j :: 0 <= j < |p| ==> p[j] == s[j];
    var k :| 0 <= k < |s| && s[k] == x;
    assert k >= |p|;
  }

  /** A value occurring twice occurs at two positions. */
  lemma {:induction false} RepeatedElement<T>(s: seq<T>, x: T)
    requires multiset(s)[x] >= 2
    ensures exists i, j :: 0 <= i < j < |s| && s[i] == x && s[j] == x
    decreases |s|
  {
    assert s == [s[0]] + s[1..];
    if s[0] == x {
      assert multiset(s[1..])[x] >= 1;
      var j :| 0 <= j < |s[1..]| && s[1..][j] == x;
      assert s[0] == x && s[j + 1] == x;
    } else {
      RepeatedElement(s[1..], x);
      var i, j :| 0 <= i < j < |s[1..]| && s[1..][i] == x && s[1..][j] == x;
      assert s[i + 1] == x && s[j + 1] == x;
    }
  }

  /** Python's string order is a total order. */
  lemma StrLeIsTotal()
    ensures Total(StrLe)
  {
    forall a: string, b: string ensures StrLe(a, b) || StrLe(b, a) {
      StrLeTotal(a, b);
    }
  }
}

=== FILE: store.dfy ===
/** The market database as an abstract store (`MarketDatabase`). Each table is
    a sequence of rows in insertion order; the UNIQUE and CHECK constraints of
    the schema are predicates and error results, and an AUTOINCREMENT id is
    the row's position plus one. A bar is identified by its series and
    timestamp, which the schema makes unique, so the indicator and signal rows
    are keyed by that pair rather than by `market_data_id`. */
module Store {
  import opened Common
  import opened Sorting
  import opened Bars

  /** The `(symbol, source, interval)` part of the unique key of a bar. */
  datatype Series = Series(symbol: string, source: string, interval: string)

  /** A row of `market_data`. */
  datatype BarRow = BarRow(series: Series, bar: Bar)

  /** A row of `indicators` (`V` = indicator values) or of `signals`
      (`V` = signal values), attached to the bar `(series, time)`. */
  datatype Annotation<V> = Annotation(series: Series, time: int, value: V)

  /** The six indicator columns; `None` is SQL NULL. */
  datatype IndicatorValues = IndicatorValues(
    rsi14: Option<real>, macd: Option<real>, macdSignal: Option<real>,
    atr14: Option<real>, adx: Option<real>, obv: Option<real>)

  datatype SignalValues = SignalValues(
    momentum: int, meanReversion: int, volume: int, score: int, recommendation: string)

  datatype AgentRun = AgentRun(
    id: nat, runTimestamp: int, agentType: string,
    provider: Option<string>, model: Option<string>,
    assetsProcessed: int, assetsFailed: int, executionTime: real,
    status: string, errorMessage: Option<string>)

  datatype Recommendation = Recommendation(
    id: nat, runId: int, symbol: string, recommendation: string, rationale: string,
    portfolio: Option<string>, confidence: Option<real>, price: Option<real>,
    createdAt: int)

  datatype Db = Db(
    bars: seq<BarRow>,
    indicators: seq<Annotation<IndicatorValues>>,
    signals: seq<Annotation<SignalValues>>,
    runs: seq<AgentRun>,
    recommendations: seq<Recommendation>)

  /** A CHECK constraint rejected the row (`sqlite3.IntegrityError`). */
  datatype DbError = CheckViolation(column: string, value: string)

  const EmptyDb := Db([], [], [], [], [])

  // ---------------------------------------------------------------------------
  // Keys and the schema's constraints
  // ---------------------------------------------------------------------------

  predicate SameKey(a: BarRow, b: BarRow) {
    a.series == b.series && a.bar.time == b.bar.time
  }

  /** UNIQUE(symbol, source, interval, timestamp). */
  predicate UniqueBarKeys(bars: seq<BarRow>) {
    forall i, j :: 0 <= i < j < |bars| ==> !SameKey(bars[i], bars[j])
  }

  /** UNIQUE(market_data_id). */
  predicate UniqueAnnotationKeys<V>(table: seq<Annotation<V>>) {
    forall i, j :: 0 <= i < j < |table| ==>
      !(table[i].series == table[j].series && table[i].time == table[j].time)
  }

  /** Every annotation refers to a stored bar. */
  predicate Linked<V>(table: seq<Annotation<V>>, bars: seq<BarRow>) {
    forall i :: 0 <= i < |table| ==> BarAt(bars, table[i].series, table[i].time).Some?
  }

  /** AUTOINCREMENT without deletions: ids are 1, 2, 3, ... */
  predicate RunIds(runs: seq<AgentRun>) {
    forall i :: 0 <= i < |runs| ==> runs[i].id == i + 1
  }

  predicate RecommendationIds(recs: seq<Recommendation>) {
    forall i :: 0 <= i < |recs| ==> recs[i].id == i + 1
  }

  predicate Valid(db: Db) {
    && UniqueBarKeys(db.bars)
    && UniqueAnnotationKeys(db.indicators) && Linked(db.indicators, db.bars)
    && UniqueAnnotationKeys(db.signals) && Linked(db.signals, db.bars)
    && RunIds(db.runs)
    && RecommendationIds(db.recommendations)
  }

  lemma EmptyDbValid()
    ensures Valid(EmptyDb)
  {
  }

  /** The bar stored under `(series, t)`. */
  function BarAt(bars: seq<BarRow>, series: Series, t: int): (r: Option<Bar>)
    ensures r.None? <==> forall i :: 0 <= i < |bars| ==> !(bars[i].series == series && bars[i].bar.time == t)
    ensures r.Some? ==> BarRow(series, r.value) in bars && r.value.time == t
  {
    if bars == [] then None
    else if bars[0].series == series && bars[0].bar.time == t then Some(bars[0].bar)
    else
      var r := BarAt(bars[1..], series, t);
      assert forall i :: 1 <= i < |bars| ==> bars[1..][i - 1] == bars[i];
      r
  }

  lemma {:induction false} BarAtAppend(bars: seq<BarRow>, row: BarRow, series: Series, t: int)
    ensures BarAt(bars + [row], series, t) ==
      if BarAt(bars, series, t).Some? then BarAt(bars, series, t)
      else if row.series == series && row.bar.time == t then Some(row.bar) else None
    decreases |bars|
  {
    if bars != [] {
      assert (bars + [row])[1..] == bars[1..] + [row];
      BarAtAppend(bars[1..], row, series, t);
    }
  }

  /** With unique keys, a stored row is what `BarAt` finds under its key. */
  lemma BarAtOfRow(bars: seq<BarRow>, series: Series, b: Bar)
    requires UniqueBarKeys(bars)
    ensures BarRow(series, b) in bars <==> BarAt(bars, series, b.time) == Some(b)
  {
    if BarRow(series, b) in bars {
      var i :| 0 <= i < |bars| && bars[i] == BarRow(series, b);
      var c := BarAt(bars, series, b.time).value;
      var j :| 0 <= j < |bars| && bars[j] == BarRow(series, c);
      assert i == j;
    }
  }

  /** The annotation stored under `(series, t)`. */
  function ValueAt<V>(table: seq<Annotation<V>>, series: Series, t: int): (r: Option<V>)
    ensures r.None? <==> forall i :: 0 <= i < |table| ==> !(table[i].series == series && table[i].time == t)
    ensures r.Some? ==> Annotation(series, t, r.value) in table
  {
    if table == [] then None
    else if table[0].series == series && table[0].time == t then Some(table[0].value)
    else
      var r := ValueAt(table[1..], series, t);
      assert forall i :: 1 <= i < |table| ==> table[1..][i - 1] == table[i];
      r
  }

  // ---------------------------------------------------------------------------
  // insert_market_data: INSERT OR IGNORE, the first value for a key wins
  // ---------------------------------------------------------------------------

  /** The rows of `frame` inserted one by one into `bars`, and how many were
      new. */
  function InsertBars(bars: seq<BarRow>, series: Series, frame: seq<Bar>): (r: (seq<BarRow>, nat))
    requires UniqueBarKeys(bars)
    ensures UniqueBarKeys(r.0)
    ensures |bars| <= |r.0| && r.0[..|bars|] == bars
    ensures r.1 == |r.0| - |bars|
    ensures forall i :: |bars| <= i < |r.0| ==> r.0[i].series == series && r.0[i].bar in frame
    decreases |frame|
  {
    if frame == [] then (bars, 0)
    else
      var front := frame[..|frame| - 1];
      var b := frame[|frame| - 1];
      var (done, count) := InsertBars(bars, series, front);
      if BarAt(done, series, b.time).Some? then (done, count)
      else
        var next := done + [BarRow(series, b)];
        assert next[..|bars|] == done[..|bars|];
        (next, count + 1)
  }

  /** After the insert, a key already stored keeps its bar, and a new key of
      the series holds the first bar of the frame with that time. */
  lemma {:induction false} InsertBarsLookup(bars: seq<BarRow>, series: Series, frame: seq<Bar>)
    requires UniqueBarKeys(bars)
    ensures forall s, t :: (BarAt(InsertBars(bars, series, frame).0, s, t) ==
      if s == series && BarAt(bars, s, t).None? then FirstAt(frame, t) else BarAt(bars, s, t))
    decreases |frame|
  {
    if frame != [] {
      var front := frame[..|frame| - 1];
      var b := frame[|frame| - 1];
      InsertBarsLookup(bars, series, front);
      var done := InsertBars(bars, series, front).0;
      assert frame == front + [b];
      forall t ensures FirstAt(frame, t) ==
        if FirstAt(front, t).Some? then FirstAt(front, t) else if b.time == t then Some(b) else None
      {
        FirstAtAppend(front, [b], t);
      }
      if BarAt(done, series, b.time).None? {
        forall s, t ensures BarAt(done + [BarRow(series, b)], s, t) ==
          if BarAt(done, s, t).Some? then BarAt(done, s, t)
          else if s == series && b.time == t then Some(b) else None
        {
          BarAtAppend(done, BarRow(series, b), s, t);
        }
      }
    }
  }

  /** `insert_market_data`: the store after the insert and the number of rows
      added. Nothing but the bars table changes. */
  function InsertMarketData(db: Db, series: Series, frame: seq<Bar>): (r: (Db, nat))
    requires Valid(db)
    ensures Valid(r.0)
    ensures r.0 == db.(bars := r.0.bars)
    ensures |db.bars| <= |r.0.bars| && r.0.bars[..|db.bars|] == db.bars
    ensures r.1 == |r.0.bars| - |db.bars|
    ensures forall s, t :: (BarAt(r.0.bars, s, t) ==
      if s == series && BarAt(db.bars, s, t).None? then FirstAt(frame, t) else BarAt(db.bars, s, t))
  {
    var (bars, count) := InsertBars(db.bars, series, frame);
    InsertBarsLookup(db.bars, series, frame);
    var db' := db.(bars := bars);
    forall i | 0 <= i < |db.indicators|
      ensures BarAt(bars, db.indicators[i].series, db.indicators[i].time).Some? { }
    forall i | 0 <= i < |db.signals|
      ensures BarAt(bars, db.signals[i].series, db.signals[i].time).Some? { }
    (db', count)
  }

  /** A stored bar is never overwritten by a later insert. */
  lemma InsertNeverOverwrites(db: Db, series: Series, frame: seq<Bar>, b: Bar)
    requires Valid(db)
    requires BarRow(series, b) in db.bars
    ensures BarRow(series, b) in InsertMarketData(db, series, frame).0.bars
    ensures BarAt(InsertMarketData(db, series, frame).0.bars, series, b.time) == Some(b)
  {
    BarAtOfRow(db.bars, series, b);
    var db' := InsertMarketData(db, series, frame).0;
    BarAtOfRow(db'.bars, series, b);
  }

  lemma {:induction false} InsertPresentIsNoOp(bars: seq<BarRow>, series: Series, frame: seq<Bar>)
    requires UniqueBarKeys(bars)
    requires forall i :: 0 <= i < |frame| ==> BarAt(bars, series, frame[i].time).Some?
    ensures InsertBars(bars, series, frame) == (bars, 0)
    decreases |frame|
  {
    if frame != [] {
      InsertPresentIsNoOp(bars, series, frame[..|frame| - 1]);
    }
  }

  /** Inserting the same frame twice adds nothing the second time. */
  lemma InsertIdempotent(db: Db, series: Series, frame: seq<Bar>)
    requires Valid(db)
    ensures var (db1, _) := InsertMarketData(db, series, frame);
      InsertMarketData(db1, series, frame) == (db1, 0)
  {
    var (db1, _) := InsertMarketData(db, series, frame);
    forall i | 0 <= i < |frame| ensures BarAt(db1.bars, series, frame[i].time).Some? {
      assert FirstAt(frame, frame[i].time).Some?;
    }
    InsertPresentIsNoOp(db1.bars, series, frame);
  }

  // ---------------------------------------------------------------------------
  // get_latest_timestamp
  // ---------------------------------------------------------------------------

  /** `SELECT MAX(timestamp)` over the rows of a series. */
  function LatestTimestamp(bars: seq<BarRow>, series: Series): (r: Option<int>)
    ensures r.None? <==> forall i :: 0 <= i < |bars| ==> bars[i].series != series
    ensures r.Some? ==> exists i :: 0 <= i < |bars| && bars[i].series == series && bars[i].bar.time == r.value
    ensures r.Some? ==> forall i :: 0 <= i < |bars| && bars[i].series == series ==> bars[i].bar.time <= r.value
  {
    if bars == [] then None
    else
      var rest := LatestTimestamp(bars[1..], series);
      assert forall i :: 1 <= i < |bars| ==> bars[1..][i - 1] == bars[i];
      if bars[0].series != series then rest
      else if rest.Some? && rest.value >= bars[0].bar.time then rest
      else Some(bars[0].bar.time)
  }

  // ---------------------------------------------------------------------------
  // get_market_data
  // ---------------------------------------------------------------------------

  /** The inclusive `start_date` / `end_date` filter; an absent bound does not
      filter. */
  predicate InRange(t: int, start: Option<int>, end: Option<int>) {
    (start.None? || start.value <= t) && (end.None? || t <= end.value)
  }

  /** The bars of one series within the bounds, in table order. */
  function SeriesRows(bars: seq<BarRow>, series: Series, start: Option<int>, end: Option<int>): (r: seq<Bar>)
    ensures forall b :: b in r <==> BarRow(series, b) in bars && InRange(b.time, start, end)
    ensures |r| <= |bars|
  {
    if bars == [] then []
    else
      var front := bars[..|bars| - 1];
      var row := bars[|bars| - 1];
      var rest := SeriesRows(front, series, start, end);
      assert bars == front + [row];
      if row.series == series && InRange(row.bar.time, start, end) then rest + [row.bar]
      else rest
  }

  /** With unique `(series, timestamp)` keys the rows of one series have
      distinct timestamps. */
  lemma {:induction false} SeriesRowsUnique(bars: seq<BarRow>, series: Series, start: Option<int>, end: Option<int>)
    requires UniqueBarKeys(bars)
    ensures UniqueTimes(SeriesRows(bars, series, start, end))
    decreases |bars|
  {
    if bars != [] {
      var front := bars[..|bars| - 1];
      var row := bars[|bars| - 1];
      var rest := SeriesRows(front, series, start, end);
      assert UniqueBarKeys(front) by {
        assert forall i :: 0 <= i < |front| ==> front[i] == bars[i];
      }
      SeriesRowsUnique(front, series, start, end);
      if row.series == series && InRange(row.bar.time, start, end) {
        forall b | b in rest ensures b.time != row.bar.time {
          var i :| 0 <= i < |front| && front[i] == BarRow(series, b);
          assert bars[i] == front[i];
          assert !SameKey(bars[i], bars[|bars| - 1]);
        }
        AppendUnique(rest, row.bar);
      }
    }
  }

  /** Whether the query has a `LIMIT`: `if limit:` and SQLite reading a
      negative limit as "no limit". */
  predicate Caps(limit: Option<int>) {
    limit.Some? && limit.value > 0
  }

  /** `get_market_data`: the rows of the series within the inclusive bounds,
      ascending by time, and only the first (oldest) `limit` of them when a
      positive limit is given. */
  function GetMarketData(db: Db, series: Series, start: Option<int>, end: Option<int>, limit: Option<int>)
    : (r: seq<Bar>)
    requires Valid(db)
    ensures Ascending(r)
    ensures forall b :: b in r ==> BarRow(series, b) in db.bars && InRange(b.time, start, end)
    ensures !Caps(limit) ==>
      forall b :: BarRow(series, b) in db.bars && InRange(b.time, start, end) ==> b in r
    ensures Caps(limit) ==> |r| <= limit.value
    ensures Caps(limit) ==>
      forall b :: BarRow(series, b) in db.bars && InRange(b.time, start, end) && b !in r ==>
        |r| == limit.value && forall i :: 0 <= i < |r| ==> r[i].time < b.time
  {
    var sorted := SortedSeries(db.bars, series, start, end);
    if Caps(limit) && limit.value < |sorted| then
      var r := sorted[..limit.value];
      AscendingPrefix(sorted, r);
      r
    else sorted
  }

  /** `... ORDER BY timestamp ASC`. */
  function SortedSeries(bars: seq<BarRow>, series: Series, start: Option<int>, end: Option<int>)
    : (r: seq<Bar>)
    requires UniqueBarKeys(bars)
    ensures Ascending(r)
    ensures forall b :: b in r <==> BarRow(series, b) in bars && InRange(b.time, start, end)
  {
    TimeLeTotal();
    var rows := SeriesRows(bars, series, start, end);
    SeriesRowsUnique(bars, series, start, end);
    var sorted := SortBy(rows, TimeLe);
    PermutationKeepsUnique(rows, sorted);
    SortedUniqueAscending(sorted);
    SameElements(rows, sorted);
    sorted
  }

  /** Every bar of a series, oldest first: what the cache reads back. */
  function AllBars(db: Db, series: Series): (r: seq<Bar>)
    requires Valid(db)
    ensures Ascending(r)
    ensures forall b :: b in r <==> BarAt(db.bars, series, b.time) == Some(b)
    ensures r == [] <==> LatestTimestamp(db.bars, series).None?
  {
    var r := GetMarketData(db, series, None, None, None);
    FullReadMembers(db, series);
    FullReadNonEmpty(db, series);
    r
  }

  lemma FullReadMembers(db: Db, series: Series)
    requires Valid(db)
    ensures forall b :: b in GetMarketData(db, series, None, None, None) <==> BarAt(db.bars, series, b.time) == Some(b)
  {
    var r := GetMarketData(db, series, None, None, None);
    forall b ensures b in r <==> BarAt(db.bars, series, b.time) == Some(b) {
      BarAtOfRow(db.bars, series, b);
    }
  }

  lemma FullReadNonEmpty(db: Db, series: Series)
    requires Valid(db)
    ensures LatestTimestamp(db.bars, series).Some? ==> GetMarketData(db, series, None, None, None) != []
  {
    if LatestTimestamp(db.bars, series).Some? {
      var i :| 0 <= i < |db.bars| && db.bars[i].series == series;
      assert db.bars[i].bar in GetMarketData(db, series, None, None, None);
    }
  }

  // ---------------------------------------------------------------------------
  // insert_indicators / insert_signals: INSERT OR REPLACE on matched bars
  // ---------------------------------------------------------------------------

  /** One row of the frame passed to an annotation insert: its time and the
      values to store, `None` when the database rejects the row. */
  datatype Item<V> = Item(time: int, value: Option<V>)

  /** Whether the insert stores the item: a bar exists for its timestamp and
      the row passes the table's constraints. */
  predicate Stores<V>(bars: seq<BarRow>, series: Series, item: Item<V>) {
    BarAt(bars, series, item.time).Some? && item.value.Some?
  }

  /** The number of items the insert stores. */
  function CountStored<V>(bars: seq<BarRow>, series: Series, items: seq<Item<V>>): (n: nat)
    ensures n <= |items|
  {
    if items == [] then 0
    else CountStored(bars, series, items[..|items| - 1]) + BoolToInt(Stores(bars, series, items[|items| - 1]))
  }

  /** The value of the last stored item at time `t`. */
  function LastStored<V>(bars: seq<BarRow>, series: Series, items: seq<Item<V>>, t: int): (r: Option<V>)
    ensures r.Some? ==> BarAt(bars, series, t).Some?
  {
    if items == [] then None
    else
      var last := items[|items| - 1];
      if last.time == t && Stores(bars, series, last) then last.value
      else LastStored(bars, series, items[..|items| - 1], t)
  }

  /** The table without the row for `(series, t)`. */
  function Without<V(!new)>(table: seq<Annotation<V>>, series: Series, t: int): (r: seq<Annotation<V>>)
    ensures forall a :: a in r <==> a in table && !(a.series == series && a.time == t)
    ensures UniqueAnnotationKeys(table) ==> UniqueAnnotationKeys(r)
  {
    if table == [] then []
    else
      var rest := Without(table[1..], series, t);
      assert table == [table[0]] + table[1..];
      if table[0].series == series && table[0].time == t then rest
      else
        assert UniqueAnnotationKeys(table) ==>
          forall a :: a in rest ==> !(a.series == table[0].series && a.time == table[0].time) by {
          if UniqueAnnotationKeys(table) {
            forall a | a in rest ensures !(a.series == table[0].series && a.time == table[0].time) {
              var i :| 0 <= i < |table[1..]| && table[1..][i] == a;
              assert table[i + 1] == a;
            }
          }
        }
        [table[0]] + rest
  }

  /** With unique keys, a table row is what `ValueAt` finds under its key. */
  lemma ValueAtOfRow<V>(table: seq<Annotation<V>>, a: Annotation<V>)
    requires UniqueAnnotationKeys(table)
    requires a in table
    ensures ValueAt(table, a.series, a.time) == Some(a.value)
  {
    var i :| 0 <= i < |table| && table[i] == a;
    var v := ValueAt(table, a.series, a.time).value;
    var j :| 0 <= j < |table| && table[j] == Annotation(a.series, a.time, v);
    assert i == j;
  }

  /** INSERT OR REPLACE of one row. */
  function Replace<V(!new)>(table: seq<Annotation<V>>, row: Annotation<V>): (r: seq<Annotation<V>>)
    requires UniqueAnnotationKeys(table)
    ensures UniqueAnnotationKeys(r)
    ensures forall a :: a in r <==> a == row || (a in table && !(a.series == row.series && a.time == row.time))
    ensures forall s, t :: (ValueAt(r, s, t) ==
      if s == row.series && t == row.time then Some(row.value) else ValueAt(table, s, t))
  {
    var rest := Without(table, row.series, row.time);
    var r := rest + [row];
    forall s, t ensures ValueAt(r, s, t) ==
      if s == row.series && t == row.time then Some(row.value) else ValueAt(table, s, t)
    {
      if s == row.series && t == row.time {
        ValueAtOfRow(r, row);
      } else if ValueAt(table, s, t).Some? {
        ValueAtOfRow(r, Annotation(s, t, ValueAt(table, s, t).value));
      } else {
        forall i | 0 <= i < |r| ensures !(r[i].series == s && r[i].time == t) {
          if i < |rest| {
            assert r[i] in rest;
            var j :| 0 <= j < |table| && table[j] == r[i];
          }
        }
      }
    }
    r
  }

  /** The annotation rows of `items` upserted one by one into `table`, and how
      many were stored. */
  function UpsertMatched<V(!new)>(table: seq<Annotation<V>>, bars: seq<BarRow>, series: Series, items: seq<Item<V>>)
    : (r: (seq<Annotation<V>>, nat))
    requires UniqueAnnotationKeys(table) && Linked(table, bars)
    ensures UniqueAnnotationKeys(r.0) && Linked(r.0, bars)
    ensures r.1 == CountStored(bars, series, items)
    ensures forall s, t :: (ValueAt(r.0, s, t) ==
      if s == series && LastStored(bars, series, items, t).Some? then LastStored(bars, series, items, t)
      else ValueAt(table, s, t))
    decreases |items|
  {
    if items == [] then (table, 0)
    else
      var item := items[|items| - 1];
      var (done, count) := UpsertMatched(table, bars, series, items[..|items| - 1]);
      if Stores(bars, series, item) then
        var next := Replace(done, Annotation(series, item.time, item.value.value));
        forall i | 0 <= i < |next| ensures BarAt(bars, next[i].series, next[i].time).Some? {
          if next[i] != Annotation(series, item.time, item.value.value) {
            var j :| 0 <= j < |done| && done[j] == next[i];
          }
        }
        (next, count + 1)
      else (done, count)
  }

  /** `insert_indicators`: every row whose timestamp has a bar replaces the
      indicator row of that bar (missing and NaN values are NULL, already
      `None` here); unmatched rows are skipped and not counted. */
  function InsertIndicators(db: Db, series: Series, rows: seq<Item<IndicatorValues>>): (r: (Db, nat))
    requires Valid(db)
    requires forall i :: 0 <= i < |rows| ==> rows[i].value.Some?
    ensures Valid(r.0)
    ensures r.0 == db.(indicators := r.0.indicators)
    ensures r.1 == CountStored(db.bars, series, rows)
    ensures forall s, t :: (ValueAt(r.0.indicators, s, t) ==
      if s == series && LastStored(db.bars, series, rows, t).Some? then LastStored(db.bars, series, rows, t)
      else ValueAt(db.indicators, s, t))
  {
    var (table, count) := UpsertMatched(db.indicators, db.bars, series, rows);
    (db.(indicators := table), count)
  }

  /** A row of the frame passed to `insert_signals`; `None` is a missing
      column. */
  datatype SignalInput = SignalInput(
    time: int, momentum: Option<int>, meanReversion: Option<int>, volume: Option<int>,
    score: Option<int>, recommendation: Option<string>)

  /** CHECK(recommendation IN ('buy', 'sell', 'hold')). */
  predicate ValidRecommendation(rec: string) {
    rec == "buy" || rec == "sell" || rec == "hold"
  }

  /** The values `insert_signals` writes: missing integers default to 0 and a
      missing recommendation to `hold`; a recommendation the CHECK constraint
      rejects makes the statement fail, and the row is skipped. */
  function SignalItem(row: SignalInput): (r: Item<SignalValues>)
    ensures r.time == row.time
    ensures r.value.Some? <==> ValidRecommendation(row.recommendation.GetOr("hold"))
    ensures r.value.Some? ==> r.value.value == SignalValues(
      row.momentum.GetOr(0), row.meanReversion.GetOr(0), row.volume.GetOr(0),
      row.score.GetOr(0), row.recommendation.GetOr("hold"))
  {
    var rec := row.recommendation.GetOr("hold");
    if ValidRecommendation(rec) then
      Item(row.time, Some(SignalValues(
        row.momentum.GetOr(0), row.meanReversion.GetOr(0), row.volume.GetOr(0),
        row.score.GetOr(0), rec)))
    else Item(row.time, None)
  }

  function SignalItems(rows: seq<SignalInput>): (r: seq<Item<SignalValues>>)
    ensures |r| == |rows|
    ensures forall i :: 0 <= i < |rows| ==> r[i] == SignalItem(rows[i])
  {
    if rows == [] then [] else [SignalItem(rows[0])] + SignalItems(rows[1..])
  }

  /** `insert_signals`: like `insert_indicators`, except that a row whose
      recommendation is not buy, sell or hold is neither stored nor counted. */
  function InsertSignals(db: Db, series: Series, rows: seq<SignalInput>): (r: (Db, nat))
    requires Valid(db)
    ensures Valid(r.0)
    ensures r.0 == db.(signals := r.0.signals)
    ensures r.1 == CountStored(db.bars, series, SignalItems(rows))
    ensures forall s, t :: (ValueAt(r.0.signals, s, t) ==
      var last := LastStored(db.bars, series, SignalItems(rows), t);
      if s == series && last.Some? then last else ValueAt(db.signals, s, t))
  {
    var (table, count) := UpsertMatched(db.signals, db.bars, series, SignalItems(rows));
    (db.(signals := table), count)
  }

  /** A row with no bar, or with a recommendation outside buy/sell/hold (the
      `enter` and `exit` of the stateful engine, say), changes nothing and
      counts nothing. */
  lemma RejectedSignalIgnored(db: Db, series: Series, row: SignalInput)
    requires Valid(db)
    requires BarAt(db.bars, series, row.time).None? || !ValidRecommendation(row.recommendation.GetOr("hold"))
    ensures InsertSignals(db, series, [row]) == (db, 0)
  {
    var (db', n) := InsertSignals(db, series, [row]);
    var items := SignalItems([row]);
    assert items == [SignalItem(row)];
    assert items[..0] == [];
    assert UpsertMatched(db.signals, db.bars, series, items[..0]) == (db.signals, 0);
    assert !Stores(db.bars, series, items[0]);
    assert UpsertMatched(db.signals, db.bars, series, items) == (db.signals, 0);
  }

  // ---------------------------------------------------------------------------
  // Agent runs and recommendations
  // ---------------------------------------------------------------------------

  predicate ValidAgentType(t: string) {
    t == "local" || t == "llm"
  }

  predicate ValidStatus(s: string) {
    s == "success" || s == "partial" || s == "failed"
  }

  /** `create_agent_run`, with the wall clock passed in as `now`: the new id,
      or the CHECK violation the insert raises. */
  function CreateAgentRun(
    db: Db, agentType: string, assetsProcessed: int, assetsFailed: int, executionTime: real,
    status: string, provider: Option<string>, model: Option<string>,
    errorMessage: Option<string>, now: int)
    : (r: Result<(Db, nat), DbError>)
    requires Valid(db)
    ensures r.Err? <==> !ValidAgentType(agentType) || !ValidStatus(status)
    ensures r.Ok? ==> Valid(r.value.0) && r.value.1 == |db.runs| + 1
    ensures r.Ok? ==> r.value.0 == db.(runs := db.runs + [AgentRun(
      r.value.1, now, agentType, provider, model, assetsProcessed, assetsFailed,
      executionTime, status, errorMessage)])
  {
    if !ValidAgentType(agentType) then Err(CheckViolation("agent_type", agentType))
    else if !ValidStatus(status) then Err(CheckViolation("status", status))
    else
      var id := |db.runs| + 1;
      Ok((db.(runs := db.runs + [AgentRun(
        id, now, agentType, provider, model, assetsProcessed, assetsFailed,
        executionTime, status, errorMessage)]), id))
  }

  /** `insert_recommendation`, with `created_at` passed in. The run id is not
      checked against `agent_runs` (SQLite does not enforce foreign keys
      unless asked to). */
  function InsertRecommendation(
    db: Db, runId: int, symbol: string, recommendation: string, rationale: string,
    price: Option<real>, confidence: Option<real>, portfolio: Option<string>, createdAt: int)
    : (r: Result<(Db, nat), DbError>)
    requires Valid(db)
    ensures r.Err? <==> !ValidRecommendation(recommendation)
    ensures r.Ok? ==> Valid(r.value.0) && r.value.1 == |db.recommendations| + 1
    ensures r.Ok? ==> r.value.0 == db.(recommendations := db.recommendations + [Recommendation(
      r.value.1, runId, symbol, recommendation, rationale, portfolio, confidence, price, createdAt)])
  {
    if !ValidRecommendation(recommendation) then Err(CheckViolation("recommendation", recommendation))
    else
      var id := |db.recommendations| + 1;
      Ok((db.(recommendations := db.recommendations + [Recommendation(
        id, runId, symbol, recommendation, rationale, portfolio, confidence, price, createdAt)]), id))
  }

  /** SQL `LIMIT n`: the first `n` rows, every row when `n` is negative. */
  function SqlLimit<T>(s: seq<T>, n: int): (r: seq<T>)
    ensures r <= s
    ensures multiset(r) <= multiset(s)
    ensures n < 0 || |s| <= n ==> r == s
    ensures 0 <= n ==> |r| == Min(n, |s|)
  {
    PrefixMultiset(s, if n < 0 || |s| <= n then s else s[..n]);
    if n < 0 || |s| <= n then s else s[..n]
  }

  /** A row of `get_recommendation_history`. */
  datatype HistoryRow = HistoryRow(
    createdAt: int, symbol: string, recommendation: string, rationale: string,
    price: Option<real>, confidence: Option<real>,
    agentType: string, provider: Option<string>, model: Option<string>)

  /** The run a recommendation points at, if it exists. */
  function RunOf(db: Db, rec: Recommendation): (r: Option<AgentRun>)
    requires RunIds(db.runs)
    ensures r.Some? <==> exists i :: 0 <= i < |db.runs| && db.runs[i].id == rec.runId
    ensures r.Some? ==> r.value in db.runs && r.value.id == rec.runId
  {
    if 1 <= rec.runId <= |db.runs| then
      assert db.runs[rec.runId - 1].id == rec.runId;
      Some(db.runs[rec.runId - 1])
    else None
  }

  /** `if symbol:` — an absent or empty symbol does not filter. */
  predicate SymbolMatches(filter: Option<string>, symbol: string) {
    filter.None? || filter.value == [] || filter.value == symbol
  }

  /** The joined, filtered rows in table order. */
  function HistoryRows(db: Db, recs: seq<Recommendation>, filter: Option<string>): (r: seq<HistoryRow>)
    requires RunIds(db.runs)
    ensures |r| <= |recs|
  {
    if recs == [] then []
    else
      var rest := HistoryRows(db, recs[1..], filter);
      var rec := recs[0];
      match RunOf(db, rec)
      case None => rest
      case Some(run) =>
        if SymbolMatches(filter, rec.symbol) then
          [HistoryRow(rec.createdAt, rec.symbol, rec.recommendation, rec.rationale,
                      rec.price, rec.confidence, run.agentType, run.provider, run.model)] + rest
        else rest
  }

  /** A history row is exactly a recommendation of an existing run that
      passes the symbol filter, with that run's columns. */
  lemma {:induction false} HistoryRowsMembership(db: Db, recs: seq<Recommendation>, filter: Option<string>, h: HistoryRow)
    requires RunIds(db.runs)
    ensures h in HistoryRows(db, recs, filter) <==>
      exists i :: 0 <= i < |recs| && RunOf(db, recs[i]).Some? && SymbolMatches(filter, recs[i].symbol)
        && h == HistoryRow(recs[i].createdAt, recs[i].symbol, recs[i].recommendation, recs[i].rationale,
                           recs[i].price, recs[i].confidence, RunOf(db, recs[i]).value.agentType,
                           RunOf(db, recs[i]).value.provider, RunOf(db, recs[i]).value.model)
    decreases |recs|
  {
    if recs != [] {
      HistoryRowsMembership(db, recs[1..], filter, h);
      assert forall i :: 1 <= i < |recs| ==> recs[1..][i - 1] == recs[i];
      if exists i :: (1 <= i < |recs| && RunOf(db, recs[i]).Some? && SymbolMatches(filter, recs[i].symbol)
        && h == HistoryRow(recs[i].createdAt, recs[i].symbol, recs[i].recommendation, recs[i].rationale,
                           recs[i].price, recs[i].confidence, RunOf(db, recs[i]).value.agentType,
                           RunOf(db, recs[i]).value.provider, RunOf(db, recs[i]).value.model)) {
        var i :| 1 <= i < |recs| && RunOf(db, recs[i]).Some? && SymbolMatches(filter, recs[i].symbol)
        && h == HistoryRow(recs[i].createdAt, recs[i].symbol, recs[i].recommendation, recs[i].rationale,
                           recs[i].price, recs[i].confidence, RunOf(db, recs[i]).value.agentType,
                           RunOf(db, recs[i]).value.provider, RunOf(db, recs[i]).value.model);
        assert recs[1..][i - 1] == recs[i];
      }
    }
  }

  predicate NewerOrSame(a: HistoryRow, b: HistoryRow) {
    a.createdAt >= b.createdAt
  }

  lemma NewerOrSameOrder()
    ensures Total(NewerOrSame) && Transitive(NewerOrSame)
  {
  }

  /** `get_recommendation_history`: the recommendations of existing runs,
      filtered to `symbol` when one is given, newest first, at most `limit`
      of them. Rows with equal `created_at` come in an unspecified order. */
  function RecommendationHistory(db: Db, symbol: Option<string>, limit: int): (r: seq<HistoryRow>)
    requires Valid(db)
    ensures SortedBy(r, NewerOrSame)
    ensures forall h :: h in r ==> h in HistoryRows(db, db.recommendations, symbol)
    ensures multiset(r) <= multiset(HistoryRows(db, db.recommendations, symbol))
    ensures 0 <= limit ==> |r| == Min(limit, |HistoryRows(db, db.recommendations, symbol)|)
    ensures limit < 0 ==> multiset(r) == multiset(HistoryRows(db, db.recommendations, symbol))
    ensures forall h :: h in HistoryRows(db, db.recommendations, symbol) && h !in r ==>
      forall i :: 0 <= i < |r| ==> NewerOrSame(r[i], h)
  {
    NewerOrSameOrder();
    var all := HistoryRows(db, db.recommendations, symbol);
    var sorted := SortBy(all, NewerOrSame);
    SameElements(all, sorted);
    var r := SqlLimit(sorted, limit);
    SortedPrefix(sorted, r, NewerOrSame);
    forall h | h in all && h !in r ensures forall i :: 0 <= i < |r| ==> NewerOrSame(r[i], h) {
      PrefixDominates(sorted, r, NewerOrSame, h);
    }
    r
  }

  /** A row of `get_agent_runs_summary`. */
  datatype RunSummary = RunSummary(run: AgentRun, recommendationsCount: nat)

  function RunIdsOf(recs: seq<Recommendation>): (r: seq<int>)
    ensures |r| == |recs|
    ensures forall i :: 0 <= i < |recs| ==> r[i] == recs[i].runId
  {
    if recs == [] then [] else [recs[0].runId] + RunIdsOf(recs[1..])
  }

  /** `SELECT COUNT(*) FROM recommendations WHERE agent_run_id = id`. */
  function CountForRun(recs: seq<Recommendation>, id: int): (n: nat)
    ensures n == multiset(RunIdsOf(recs))[id]
  {
    if recs == [] then 0
    else
      assert RunIdsOf(recs) == [recs[0].runId] + RunIdsOf(recs[1..]);
      CountForRun(recs[1..], id) + BoolToInt(recs[0].runId == id)
  }

  function Summaries(runs: seq<AgentRun>, recs: seq<Recommendation>): (r: seq<RunSummary>)
    ensures |r| == |runs|
    ensures forall i :: 0 <= i < |runs| ==> r[i] == RunSummary(runs[i], CountForRun(recs, runs[i].id))
  {
    if runs == [] then [] else [RunSummary(runs[0], CountForRun(recs, runs[0].id))] + Summaries(runs[1..], recs)
  }

  predicate RanLaterOrSame(a: RunSummary, b: RunSummary) {
    a.run.runTimestamp >= b.run.runTimestamp
  }

  lemma RanLaterOrSameOrder()
    ensures Total(RanLaterOrSame) && Transitive(RanLaterOrSame)
  {
  }

  /** All runs with their counts, newest first. */
  function SortedSummaries(db: Db): (r: seq<RunSummary>)
    ensures SortedBy(r, RanLaterOrSame)
    ensures |r| == |db.runs|
    ensures multiset(r) == multiset(Summaries(db.runs, db.recommendations))
    ensures forall x :: x in r ==> x.run in db.runs && x.recommendationsCount == CountForRun(db.recommendations, x.run.id)
    ensures forall run :: run in db.runs ==> RunSummary(run, CountForRun(db.recommendations, run.id)) in r
  {
    RanLaterOrSameOrder();
    var all := Summaries(db.runs, db.recommendations);
    var sorted := SortBy(all, RanLaterOrSame);
    SameElements(all, sorted);
    forall x | x in all ensures x.run in db.runs && x.recommendationsCount == CountForRun(db.recommendations, x.run.id) {
      var i :| 0 <= i < |all| && all[i] == x;
    }
    forall run | run in db.runs ensures RunSummary(run, CountForRun(db.recommendations, run.id)) in all {
      var j :| 0 <= j < |db.runs| && db.runs[j] == run;
      assert all[j] == RunSummary(run, CountForRun(db.recommendations, run.id));
    }
    sorted
  }

  /** `get_agent_runs_summary`: the most recent `limit` runs, newest first,
      each with the number of recommendations that point at it. */
  function AgentRunsSummary(db: Db, limit: int): (r: seq<RunSummary>)
    requires Valid(db)
    ensures SortedBy(r, RanLaterOrSame)
    ensures forall x :: x in r ==> x.run in db.runs
    ensures forall x :: x in r ==> x.recommendationsCount == multiset(RunIdsOf(db.recommendations))[x.run.id]
    ensures multiset(r) <= multiset(Summaries(db.runs, db.recommendations))
    ensures 0 <= limit ==> |r| == Min(limit, |db.runs|)
    ensures limit < 0 ==> multiset(r) == multiset(Summaries(db.runs, db.recommendations))
    ensures forall run :: run in db.runs && (forall x :: x in r ==> x.run != run) ==>
      forall i :: 0 <= i < |r| ==> r[i].run.runTimestamp >= run.runTimestamp
  {
    RanLaterOrSameOrder();
    var sorted := SortedSummaries(db);
    var r := SqlLimit(sorted, limit);
    SortedPrefix(sorted, r, RanLaterOrSame);
    forall run | run in db.runs && (forall x :: x in r ==> x.run != run)
      ensures forall i :: 0 <= i < |r| ==> r[i].run.runTimestamp >= run.runTimestamp
    {
      PrefixDominates(sorted, r, RanLaterOrSame, RunSummary(run, CountForRun(db.recommendations, run.id)));
    }
    r
  }
}
